=== FILE: README.md ===
# a1-stack-analyser: detection and aggregation core, in Dafny

The stack analyser walks a repository through a *provider* (an interface for listing
directories and opening files). It recognises the technologies the repository uses and
builds a tree of *payloads* (components). Each payload records its techs, languages,
`(ecosystem, name, version)` dependency triples and the reasons for each finding.

This project models the core of that engine and proves properties of the model.

- **Rule registry** (`register.rs`). The class `Registry.Registry` holds the four
  global stores: `REGISTERED_TECH`, `REGISTERED_RULES`, `LIST_INDEXED` and
  `NAME_TO_KEY`. The module `Register` gives the functions that specify it.
- **Matcher compilation** (`loader.rs`). The class `Loading.RuleTables` holds the tables
  `DEPENDENCIES`, `RULES_TECHS`, `RULES_EXTENSIONS`, `RULES_COMPONENTS` and `RAW_LIST`.
  Its methods are proved against the functions of `Loader`.
- **Matching engine**:
  - `match_files`, `match_files_regex` and `match_extensions` are pure first-match
    searches.
  - `match_dependencies` is a method with nested loops, proved against a count of
    matching (package, matcher) pairs.
  - `match_all_files` puts file evidence first and extension evidence second. An
    extension never overwrites a tech already found.
- **Language detection** (`languages.rs`). The catalog is partitioned into programming
  and other languages. `detect_lang` looks up the extension of a file name, with
  programming languages first.
- **Payload** (`payload.rs`). The class `Payloads.Payload` has `new`, `add_child`,
  `add_tech(s)`, `add_lang`, `detect_lang`, `combine_dependencies` and `combine`. In the
  repository these bodies exist only as commented-out code (`payload.rs:109-205`), but
  live code calls them. The model follows the commented bodies.
- **Helpers** (`helpers.rs`): implicit components, the hosting check, dependency-edge
  candidates, post-order `push_childs` and `flatten` with tech-keyed deduplication.
- **Manifest detectors** for `Cargo.toml`, `package.json` and `docker-compose*.y(a)ml`.
  Each takes the already-parsed manifest record and builds the component.
- **In-memory provider** `FakeProvider`: `list_dir` (sorted, with directories marked
  by a trailing `/`), `open` and `base_path`.

Some things the engine relies on but cannot be seen are parameters of the model:

- The regular-expression engine is a predicate `RegexEngine` over (pattern, text).
- Reading a file is `open`.
- Parsing TOML, JSON and YAML is `parse`.
- The `languages.json` catalog is a sequence of catalog entries.

Iteration over a Rust `HashMap` or `HashSet` visits the keys in an unspecified order.
`Wrappers.Enumerate` models it as some duplicate-free sequence of the keys. Every
contract that depends on it holds whatever order that is.

## Model

| member | source | states |
|---|---|---|
| Registry.Registry.constructor | src/rules/register.rs:7-16 | all four stores start empty, and the store invariant holds |
| Registry.Registry.Register | src/rules/register.rs:18-32 | The outcome is an error exactly when the tech is already registered, and then no store changes, so the first registration wins. Otherwise the tech is added, the rule is appended, and `LIST_INDEXED[tech]` and `NAME_TO_KEY[name]` are set. The store invariant is kept |
| Registry.Registry.RegisterAll | src/rules/register.rs:18-55 | Every rule is registered in order before any result is checked. The rules and techs gain exactly the admitted rules. `NAME_TO_KEY` becomes the old map with each admitted rule's name mapped to its tech in order, so the last admitted rule of a name wins. The result is the first error in list order, otherwise Ok |
| Registry.RegisterKeepsConsistent | src/rules/register.rs:21-29 | registering a new tech keeps the invariant: the tech set equals the key set of `LIST_INDEXED` and the techs of `REGISTERED_RULES`, the techs are distinct, and `NAME_TO_KEY` maps each registered name to its tech |
| Registry.IndexedUnderOwnKey | src/rules/register.rs:25-28 | in a consistent registry every rule is indexed under its own tech |
| Registry.FirstFailureOf | src/rules/register.rs:50-54 | the loop over the collected results returns the first error, or Ok when there is none |
| Registry.AdmittedStep | src/rules/register.rs:39-48 | the rules admitted after a prefix grow by the next rule exactly when its tech is still unregistered |
| Registry.RegisterAllStep | src/rules/register.rs:39-48 | one more registration in the loop yields the next outcome and the next admitted prefix |
| Registry.NamesAfterSnoc | src/rules/register.rs:29 | one more admitted rule maps its name to its tech on top of the map so far |
| Registry.NamesAfterLastWins | src/rules/register.rs:29 | After a run of registrations, a name is mapped iff it was mapped before or some admitted rule carries it. It maps to the tech of the last rule carrying it. A name no rule carries keeps its old tech |
| Register.FirstFailure | src/rules/register.rs:50-54 | Ok if and only if every result is Ok; otherwise the first error in list order |
| Register.AdmittedKeys | src/rules/register.rs:18-55 | The admitted rules have distinct techs, none of them registered before. Together with the earlier techs they cover every tech offered |
| Register.AdmittedFirstWins | src/rules/register.rs:21-23 | each admitted rule is the first in the list with its tech |
| Register.OutcomesAt | src/rules/register.rs:39-48 | there is one outcome per rule, and call `i` succeeds exactly when its tech is neither registered already nor used by an earlier rule |
| Register.RegisterAllSucceedsIff | src/rules/register.rs:34-55 | `register_all` succeeds if and only if the techs are distinct and none is registered already; then every rule is admitted in order |
| Register.AdmittedAll | src/rules/register.rs:189-231 | n rules with distinct new techs are all admitted, in registration order |
| Loader.InitialTables | src/rules/loader.rs:12-35 | the dependency table is seeded with exactly the eleven ecosystems, each with an empty list, and every other table is empty |
| Loader.InitialWellFormed | src/rules/loader.rs:12-35 | the initial tables satisfy the table invariant |
| Loader.LoadDependenciesEffect | src/rules/loader.rs:58-82 | The dependency loop fails exactly when some declared name is empty. The ecosystem keys are unchanged. Without a failure, each ecosystem gains the `^name$` matchers of its own dependencies and the raw list gains one entry per named dependency |
| Loader.LoadDependenciesFailure | src/rules/loader.rs:61-66 | a failing dependency loop reports the empty-name panic message of the rule |
| Loader.LoadOneFailsIff | src/rules/loader.rs:56-125 | `load_one` fails exactly when some dependency name is empty, with the rule's panic message, and never adds or removes an ecosystem key |
| Loader.LoadOneAppends | src/rules/loader.rs:56-125 | Each ecosystem's list gains exactly the matchers of its dependencies. One tech matcher is added iff the files are a list or a pattern, and one extension matcher iff there are extensions. The detectors are appended in order. The raw list gains exactly one entry per named dependency, then the file entry when there is a file matcher, then the extension entry when there are extensions |
| Loader.MatchersForShape | src/rules/loader.rs:68-75 | every matcher compiled from non-empty names anchors a whole non-empty name and credits the rule's tech |
| Loader.LoadOneKeepsWellFormed | src/rules/loader.rs:56-125 | loading a rule with no empty name keeps the table invariant: the seeded ecosystems, and only whole-name matchers crediting loaded techs |
| Loader.LoadDependenciesKeepsWellFormed | src/rules/loader.rs:58-82 | the dependency loop keeps the table invariant, even when it stops early |
| Loader.LoadAllKeepsWellFormed | src/rules/loader.rs:49-54 | `load_all_rules` keeps the table invariant and fails exactly when some rule declares an empty dependency name |
| Loader.PythonFixture | src/rules/loader.rs:156-182 | a rule keyed python declaring `django` gives the python ecosystem exactly the matcher `^django$` and one raw entry |
| Loader.LoadAllFixture | src/rules/loader.rs:307-354 | two rules give one python matcher, one tech matcher and two raw entries |
| Loading.RuleTables.constructor | src/rules/loader.rs:12-35 | the tables start as the initial tables |
| Loading.RuleTables.LoadOne | src/rules/loader.rs:56-125 | the new tables and the outcome are those of `Loader.LoadOne` on the old tables |
| Loading.RuleTables.LoadAllRules | src/rules/loader.rs:49-54 | the new tables and the outcome are those of loading each rule in turn, stopping at the first failure |
| MatchDependencies.Repeat | src/rules/match_dependencies.rs:12-17 | n copies of one reason |
| MatchDependencies.MatchDependencies | src/rules/match_dependencies.rs:4-23 | An unknown ecosystem gives an empty map. A tech is a key iff some (package, matcher-for-that-tech) pair matches. Its list holds `"matched: " + tech` once per matching pair |
| MatchDependencies.RecordsPush | src/rules/match_dependencies.rs:12-17 | one push keeps the loop invariant: each tech's list counts the pairs matched so far |
| MatchDependencies.RecordsStartPackage | src/rules/match_dependencies.rs:9-10 | the invariant holds at the start of each package |
| MatchDependencies.RecordsNextPackage | src/rules/match_dependencies.rs:9-19 | the invariant carries over from one package to the next |
| MatchDependencies.MatcherHitsPositive | src/rules/match_dependencies.rs:10-18 | a package hits a tech iff some matcher for that tech matches it |
| MatchDependencies.PairHitsPositive | src/rules/match_dependencies.rs:9-18 | a tech has a positive count iff some package and some matcher for that tech match; several techs can be claimed at once |
| MatchDependencies.PairHitsAppend | src/rules/match_dependencies.rs:9-18 | the count over two package lists is the sum of the counts |
| MatchDependencies.PairHitsRemove | src/rules/match_dependencies.rs:9-18 | removing one package subtracts that package's own hits |
| MatchDependencies.PairHitsPermutation | src/rules/match_dependencies.rs:9-18 | the counts, and so the result, do not depend on the order of the packages |
| MatchDependencies.TwoMatchersFixture | src/rules/match_dependencies.rs:95-125 | with matchers for `dep-1` and `dep-2`, each tech is claimed once, both at the same time, and a non-matching package claims nothing |
| MatchDependencies.MatcherHitsOfTwo | src/rules/match_dependencies.rs:10-18 | the hits of two matchers add up |
| MatchDependencies.PairHitsOfThree | src/rules/match_dependencies.rs:9-18 | the count over three packages is the sum of each package's hits |
| MatchFiles.FirstPassing | src/rules/match_files.rs:11-25 | the first candidate in list order that passes the test; None iff none passes |
| MatchFiles.Answer | src/rules/match_files.rs:19-24 | Some iff the key is indexed and a file was found, paired with `LIST_INDEXED[key]` |
| MatchFiles.MatchFiles | src/rules/match_files.rs:5-29 | Some iff the key is indexed and some file name (or path, with full-path matching) is among the matches. It then returns the indexed rule and the first such name in list order |
| MatchFiles.MatchFilesRegex | src/rules/match_files.rs:31-55 | the same first-match contract, with the pattern accepted by the regex engine instead of list membership |
| MatchFiles.MatchExtensions | src/rules/match_files.rs:57-74 | Some iff the key is indexed and some listed extension is among the rule's; the returned extension is in both |
| MatchFiles.MatchFilesFixtures | src/rules/match_files.rs:115-165 | `test.js` is found, an absent name is not, a full path is found, and a pattern accepting `test.js` finds it |
| MatchFiles.MatchExtensionsFixture | src/rules/match_files.rs:167-193 | `js` against `{js}` is found; against `{rs}` nothing is found |
| MatchAllFiles.FileAnswers | src/payload/match_all_files.rs:11-13 | one answer per tech matcher, each that matcher's search over the listing |
| MatchAllFiles.FileEvidence | src/payload/match_all_files.rs:11-18 | the file loop sets `matched[tech]` for every successful matcher, a later one overwriting an earlier one |
| MatchAllFiles.FileMatchesStep | src/payload/match_all_files.rs:13-16 | one more file matcher either sets its tech to `"matched file: "` plus the name with `base_path` deleted, or changes nothing |
| MatchAllFiles.FileMatchesKeys | src/payload/match_all_files.rs:11-18 | a tech has file evidence iff some file matcher succeeded for it |
| MatchAllFiles.FileMatchesLastWins | src/payload/match_all_files.rs:13-16 | a tech's file evidence is the single reason of the last matcher that succeeded for it |
| MatchAllFiles.ListingExtensions | src/payload/match_all_files.rs:21-30 | the extension set is the set of the listed names' extensions, `""` for a name without one |
| MatchAllFiles.ExtensionHits | src/payload/match_all_files.rs:31-41 | the techs with extension evidence are exactly those of the indexed matchers sharing an extension with the listing |
| MatchAllFiles.SharedExtension | src/rules/match_files.rs:62-73 | searching any enumeration of the listing's extensions finds one iff the two sets intersect |
| MatchAllFiles.ExtensionPhaseSkip | src/payload/match_all_files.rs:31-41 | a matcher that finds nothing, or whose tech is already present, keeps the extension-loop invariant |
| MatchAllFiles.ExtensionPhaseRecord | src/payload/match_all_files.rs:34-39 | recording a new tech's `"matched extension: " + ext` keeps the extension-loop invariant |
| MatchAllFiles.RecordReasons | src/payload/match_all_files.rs:36-39 | after a record, every extension-only tech still carries the reason of its first successful matcher |
| MatchAllFiles.FirstHitReason | src/payload/match_all_files.rs:34-39 | the first matcher to find a tech adds it, with that extension's reason |
| MatchAllFiles.FirstReasonsExtend | src/payload/match_all_files.rs:31-41 | reasons fixed by earlier matchers stay those of the first matcher |
| MatchAllFiles.ExtensionEvidence | src/payload/match_all_files.rs:31-41 | The extension loop never overwrites a tech already matched. New techs get the reason of their first successful extension matcher |
| MatchAllFiles.MatchAllFiles | src/payload/match_all_files.rs:3-44 | The keys are the file-evidenced techs plus the extension-evidenced techs. File evidence is kept unchanged. Every other key holds exactly one extension reason |
| MatchAllFiles.EmptyListing | src/payload/match_all_files.rs:3-44 | an empty listing gives no file evidence and no extension evidence, hence an empty map |
| Languages.Select | src/payload/languages.rs:30-42 | exactly the catalog entries whose type is (or is not) Programming |
| Languages.SelectPartition | src/payload/languages.rs:30-42 | `languages()` and `others()` together are a permutation of the catalog |
| Languages.SelectKeepsOrder | src/payload/languages.rs:30-42 | each of the two lists keeps the catalog order |
| Languages.FindByExtension | src/payload/languages.rs:56-63 | the first entry listing the key; None iff no entry lists it |
| Languages.DetectLang | src/payload/languages.rs:44-64 | A name without an extension gives None. A result lists `"." + extension`. None means no entry lists it. A non-programming result means no programming entry lists it. A result is the first entry of its class, in catalog order, that lists the extension |
| Languages.FindInClass | src/payload/languages.rs:56-63 | a hit of `find` over one class is a catalog entry of that class listing the key, and no earlier entry of that class lists it |
| Languages.DetectInPair | src/payload/languages.rs:56-63 | a programming entry is chosen over another entry whenever it lists the extension |
| Languages.ExtensionFixture | src/payload/languages.rs:46-49 | `test.` followed by an extension without a dot has that extension |
| Languages.DetectLangFixture | src/payload/languages.rs:104-123 | `test.bsl` and `test.2da` find their catalog entries |
| Languages.DetectLangNoneFixture | src/payload/languages.rs:116-122 | an unknown extension and a name without one give None |
| Languages.ProgrammingFixture | src/payload/languages.rs:106-109 | `test.bsl` finds the programming entry |
| Languages.DataFixture | src/payload/languages.rs:111-114 | `test.2da` finds the data entry |
| Languages.UnknownExtensionFixture | src/payload/languages.rs:116-118 | `test.nonexistent` gives None |
| Languages.NoExtensionFixture | src/payload/languages.rs:120-122 | `testfile` gives None |
| Strings.Extension | src/payload/languages.rs:46-49 | Some iff some dot follows the first character (and the name is not `..`); the extension has no dot and is what follows the last dot |
| Strings.DeleteAllChanges | src/payload/match_all_files.rs:14 | deleting `base_path` never lengthens a name, and leaves it unchanged iff the path does not occur in it |
| Strings.Split | src/rules/spec/docker/component.rs:67 | the parts contain no separator, and joined with it they give back the text |
| Strings.SplitJoin | src/rules/spec/docker/component.rs:67 | splitting parts joined by a separator they do not contain gives the parts back |
| Strings.JoinPath | src/provider/fake.rs:49 | a joined path ends with the part and, for a relative part, starts with the base |
| Payloads.NewComponent | src/payload/payload.rs:24-40 | the named component found at the path, with no tech and empty children, techs, languages, dependencies and reasons |
| Payloads.NewArgumentOrder | src/main.rs:21 | `new` as declared, called as `new("main", "/")`, gives neither the name `main` nor the path `/`; the corrected constructor gives both |
| Payloads.FirstSimilarFrom | src/payload/payload.rs:110-113 | the first child with the same name or an equal tech that is set; None iff there is none |
| Payloads.AddChildEffect | src/payload/payload.rs:109-134 | With a similar child present, the count is unchanged. That child gains the candidate's paths and dependencies and keeps its name, tech and id, and every other child is unchanged. Otherwise the candidate is appended |
| Payloads.AddChildKeepsDissimilar | src/payload/payload.rs:109-134 | if no two children are similar before `add_child`, none are after |
| Payloads.Payload.constructor | src/payload/payload.rs:24-40 | the payload's value is `NewComponent(name, path)` |
| Payloads.Payload.AddChild | src/payload/payload.rs:109-134 | the children become the `add_child` result and nothing else changes; the returned child is the merged one or the appended candidate |
| Payloads.FindHosting | src/payload/helpers.rs:38-53 | fails exactly for an indexed hosting or cloud rule whose tech no child carries |
| Payloads.HostingFoundAfterImplicit | src/payload/helpers.rs:13-53 | The hosting check after `find_implicit_component` passes when three conditions hold: the payload has a path, the hosting or cloud rule is indexed under its own tech, and no existing child carries the rule's name. The implicit component is then appended with that tech, or merged into a child that already has it |
| Payloads.FindImplicitComponent | src/payload/helpers.rs:13-29 | An unindexed tech, or a rule type of ci, language, tool or framework, changes nothing. Otherwise a child is `add_child`ed with the rule's name, the tech and the reasons. With no path the call fails, as the unwrap does. Only the children change |
| Payloads.ImplicitKeepsDissimilar | src/payload/helpers.rs:13-29 | an implicit component keeps the children pairwise dissimilar |
| Payloads.AddChildKeepsTechs | src/payload/payload.rs:109-134 | `add_child` keeps every existing child in place with its tech, so a hosting child once present stays |
| Payloads.ImplicitKeepsChecked | src/payload/helpers.rs:13-53 | an implicit component never removes a hosting child, so techs whose checks passed still pass them afterwards |
| Payloads.TechsCheckedStep | src/payload/payload.rs:142-150 | an `add_tech` that passes keeps the earlier techs checked and checks its own |
| Payloads.Payload.AddTech | src/payload/payload.rs:142-150 | The tech and all its reasons are inserted. Then the implicit component and the hosting check follow. The outcome is the unwrap panic for a component-making tech on a payload without a path, else that of `find_hosting`. So a failure is always a `TechPanic`. Site, languages and child dissimilarity are kept |
| Payloads.ImplicitChainStep | src/payload/payload.rs:136-140 | a run of `find_implicit_component` steps followed by one more step is the run extended by that step |
| Payloads.ImplicitChildrenSameReasons | src/payload/helpers.rs:24-28 | the implicit component depends on the reasons only as a set, so reasons with the same elements give the same children |
| Payloads.ImplicitChainSameReasons | src/payload/payload.rs:136-140 | two runs over the same techs whose reasons agree as sets give the same children |
| Payloads.TechStepsAt | src/payload/payload.rs:137-139 | the `i`-th `add_tech` of a run is for the `i`-th visited tech, with its reasons |
| Payloads.TechStepsStep | src/payload/payload.rs:137-139 | visiting one more tech adds its `add_tech` call, with its reasons, at the end of the run |
| Payloads.Payload.AddTechTurn | src/payload/payload.rs:137-139 | One `add_tech` on a tech not visited yet extends `TechsSoFar` by that tech: its reasons are recorded, its implicit component is added after the earlier ones, and nothing else changes. The outcome is that `add_tech`'s: the unwrap panic without a path, else `find_hosting` on the new children When it passes, the techs visited so far, this one included, stay checked. |
| Payloads.Payload.AddTechs | src/payload/payload.rs:136-140 | On success the techs gain exactly the matched keys and the reasons exactly their reasons. The children are those the implicit components of the keys make, one `add_tech` after another, in some visiting order of the keys. A failure is the panic of some matched tech: the unwrap for a component-making tech without a path, or `cant find hosting` for a hosting or cloud tech. Techs and reasons only grow, and site, languages and child dissimilarity are kept On success every matched tech passed its checks (`TechsChecked`). If a matched tech makes a component, the payload had a path. Every matched hosting or cloud tech has a child with its tech at the end. |
| Payloads.AddCount | src/payload/payload.rs:160-161 | adds `count` to the language's tally, starting from 0, and leaves the other languages alone |
| Payloads.Payload.AddLang | src/payload/payload.rs:160-168 | `LangAdded`: the tally grows by `count`. A name mapped to a tech not recorded yet records it through `add_tech` with no reasons: the implicit component, then the hosting check, whose panic is the outcome. Otherwise the outcome is Pass and techs and children are unchanged. Reasons, identity, paths and dependencies never change |
| Payloads.Payload.DetectLang | src/payload/payload.rs:174-178 | An undetected file changes nothing. A detected one has exactly the `add_lang` effect (`LangAdded`) for the language's group, or its name, with count 1 |
| Payloads.JoinedKeyCollision | src/payload/payload.rs:180-189 | the dedup keyed on `join("_")` drops the distinct triple `("rust","a_b","1")` when `("rust","a","b_1")` follows |
| Payloads.CombineIdempotent | src/payload/payload.rs:180-189 | the combined dependencies contain both inputs, and combining again with the same dependencies changes nothing |
| Payloads.Payload.CombineDependencies | src/payload/payload.rs:180-189 | the dependencies become the duplicate-free union of both lists, and nothing else changes |
| Payloads.PartialTotalStep | src/payload/payload.rs:195-197 | adding one more language to the running tallies gives the tallies over one more key |
| Payloads.ReasonsForStep | src/payload/payload.rs:136-140 | one more tech adds exactly its reasons |
| Payloads.LangChainStep | src/payload/payload.rs:195-197 | one more language extends the run of implicit-component steps by its tech's step exactly when it maps to a tech not recorded yet |
| Payloads.LangsSoFarStep | src/payload/payload.rs:195-197 | an `add_lang` on a language not visited yet extends `LangsSoFar` by that language: tallies, recorded techs and children |
| Payloads.LangsCheckedStep | src/payload/payload.rs:160-168 | an `add_lang` that passes keeps the techs of the earlier languages checked and checks the tech it records, if any |
| Payloads.Payload.AddLangTurn | src/payload/payload.rs:195-197 | One `add_lang` on a language not visited yet extends `LangsSoFar` by that language. The outcome is exact. It is `Pass` unless the language maps to a tech not recorded when the call starts. In that case it is the unwrap panic without a path, else `find_hosting` on the new children. When it passes, the techs recorded by the languages so far stay checked |
| Payloads.Payload.AddLangs | src/payload/payload.rs:195-197 | On success each language's tally is the sum of both tallies, and the techs gain exactly those the languages map to. The children are those the implicit components of the newly recorded techs make, in some visiting order of the languages. A failure is the `add_tech` panic of a tech some language maps to. Reasons never change and techs only grow On success every tech the languages newly record passed its checks and still does (`TechsChecked`). |
| Payloads.Payload.Combine | src/payload/payload.rs:191-205 | Paths are united and dependencies combined. On success the languages are summed. The techs are then exactly the old ones, those the other's languages map to, the other's techs and its own tech. The children are the implicit components of the newly recorded language techs, at the united paths, in some visiting order. A failure is the `add_tech` panic, at the united paths, of a tech one of the other's languages maps to. Reasons, name, id and tech are kept On success every tech newly recorded by the other's languages passed its checks at the united paths, and still does. |
| Helpers.Flat | src/payload/helpers.rs:145-152 | every flattened component has no children, and there is one per descendant |
| Helpers.FlatSnoc | src/payload/helpers.rs:146-151 | a child's descendants come before the child itself (post-order) |
| Helpers.PushChilds | src/payload/helpers.rs:145-152 | `dest.childs` gains every proper descendant of `src` in post-order, each without children; nothing else changes |
| Helpers.PushStep | src/payload/helpers.rs:146-151 | one iteration appends the child's descendants and then the child |
| Helpers.MarkDuplicates | src/payload/helpers.rs:110-130 | the duplicate ids collected by the nested loops |
| Helpers.InnerMarksGrow | src/payload/helpers.rs:116-129 | the inner loop never forgets a mark |
| Helpers.InnerMarksExact | src/payload/helpers.rs:116-129 | the inner loop marks exactly the later twins of the current child |
| Helpers.MarksGrow | src/payload/helpers.rs:111-130 | the outer loop never forgets a mark |
| Helpers.MarksAreTwins | src/payload/helpers.rs:110-130 | every marked id is that of a later twin: both techs set, with an equal name or tech |
| Helpers.TwinOfSurvivorMarked | src/payload/helpers.rs:111-130 | a later twin of an unmarked child is marked |
| Helpers.RetainMembers | src/payload/helpers.rs:133 | the survivors are exactly the children whose id is not marked |
| Helpers.RetainKeepsOrder | src/payload/helpers.rs:133 | survivors keep their relative order |
| Helpers.Flatten | src/payload/helpers.rs:104-143 | the result is `flatten`/`/`, whose children are the post-order descendants without the marked twins; the `merge` flag has no effect |
| Helpers.SurvivorsNotTwins | src/payload/helpers.rs:110-133 | with distinct ids, no two survivors both have a tech and share a name or tech |
| Helpers.FirstAndTechlessSurvive | src/payload/helpers.rs:110-133 | with distinct ids, the first descendant and every descendant without a tech survive |
| Helpers.FirstNamed | src/payload/helpers.rs:83 | the first child with that name; None iff no child has it |
| Helpers.FindEdgesInDependencies | src/payload/helpers.rs:61-97 | the collected (source, target) pairs, child by child and dependency by dependency; the payload is not changed |
| Helpers.PushDependencyEdges | src/payload/helpers.rs:71-87 | the inner loop appends the edges of one child's dependencies |
| Helpers.EdgesSound | src/payload/helpers.rs:70-88 | Every pair goes from a child to a child named after one of the source's dependencies. That name is neither the source's name nor its tech, so there are no self-loops |
| Helpers.DependencyEdgesSound | src/payload/helpers.rs:71-87 | the same, for one child's dependencies |
| Helpers.EdgesComplete | src/payload/helpers.rs:70-88 | every dependency naming another child, and neither the source's name nor its tech, yields an edge to the first child with that name |
| Helpers.DependencyEdgesComplete | src/payload/helpers.rs:71-87 | the same, for one child's dependencies |
| Detection.EvidencedMembers | src/rules/match_dependencies.rs:9-18 | a tech is evidenced by a set of names iff some name and some matcher for that tech match |
| Detection.MatchedAreEvidenced | src/rules/match_dependencies.rs:4-23 | the keys `match_dependencies` returns are the evidenced techs, whatever the order of the names |
| Detection.MatchNames | src/rules/match_dependencies.rs:4-23 | The techs matched for a manifest's names are exactly those its names give evidence of. Every reason recorded for a tech is `matched: ` followed by that tech |
| Detection.MatchedSteps | src/rules/match_dependencies.rs:12-17 | the run of `add_tech` calls for a visiting order gives each tech, in that order, the one reason `matched: ` plus the tech |
| Detection.SingleReasonsFor | src/rules/match_dependencies.rs:12-17 | when each tech's reasons are copies of its one reason, `add_techs` records exactly `matched: ` plus each matched tech |
| Detection.MatchedChain | src/payload/helpers.rs:24-28 | when each tech's reasons are copies of its one reason, the children `add_techs` makes are those of one-reason steps over the same visiting order |
| Detection.BuildPayload | src/rules/spec/nodejs/component.rs:47-72 | The component is named after the manifest and found at its path, with no tech. It credits exactly the matched techs with exactly their reasons, and lists the triples. Its children are those the implicit components of the techs make, in some visiting order. Detection never reports that no component was found. A panic is `cant find hosting` for a matched hosting or cloud tech, so with none of those the component is always found A found component has every matched tech checked: each matched hosting or cloud tech has a child with its tech. |
| Detection.Triples | src/rules/spec/nodejs/component.rs:64-67 | one triple per name, in the order given |
| Detection.TriplesOfEnumeration | src/rules/spec/nodejs/component.rs:64-67 | the triples of an enumeration of the map are one `(ecosystem, name, version)` triple per name, without repetition |
| Wrappers.Enumerate | src/rules/spec/nodejs/component.rs:64-67 | a map's keys are visited once each, in some order |
| RustComponent.LocatorPrecedence | src/rules/spec/rust/component.rs:99-133 | A path hides any git source, a branch hides the revision, and a git source hides the version. The encodings start with `path:` and `git:` |
| RustComponent.LocatorVersionFixtures | src/rules/spec/rust/component.rs:102-128 | a bare version is kept, a table's version is used, and `latest` is the default |
| RustComponent.LocatorGitFixture | src/rules/spec/rust/component.rs:207-216 | the git dependency of the test manifest records `git:<url>#main` |
| RustComponent.LocatorPathFixture | src/rules/spec/rust/component.rs:112-115 | a path dependency without a version records `path:<path>` |
| RustComponent.AllDependenciesUnion | src/rules/spec/rust/component.rs:75-91 | the names are the union of the four sections, each taking its entry from the last section that has it |
| RustComponent.Versions | src/rules/spec/rust/component.rs:99-133 | one version string per dependency name |
| RustComponent.FirstManifest | src/rules/spec/rust/component.rs:51-67 | the first `Cargo.toml` that opens and parses; None iff there is none |
| RustComponent.CollectDependencies | src/rules/spec/rust/component.rs:75-91 | the sections extended one by one give the union |
| RustComponent.RustPayload | src/rules/spec/rust/component.rs:69-137 | The component is named after the package, else `virtual`, and found at the manifest's path. It credits the techs its dependency names give evidence of, each with the reason `matched: ` plus the tech. Its children are the implicit components of those techs in some visiting order. It has one `("rust", name, locator)` triple per dependency. A panic is `cant find hosting` for an evidenced hosting or cloud tech A found component has every evidenced hosting or cloud tech backed by a child with its tech, so a source run that would panic is never reported as found. |
| RustComponent.DetectRustComponent | src/rules/spec/rust/component.rs:47-142 | Nothing is found iff no `Cargo.toml` opens and parses. Otherwise the component described by the first such manifest is returned, with every evidenced hosting or cloud tech backed by a child, or the hosting panic of one of its evidenced techs |
| NodeComponent.AllDependenciesUnion | src/rules/spec/nodejs/component.rs:49-56 | the names are the union of both sections, devDependencies overriding |
| NodeComponent.ManifestOf | src/rules/spec/nodejs/component.rs:24-45 | only a `package.json` that opens, parses and has a name is used |
| NodeComponent.FirstManifest | src/rules/spec/nodejs/component.rs:24-45 | the first usable `package.json`; None iff there is none |
| NodeComponent.CollectDependencies | src/rules/spec/nodejs/component.rs:49-56 | the sections extended one by one give the union |
| NodeComponent.NodePayload | src/rules/spec/nodejs/component.rs:47-72 | The component is named after the package and found at the manifest's path. It credits the techs its dependency names give evidence of, each with the reason `matched: ` plus the tech. Its children are the implicit components of those techs in some visiting order. It has one `("npm", name, version)` triple per dependency, the version verbatim. A panic is `cant find hosting` for an evidenced hosting or cloud tech A found component has every evidenced hosting or cloud tech backed by a child with its tech, so a source run that would panic is never reported as found. |
| NodeComponent.DetectNodeComponent | src/rules/spec/nodejs/component.rs:20-76 | Nothing is found iff no usable `package.json` exists. Otherwise the component described by the first one is returned, with every evidenced hosting or cloud tech backed by a child, or the hosting panic of one of its evidenced techs |
| NodeComponent.TestManifestDescribed | src/rules/spec/nodejs/component.rs:85-142 | the test manifest's component is `test_project` with exactly its four npm triples |
| NodeComponent.TestDependencies | src/rules/spec/nodejs/component.rs:85-97 | the test manifest has four dependencies over its two sections |
| NodeComponent.TripleListed | src/rules/spec/nodejs/component.rs:64-67 | each dependency's triple is listed |
| DockerComponent.ComposeNamesAccepted | src/rules/spec/docker/component.rs:11-13 | `docker-compose`, any text, then `.yml` or `.yaml` is accepted |
| DockerComponent.ComposeNamesOnly | src/rules/spec/docker/component.rs:11-13 | only such names are accepted |
| DockerComponent.ComposeNameFixtures | src/rules/spec/docker/component.rs:31 | `docker-compose.yml` and `docker-compose.prod.yaml` are accepted; `compose.yml` and `docker-compose.yml.bak` are not |
| DockerComponent.ImageRefParts | src/rules/spec/docker/component.rs:67-68 | the image name is the text before the first `:`, and the version the text up to the second, else `latest` |
| DockerComponent.ImageRefBare | src/rules/spec/docker/component.rs:67-68 | an image without `:` has version `latest` |
| DockerComponent.ImageRefTagged | src/rules/spec/docker/component.rs:67-68 | an image with a tag has that tag as version, whatever follows |
| DockerComponent.ImageRefOfTag | src/rules/spec/docker/component.rs:67-68 | `name:tag` splits into name and tag |
| DockerComponent.ImageRefFixtures | src/rules/spec/docker/component.rs:105-153 | `nginx:1.19` and `postgres:13` split as the test expects |
| DockerComponent.ServiceChild | src/rules/spec/docker/component.rs:58-90 | A service gives a child iff it has an image not starting with `$`. The child is named by `container_name`, else the key. It has one `("docker", image, version)` triple. Its tech and reason come from the first matched tech, else `"matched: " + image` |
| DockerComponent.AddChildrenDissimilar | src/rules/spec/docker/component.rs:91 | adding the children one by one keeps them pairwise dissimilar |
| DockerComponent.AddChildrenCovers | src/rules/spec/docker/component.rs:91 | every service child is in the result, itself or merged into a similar child |
| DockerComponent.MergeKeepsSimilar | src/payload/payload.rs:109-134 | a merge keeps what made a child similar to another |
| DockerComponent.EmittingAmongMembers | src/rules/spec/docker/component.rs:58-65 | the services that emit among some keys are those with an image not starting with `$` |
| DockerComponent.BuiltSkip | src/rules/spec/docker/component.rs:59-65 | a skipped service keeps the loop invariant |
| DockerComponent.BuiltAdd | src/rules/spec/docker/component.rs:67-91 | an emitting service adds its child and keeps the loop invariant |
| DockerComponent.AllServicesBuilt | src/rules/spec/docker/component.rs:58-92 | after all services, the children are those of exactly the emitting services, added in iteration order, pairwise dissimilar |
| DockerComponent.DockerPayload | src/rules/spec/docker/component.rs:56-94 | `virtual` at the compose file, with the service children and nothing else |
| DockerComponent.FirstCompose | src/rules/spec/docker/component.rs:30-55 | the first compose file that opens, parses and has services; None iff there is none |
| DockerComponent.DetectDockerComponent | src/rules/spec/docker/component.rs:26-98 | It never panics. Nothing is found iff no usable compose file exists. Otherwise the component is `NewComponent("virtual", fp)` for the first usable compose file, apart from its children. The children are `ComposeChildren`: exactly the services that emit one, added in iteration order, pairwise dissimilar |
| FakeProviders.NewFakeProvider | src/provider/fake.rs:13-20 | the given maps, with base path `/` |
| FakeProviders.Entry | src/provider/fake.rs:35-48 | A trailing `/` marks a directory, named without it. Any other entry is a file with its name unchanged. The path is the entry joined to the directory |
| FakeProviders.Entries | src/provider/fake.rs:32-50 | one entry per stored name, in stored order |
| FakeProviders.InsertByName | src/provider/fake.rs:52 | inserting keeps the list sorted by name and adds exactly that entry |
| FakeProviders.InsertSorted | src/provider/fake.rs:52 | the insertion point keeps the order |
| FakeProviders.SortByName | src/provider/fake.rs:52 | sorted by name, and a permutation of the input |
| FakeProviders.ListDir | src/provider/fake.rs:28-57 | an unknown path gives an empty list; otherwise the entries, sorted by name, as a permutation of the stored ones |
| FakeProviders.Open | src/provider/fake.rs:59-61 | the stored content of the path, and None iff nothing is stored |
| FakeProviders.RootEntries | src/provider/fake.rs:94-117 | the test root holds the directory `dir1` and the file `file1.txt`, and `file1.txt` sorts after `dir1` |
| FakeProviders.ListDirFixture | src/provider/fake.rs:94-117 | any sorted permutation of the test root lists `dir1` (a directory) before `file1.txt` (a file) |
| FakeProviders.SortedPair | src/provider/fake.rs:52 | two entries have exactly one order ascending by name |

## Left out

- **Regular expressions.** The engine is the parameter `RegexEngine`. Dependency matchers are kept as their pattern text `^name$`. For names with metacharacters, the result depends on what the engine does with them.
- **Parsing.** serde TOML/JSON/YAML parsing and reading files are the parameters `parse` and `open`. Parse errors are a `None` result.
- **The languages catalog.** `languages.json` is not part of this model, so the catalog is a parameter sequence.
- **Globals and concurrency.** The `lazy_static!` mutex globals are fields of one object (`Registry.Registry`, `Loading.RuleTables`). Functions that read `LIST_INDEXED`, `NAME_TO_KEY` or `DEPENDENCIES` take them as parameters. Locking, `serial_test` and `println!` are left out.
- **Iteration order.** `HashMap` and `HashSet` iteration order is any duplicate-free enumeration (`Wrappers.Enumerate`). The contracts hold for every order.
- **Sorting.** The provider's sort is specified as sorted and a permutation. Stability is not stated.
- **`recurse` and the entry point.** The live `recurse` body iterates over an empty constant and the rest is commented out, so neither it nor `analyser`/`main` is modelled.
- **`add_edges` and the second edge pass.** The second pass of `find_edges_in_dependencies` does nothing, so only the collected pairs are modelled, and no edge is ever added.
- **Pointer structure.** The `parent`/`in_component` back-pointers, `set_parent`, and the edge retargeting inside `add_child` (`payload.rs:118-125`) are not modelled. `Edge` holding a whole payload is not modelled either.
- **Ids.** Ids are `&'static str` in the source. Here a component's id is its name. Flatten removes by id, so the flatten lemmas assume distinct ids (`Helpers.DistinctIds`).
- **Language counts.** The tallies are `nat`, so the overflow of `usize`/`i32` counts is not modelled.
- **Paths.** `std::path` is simplified. `Path::extension` is `Strings.Extension`: no dot after the first character means no extension, and `"a."` has the empty extension. `Path::join` is `Strings.JoinPath`.
- **Panics.** A panic (`load_one` on an empty name, `find_hosting`, the `unwrap` in `find_implicit_component`) is a `Fail` outcome that the caller propagates. Unwinding is not modelled.
- **Remaining `load_one` tests.** The tests with a file list, with extensions and with detectors (`loader.rs:186-281`) have no fixture lemma of their own. `Loader.LoadOneAppends` states their expectations for every rule.
- Payloads.Payload.AddTechs: after a `Fail` (the source has panicked) the outcome names the panicking tech, but only the monotonic facts are stated about the state, not which techs were visited before the panic.
- Payloads.Payload.AddLangs: after a `Fail` the outcome names the panicking tech, but only the monotonic facts and the unchanged reasons are stated, not the tallies or children left behind.
- Payloads.Payload.Combine: after a `Fail` the outcome names the panicking tech, but the languages, techs and children left behind are not stated.
- RustComponent.RustPayload: when the hosting check panics inside `add_techs`, the panic message is stated, not the state left behind.
- NodeComponent.NodePayload: as for `RustComponent.RustPayload`.
- Detection.BuildPayload: as for `RustComponent.RustPayload`.
- DockerComponent.DetectDockerComponent: the children are stated through `DockerComponent.ComposeChildren` for some iteration order of the services, not listed in one order, because that order is a `HashMap`'s. The same holds for the implicit children of `Payloads.Payload.AddTechs`, `Payloads.Payload.AddLangs` and `Payloads.Payload.Combine`.

## Findings

| source | as written | input that shows it | evidently intended | confidence | as-written member | corrected member |
|---|---|---|---|---|---|---|
| src/payload/payload.rs:25-40 | `new(id, name)` stores its second argument as the name and leaves `path` empty, yet every caller passes `(name, path)` (`src/main.rs:21`) | `new("main", "/")`: the name is `/` and `path` is empty, while `src/main.rs:57-58` expects name `main` and `/` in `path` | `new(name, path)`: name from the first argument and `path = {second}` | not executed | Payloads.NewArgumentOrder | Payloads.NewComponent |
| src/payload/payload.rs:180-189 | `combine_dependencies` deduplicates on `dep.join("_")`, so two different triples that join to the same text collide | `("rust","a_b","1")` followed by `("rust","a","b_1")`: both join to `rust_a_b_1`, and only the second survives | deduplication on the triple itself | not executed | Payloads.JoinedKeyCollision | Payloads.Payload.CombineDependencies |

=== FILE: detection.dfy ===
/**
 * What the manifest detectors share: their result, the technologies a set
 * of package names gives evidence of, and the flattened dependency triples.
 */
module Detection {
  import opened Wrappers
  import opened Types
  import opened Loader
  import opened MatchDependencies
  import opened Payloads

  /**
   * A detector's result: the component its first usable manifest describes,
   * `NoComponent` when no file yields one (the source's `Err(false)`), or
   * the panic of `add_techs`.
   */
  datatype Detected = Found(component: Component) | NoComponent | Panicked(message: string)

  /**
   * The technologies credited by some matcher of ecosystem `depType` that
   * matches some name of `names`; none for an ecosystem without matchers.
   */
  function Evidenced(table: map<string, seq<DependencyMatcher>>, names: set<string>, depType: string,
                     engine: RegexEngine): set<string>
  {
    if depType !in table then {}
    else set m, n | m in table[depType] && n in names && engine(m.pattern.source, n) :: m.tech
  }

  lemma EvidencedMembers(table: map<string, seq<DependencyMatcher>>, names: set<string>, depType: string,
                         engine: RegexEngine, t: string)
    ensures t in Evidenced(table, names, depType, engine) <==>
      depType in table && exists m, n :: m in table[depType] && n in names && m.tech == t && engine(m.pattern.source, n)
  {
  }

  /**
   * The technologies `match_dependencies` reports are those evidenced by the
   * set of package names: the order the names come in does not matter.
   */
  lemma MatchedAreEvidenced(table: map<string, seq<DependencyMatcher>>, pkgs: seq<string>, depType: string,
                            engine: RegexEngine, matched: map<string, seq<string>>)
    requires depType !in table ==> matched == map[]
    requires depType in table ==> forall t :: t in matched <==> PairHits(pkgs, table[depType], t, engine) > 0
    ensures matched.Keys == Evidenced(table, SetOf(pkgs), depType, engine)
  {
    if depType in table {
      var ms := table[depType];
      forall t ensures t in matched <==> t in Evidenced(table, SetOf(pkgs), depType, engine) {
        PairHitsPositive(pkgs, ms, t, engine);
        EvidencedMembers(table, SetOf(pkgs), depType, engine, t);
        if t in Evidenced(table, SetOf(pkgs), depType, engine) {
          var m, n :| m in ms && n in SetOf(pkgs) && m.tech == t && engine(m.pattern.source, n);
          var i :| 0 <= i < |pkgs| && pkgs[i] == n;
          var j :| 0 <= j < |ms| && ms[j] == m;
          assert ms[j].tech == t && engine(ms[j].pattern.source, pkgs[i]);
        }
        if t in matched {
          var i, j :| 0 <= i < |pkgs| && 0 <= j < |ms| && ms[j].tech == t && engine(ms[j].pattern.source, pkgs[i]);
          assert ms[j] in ms && pkgs[i] in SetOf(pkgs);
        }
      }
    }
  }

  /** Every reason recorded for a technology is its one `"matched: "` reason. */
  ghost predicate SingleReasons(matched: map<string, seq<string>>) {
    forall t :: t in matched ==> SetOf(matched[t]) == {Reason(t)}
  }

  /** The reasons `add_techs` records for the matched technologies `ts`. */
  function MatchedReasons(ts: set<string>): set<string> {
    set t | t in ts :: Reason(t)
  }

  /** The `add_tech` steps for the technologies of `order`, each with its one reason. */
  function MatchedSteps(order: seq<string>): (r: seq<(string, seq<string>)>)
    ensures |r| == |order|
    ensures forall i :: 0 <= i < |order| ==> r[i].0 == order[i] && SetOf(r[i].1) == {Reason(order[i])}
  {
    seq(|order|, i requires 0 <= i < |order| => (order[i], [Reason(order[i])]))
  }

  /**
   * `match_dependencies` as the detectors call it: the technologies it
   * reports for the names are those the set of names gives evidence of,
   * each with copies of its one reason.
   */
  method MatchNames(table: map<string, seq<DependencyMatcher>>, names: seq<string>, depType: string,
                    engine: RegexEngine)
    returns (matched: map<string, seq<string>>)
    ensures matched.Keys == Evidenced(table, SetOf(names), depType, engine)
    ensures SingleReasons(matched)
  {
    matched := MatchDependencies.MatchDependencies(table, names, depType, engine);
    MatchedAreEvidenced(table, names, depType, engine, matched);
    forall t | t in matched ensures SetOf(matched[t]) == {Reason(t)} {
      assert matched[t][0] == Reason(t);
    }
  }

  /** With one reason per technology, `add_techs` records exactly the matched technologies' reasons. */
  lemma SingleReasonsFor(matched: map<string, seq<string>>)
    requires SingleReasons(matched)
    ensures ReasonsFor(matched, matched.Keys) == MatchedReasons(matched.Keys)
  {
    forall x | x in MatchedReasons(matched.Keys) ensures x in ReasonsFor(matched, matched.Keys) {
      var t :| t in matched && x == Reason(t);
      assert x in SetOf(matched[t]);
    }
    forall x | x in ReasonsFor(matched, matched.Keys) ensures x in MatchedReasons(matched.Keys) {
      var t :| t in matched && x in matched[t];
      assert x in SetOf(matched[t]);
    }
  }

  /**
   * With one reason per technology, the implicit components `add_techs`
   * makes in some visiting order are those that order's one-reason steps make.
   */
  lemma MatchedChain(index: map<string, Rule>, matched: map<string, seq<string>>, path: set<string>,
                     before: seq<Component>, after: seq<Component>)
    requires SingleReasons(matched)
    requires exists order ::
      && Distinct(order) && SetOf(order) == matched.Keys
      && ImplicitChain(index, TechSteps(matched, order), path, before, after)
    ensures exists order ::
      && Distinct(order) && SetOf(order) == matched.Keys
      && ImplicitChain(index, MatchedSteps(order), path, before, after)
  {
    var order :| && Distinct(order) && SetOf(order) == matched.Keys
                 && ImplicitChain(index, TechSteps(matched, order), path, before, after);
    TechStepsAt(matched, order);
    forall i | 0 <= i < |order| ensures order[i] in matched {
      assert order[i] in SetOf(order);
    }
    ImplicitChainSameReasons(index, TechSteps(matched, order), MatchedSteps(order), path, before, after);
  }

  /**
   * The panic of `add_techs` on a payload with a path: `find_hosting` for a
   * hosting or cloud technology among `techs` that has no child of its kind.
   */
  predicate HostingPanic(index: map<string, Rule>, techs: set<string>, message: string) {
    exists t ::
      && t in techs && t in index && index[t].ruleType in {"hosting", "cloud"}
      && message == "cant find hosting " + index[t].tech
  }

  /**
   * The tail of the Cargo and npm detectors: a payload `name` found at
   * `fp`, crediting the matched technologies (a panic of `add_techs`
   * aborts), with `deps` as its dependencies.
   */
  method BuildPayload(name: string, fp: string, index: map<string, Rule>, matched: map<string, seq<string>>,
                      deps: seq<Dependency>)
    returns (out: Detected)
    ensures !out.NoComponent?
    ensures out.Found? ==>
      && out.component.name == name && out.component.id == name && out.component.path == {fp}
      && out.component.tech == None && out.component.languages == map[]
      && out.component.techs == matched.Keys && out.component.dependencies == deps
      && out.component.reason == ReasonsFor(matched, matched.Keys)
      && exists order ::
           && Distinct(order) && SetOf(order) == matched.Keys
           && ImplicitChain(index, TechSteps(matched, order), {fp}, [], out.component.childs)
    ensures out.Found? ==> TechsChecked(index, matched.Keys, {fp}, out.component.childs)
    ensures out.Panicked? ==> HostingPanic(index, matched.Keys, out.message)
  {
    var pl := new Payload(name, fp);
    ghost var site := pl.Value();
    assert site.techs == {} && site.languages == map[] && site.reason == {} && site.childs == [];
    var added := pl.AddTechs(index, matched);
    if added.Fail? {
      return Panicked(added.error);
    }
    pl.dependencies := deps;
    out := Found(pl.Value());
  }

  /** The triples `(ecosystem, name, version)`, one per name, in the order given. */
  function Triples(ecosystem: string, order: seq<string>, versions: map<string, string>): (r: seq<Dependency>)
    requires forall i :: 0 <= i < |order| ==> order[i] in versions
    ensures |r| == |order|
    ensures forall i :: 0 <= i < |r| ==> r[i].1 == order[i]
  {
    seq(|order|, i requires 0 <= i < |order| => (ecosystem, order[i], versions[order[i]]))
  }

  /** Each name of `versions` has exactly one triple. */
  ghost predicate OneTriplePerName(deps: seq<Dependency>, ecosystem: string, versions: map<string, string>) {
    && |deps| == |versions|
    && (forall i, j :: 0 <= i < j < |deps| ==> deps[i].1 != deps[j].1)
    && SetOf(deps) == set n | n in versions :: (ecosystem, n, versions[n])
  }

  /** Listing every name once gives every name exactly one triple. */
  lemma TriplesOfEnumeration(ecosystem: string, order: seq<string>, versions: map<string, string>)
    requires SetOf(order) == versions.Keys && Distinct(order) && |order| == |versions|
    ensures OneTriplePerName(Triples(ecosystem, order, versions), ecosystem, versions)
  {
    var r := Triples(ecosystem, order, versions);
    forall x | x in SetOf(r) ensures x in set n | n in versions :: (ecosystem, n, versions[n]) {
      var i :| 0 <= i < |r| && r[i] == x;
      assert order[i] in versions;
    }
    forall n | n in versions ensures (ecosystem, n, versions[n]) in SetOf(r) {
      var i :| 0 <= i < |order| && order[i] == n;
      assert r[i] == (ecosystem, n, versions[n]);
    }
  }
}

=== FILE: docker_component.dfy ===
/**
 * `detect_docker_component`: the component a compose file describes, one
 * child per service that names an image. Reading the file is the
 * provider's `open`, given as a function; parsing the YAML is the function
 * `parse`, which yields the compose record or nothing.
 */
module DockerComponent {
  import opened Wrappers
  import opened Types
  import opened Strings
  import opened Loader
  import opened Payloads
  import opened Detection

  datatype ComposeService = ComposeService(image: Option<string>, containerName: Option<string>)

  datatype DockerCompose = DockerCompose(services: Option<map<string, ComposeService>>)

  const ComposePrefix: string := "docker-compose"

  /** The name ends in `ext` and has no line break between the prefix and `ext`. */
  predicate ComposeTail(name: string, ext: string) {
    |name| >= |ComposePrefix| + |ext| && EndsWith(name, ext) && '\n' !in name[|ComposePrefix|..|name| - |ext|]
  }

  /**
   * The file-name pattern `^docker-compose(.*)?\.y(a)?ml$`: the prefix, any
   * text without a line break, then `.yml` or `.yaml`.
   */
  predicate IsComposeName(name: string) {
    StartsWith(name, ComposePrefix) && (ComposeTail(name, ".yml") || ComposeTail(name, ".yaml"))
  }

  /** Every name the pattern describes is a compose name. */
  lemma ComposeNamesAccepted(middle: string, ext: string)
    requires ext == ".yml" || ext == ".yaml"
    requires '\n' !in middle
    ensures IsComposeName(ComposePrefix + middle + ext)
  {
    var name := ComposePrefix + middle + ext;
    assert name[..|ComposePrefix|] == ComposePrefix;
    assert name[|name| - |ext|..] == ext;
    assert name[|ComposePrefix|..|name| - |ext|] == middle;
  }

  /** Every compose name is one the pattern describes. */
  lemma ComposeNamesOnly(name: string)
    requires IsComposeName(name)
    ensures exists middle: string, ext: string ::
      && (ext == ".yml" || ext == ".yaml") && '\n' !in middle && name == ComposePrefix + middle + ext
  {
    var ext := if ComposeTail(name, ".yml") then ".yml" else ".yaml";
    var middle := name[|ComposePrefix|..|name| - |ext|];
    assert name == name[..|ComposePrefix|] + middle + name[|name| - |ext|..];
  }

  lemma ComposeNameFixtures()
    ensures IsComposeName("docker-compose.yml")
    ensures IsComposeName("docker-compose.prod.yaml")
    ensures !IsComposeName("compose.yml")
    ensures !IsComposeName("docker-compose.yml.bak")
  {
    ComposeNamesAccepted("", ".yml");
    assert "docker-compose.yml" == ComposePrefix + "" + ".yml";
    ComposeNamesAccepted(".prod", ".yaml");
    assert "docker-compose.prod.yaml" == ComposePrefix + ".prod" + ".yaml";
    assert |"compose.yml"| < |ComposePrefix|;
    var bak := "docker-compose.yml.bak";
    assert bak[|bak| - 4..] == ".bak";
    assert bak[|bak| - 5..][1..] == ".bak";
  }

  /**
   * An image reference split at `:`: the text before the first `:`, and the
   * text between the first and the second `:`, else `latest`.
   */
  function ImageRef(image: string): (r: (string, string)) {
    var parts := Split(image, ':');
    (parts[0], if |parts| > 1 then parts[1] else "latest")
  }

  /** A bare image is at version `latest`; `name:tag` gives the name and the tag, whatever follows a second `:`. */
  lemma ImageRefParts(name: string, tag: string, rest: seq<string>)
    requires ':' !in name && ':' !in tag
    requires forall i :: 0 <= i < |rest| ==> ':' !in rest[i]
    ensures ImageRef(name) == (name, "latest")
    ensures ImageRef(JoinWith([name, tag] + rest, ':')) == (name, tag)
  {
    ImageRefBare(name);
    ImageRefTagged(name, tag, rest);
  }

  lemma ImageRefBare(name: string)
    requires ':' !in name
    ensures ImageRef(name) == (name, "latest")
  {
    SplitJoin([name], ':');
    assert JoinWith([name], ':') == name;
  }

  lemma ImageRefTagged(name: string, tag: string, rest: seq<string>)
    requires ':' !in name && ':' !in tag
    requires forall i :: 0 <= i < |rest| ==> ':' !in rest[i]
    ensures ImageRef(JoinWith([name, tag] + rest, ':')) == (name, tag)
  {
    var parts := [name, tag] + rest;
    forall i | 0 <= i < |parts| ensures ':' !in parts[i] {
      if i >= 2 {
        assert parts[i] == rest[i - 2];
      }
    }
    SplitJoin(parts, ':');
    assert parts[0] == name && parts[1] == tag;
  }

  /** The image references of the compose file of `test_detect_docker_component`. */
  lemma ImageRefFixtures()
    ensures ImageRef("nginx:1.19") == ("nginx", "1.19")
    ensures ImageRef("postgres:13") == ("postgres", "13")
  {
    ImageRefOfTag("nginx", "1.19");
    assert "nginx" + ":" + "1.19" == "nginx:1.19";
    ImageRefOfTag("postgres", "13");
    assert "postgres" + ":" + "13" == "postgres:13";
  }

  lemma ImageRefOfTag(name: string, tag: string)
    requires ':' !in name && ':' !in tag
    ensures ImageRef(name + ":" + tag) == (name, tag)
  {
    ImageRefParts(name, tag, []);
    assert [name, tag] + [] == [name, tag];
    assert [name, tag][1..] == [tag];
  }

  /** A service makes a child when it names an image that is not a `$` variable. */
  predicate Emits(service: ComposeService) {
    service.image.Some? && !StartsWith(service.image.value, "$")
  }

  /** The services that make a child. */
  function Emitting(services: map<string, ComposeService>): set<string> {
    set n | n in services && Emits(services[n])
  }

  /**
   * The child of the service `key` of a compose file found at `fp`: named
   * after its container (else the key), with the single dependency
   * `("docker", image, version)`; its tech is one the image name gives
   * evidence of, and the reason names that tech, or, with no evidence, no
   * tech and a reason naming the image.
   */
  ghost predicate IsServiceChild(key: string, service: ComposeService, fp: string,
                                 table: map<string, seq<DependencyMatcher>>, engine: RegexEngine, c: Component)
    requires Emits(service)
  {
    var ref := ImageRef(service.image.value);
    var evidence := Evidenced(table, {ref.0}, "docker", engine);
    && c.name == (if service.containerName.Some? then service.containerName.value else key)
    && c.id == c.name
    && c.path == {fp}
    && c.languages == map[] && c.childs == [] && c.techs == {}
    && c.dependencies == [("docker", ref.0, ref.1)]
    && (c.tech.None? <==> evidence == {})
    && (c.tech.Some? ==> c.tech.value in evidence && c.reason == {"matched: " + c.tech.value})
    && (c.tech.None? ==> c.reason == {"matched: " + ref.0})
  }

  /** The child a service makes, if any. */
  method ServiceChild(key: string, service: ComposeService, fp: string,
                      table: map<string, seq<DependencyMatcher>>, engine: RegexEngine)
    returns (child: Option<Component>)
    ensures child.Some? <==> Emits(service)
    ensures child.Some? ==> IsServiceChild(key, service, fp, table, engine, child.value)
  {
    if service.image.None? {
      return None;
    }
    var image := service.image.value;
    if StartsWith(image, "$") {
      return None;
    }
    var parts := Split(image, ':');
    var imageName := parts[0];
    var imageVersion := if |parts| > 1 then parts[1] else "latest";
    var matched := MatchNames(table, [imageName], "docker", engine);
    assert SetOf([imageName]) == {imageName};
    var keys := Enumerate(matched.Keys);
    var tech: Option<string>;
    var reason: string;
    if |keys| > 0 {
      assert keys[0] in SetOf(keys);
      tech, reason := Some(keys[0]), "matched: " + keys[0];
    } else {
      tech, reason := None, "matched: " + imageName;
    }
    var name := if service.containerName.Some? then service.containerName.value else key;
    var c := NewComponent(name, fp);
    c := c.(tech := tech, dependencies := [("docker", imageName, imageVersion)], reason := {reason});
    child := Some(c);
  }

  /** The children after adding each of `kids` in turn with `add_child`. */
  function AddChildren(childs: seq<Component>, kids: seq<Component>): seq<Component>
    decreases |kids|
  {
    if kids == [] then childs
    else AddChildSpec(AddChildren(childs, kids[..|kids| - 1]), kids[|kids| - 1])
  }

  /** Adding children one by one keeps them pairwise dissimilar. */
  lemma {:induction false} AddChildrenDissimilar(childs: seq<Component>, kids: seq<Component>)
    requires NoTwoSimilar(childs)
    ensures NoTwoSimilar(AddChildren(childs, kids))
    decreases |kids|
  {
    if kids != [] {
      AddChildrenDissimilar(childs, kids[..|kids| - 1]);
      AddChildKeepsDissimilar(AddChildren(childs, kids[..|kids| - 1]), kids[|kids| - 1]);
    }
  }

  /**
   * Every child added is represented: some resulting child is similar to
   * it (the one it was merged into, or itself), and there are no more
   * children than before plus those added.
   */
  lemma {:induction false} AddChildrenCovers(childs: seq<Component>, kids: seq<Component>)
    ensures |AddChildren(childs, kids)| <= |childs| + |kids|
    ensures forall j :: 0 <= j < |kids| ==>
      exists i :: 0 <= i < |AddChildren(childs, kids)| && Similar(AddChildren(childs, kids)[i], kids[j])
    decreases |kids|
  {
    if kids != [] {
      var init := kids[..|kids| - 1];
      var before := AddChildren(childs, init);
      var kid := kids[|kids| - 1];
      AddChildrenCovers(childs, init);
      AddChildEffect(before, kid);
      var after := AddChildren(childs, kids);
      assert after == AddChildSpec(before, kid);
      forall j | 0 <= j < |kids| ensures exists i :: 0 <= i < |after| && Similar(after[i], kids[j]) {
        if j == |kids| - 1 {
          if exists i :: 0 <= i < |before| && Similar(before[i], kid) {
            var k :| 0 <= k < |before| && Similar(before[k], kid) && after[k].name == before[k].name
              && after[k].tech == before[k].tech;
            assert Similar(after[k], kid);
          } else {
            assert after[|before|] == kid;
          }
        } else {
          assert kids[j] == init[j];
          var i :| 0 <= i < |before| && Similar(before[i], kids[j]);
          MergeKeepsSimilar(before, kid, i, kids[j]);
        }
      }
    }
  }

  /** `add_child` keeps every existing child's name and tech, so what was similar to it stays so. */
  lemma MergeKeepsSimilar(before: seq<Component>, kid: Component, i: nat, other: Component)
    requires i < |before| && Similar(before[i], other)
    ensures var after := AddChildSpec(before, kid);
      i < |after| && Similar(after[i], other)
  {
  }

  /** The services among `keys` that make a child. */
  function EmittingAmong(services: map<string, ComposeService>, keys: seq<string>): set<string>
    decreases |keys|
  {
    if keys == [] then {}
    else
      var last := keys[|keys| - 1];
      EmittingAmong(services, keys[..|keys| - 1]) + (if last in services && Emits(services[last]) then {last} else {})
  }

  lemma {:induction false} EmittingAmongMembers(services: map<string, ComposeService>, keys: seq<string>, n: string)
    ensures n in EmittingAmong(services, keys) <==> n in keys && n in services && Emits(services[n])
    decreases |keys|
  {
    if keys != [] {
      EmittingAmongMembers(services, keys[..|keys| - 1], n);
      assert keys == keys[..|keys| - 1] + [keys[|keys| - 1]];
    }
  }

  /**
   * After the services `done`: `emitted` lists, each once, those of them
   * that make a child, and `kids[j]` is the child of `emitted[j]`.
   */
  ghost predicate Built(services: map<string, ComposeService>, fp: string, table: map<string, seq<DependencyMatcher>>,
                        engine: RegexEngine, done: seq<string>, emitted: seq<string>, kids: seq<Component>)
  {
    && SetOf(emitted) == EmittingAmong(services, done)
    && Distinct(emitted)
    && |kids| == |emitted|
    && forall j :: 0 <= j < |kids| ==>
         emitted[j] in services && Emits(services[emitted[j]])
         && IsServiceChild(emitted[j], services[emitted[j]], fp, table, engine, kids[j])
  }

  lemma BuiltSkip(services: map<string, ComposeService>, fp: string, table: map<string, seq<DependencyMatcher>>,
                  engine: RegexEngine, done: seq<string>, k: string, emitted: seq<string>, kids: seq<Component>)
    requires Built(services, fp, table, engine, done, emitted, kids)
    requires !(k in services && Emits(services[k]))
    ensures Built(services, fp, table, engine, done + [k], emitted, kids)
  {
    assert (done + [k])[..|done|] == done;
  }

  lemma BuiltAdd(services: map<string, ComposeService>, fp: string, table: map<string, seq<DependencyMatcher>>,
                 engine: RegexEngine, done: seq<string>, k: string, emitted: seq<string>, kids: seq<Component>,
                 child: Component)
    requires Built(services, fp, table, engine, done, emitted, kids)
    requires k in services && Emits(services[k]) && k !in done
    requires IsServiceChild(k, services[k], fp, table, engine, child)
    ensures Built(services, fp, table, engine, done + [k], emitted + [k], kids + [child])
  {
    EmittingAmongSnoc(services, done, k);
    EmittingAmongMembers(services, done, k);
    DistinctSnoc(emitted, k);
    ChildrenSnoc(services, fp, table, engine, emitted, kids, k, child);
  }

  lemma EmittingAmongSnoc(services: map<string, ComposeService>, done: seq<string>, k: string)
    requires k in services && Emits(services[k])
    ensures EmittingAmong(services, done + [k]) == EmittingAmong(services, done) + {k}
  {
    assert (done + [k])[..|done|] == done;
  }

  lemma ChildrenSnoc(services: map<string, ComposeService>, fp: string, table: map<string, seq<DependencyMatcher>>,
                     engine: RegexEngine, emitted: seq<string>, kids: seq<Component>, k: string, child: Component)
    requires |kids| == |emitted|
    requires forall j :: 0 <= j < |kids| ==>
      emitted[j] in services && Emits(services[emitted[j]])
      && IsServiceChild(emitted[j], services[emitted[j]], fp, table, engine, kids[j])
    requires k in services && Emits(services[k]) && IsServiceChild(k, services[k], fp, table, engine, child)
    ensures forall j :: 0 <= j < |kids| + 1 ==>
      (emitted + [k])[j] in services && Emits(services[(emitted + [k])[j]])
      && IsServiceChild((emitted + [k])[j], services[(emitted + [k])[j]], fp, table, engine, (kids + [child])[j])
  {
    forall j | 0 <= j < |kids| + 1
      ensures (emitted + [k])[j] in services && Emits(services[(emitted + [k])[j]])
        && IsServiceChild((emitted + [k])[j], services[(emitted + [k])[j]], fp, table, engine, (kids + [child])[j])
    {
      if j < |kids| {
        assert (emitted + [k])[j] == emitted[j] && (kids + [child])[j] == kids[j];
      }
    }
  }

  /** Adding one more child is one more `add_child`. */
  lemma AddChildrenSnoc(childs: seq<Component>, kids: seq<Component>, kid: Component)
    ensures AddChildren(childs, kids + [kid]) == AddChildSpec(AddChildren(childs, kids), kid)
  {
    assert (kids + [kid])[..|kids|] == kids;
  }

  /**
   * The children of a compose payload: for some order of the service keys,
   * the child of each service that makes one (and of no other), added with
   * `add_child` in that order.
   */
  ghost predicate ComposeChildren(services: map<string, ComposeService>, fp: string,
                                  table: map<string, seq<DependencyMatcher>>, engine: RegexEngine,
                                  childs: seq<Component>)
  {
    exists order: seq<string>, emitted: seq<string>, kids: seq<Component> ::
      && SetOf(order) == services.Keys
      && Built(services, fp, table, engine, order, emitted, kids)
      && SetOf(emitted) == Emitting(services)
      && childs == AddChildren([], kids)
  }

  /** Once every service is done, the services that made a child are exactly the emitting ones. */
  lemma AllServicesBuilt(services: map<string, ComposeService>, fp: string, table: map<string, seq<DependencyMatcher>>,
                         engine: RegexEngine, keys: seq<string>, emitted: seq<string>, kids: seq<Component>)
    requires SetOf(keys) == services.Keys
    requires Built(services, fp, table, engine, keys, emitted, kids)
    ensures SetOf(emitted) == Emitting(services)
    ensures ComposeChildren(services, fp, table, engine, AddChildren([], kids))
    ensures NoTwoSimilar(AddChildren([], kids))
  {
    forall n ensures n in EmittingAmong(services, keys) <==> n in Emitting(services) {
      EmittingAmongMembers(services, keys, n);
    }
    AddChildrenDissimilar([], kids);
  }

  /**
   * The payload of a compose file found at `fp`: named `virtual`, and
   * holding the children of the services that name an image, each added
   * with `add_child`, in the map's iteration order.
   */
  method DockerPayload(fp: string, services: map<string, ComposeService>,
                       table: map<string, seq<DependencyMatcher>>, engine: RegexEngine)
    returns (c: Component)
    ensures c == NewComponent("virtual", fp).(childs := c.childs)
    ensures NoTwoSimilar(c.childs)
    ensures ComposeChildren(services, fp, table, engine, c.childs)
  {
    var pl := new Payload("virtual", fp);
    ghost var site := pl.Value();
    var keys := Enumerate(services.Keys);
    ghost var emitted: seq<string> := [];
    ghost var kids: seq<Component> := [];
    for i := 0 to |keys|
      invariant pl.Value() == site.(childs := pl.childs)
      invariant pl.childs == AddChildren([], kids)
      invariant Built(services, fp, table, engine, keys[..i], emitted, kids)
    {
      var child := ServiceChild(keys[i], services[keys[i]], fp, table, engine);
      PrefixSnoc(keys, i);
      if child.Some? {
        var _ := pl.AddChild(child.value);
        BuiltAdd(services, fp, table, engine, keys[..i], keys[i], emitted, kids, child.value);
        AddChildrenSnoc([], kids, child.value);
        emitted := emitted + [keys[i]];
        kids := kids + [child.value];
      } else {
        BuiltSkip(services, fp, table, engine, keys[..i], keys[i], emitted, kids);
      }
    }
    assert keys[..|keys|] == keys;
    AllServicesBuilt(services, fp, table, engine, keys, emitted, kids);
    c := pl.Value();
  }

  /** The services of the compose file a file yields: compose names that open, parse and have services. */
  function ServicesOf(f: ProviderFile, open: string -> Option<string>, parse: string -> Option<DockerCompose>)
    : Option<map<string, ComposeService>>
  {
    if !IsComposeName(f.name) then None
    else match open(f.fp)
      case None => None
      case Some(content) =>
        match parse(content)
        case None => None
        case Some(compose) => compose.services
  }

  /** The first file at or after `i` that yields services. */
  function FirstCompose(files: seq<ProviderFile>, open: string -> Option<string>,
                        parse: string -> Option<DockerCompose>, i: nat): (r: Option<nat>)
    requires i <= |files|
    ensures r.None? <==> forall k :: i <= k < |files| ==> ServicesOf(files[k], open, parse).None?
    ensures r.Some? ==>
      && i <= r.value < |files|
      && ServicesOf(files[r.value], open, parse).Some?
      && forall k :: i <= k < r.value ==> ServicesOf(files[k], open, parse).None?
    decreases |files| - i
  {
    if i == |files| then None
    else if ServicesOf(files[i], open, parse).Some? then Some(i)
    else FirstCompose(files, open, parse, i + 1)
  }

  /**
   * `detect_docker_component`: the payload of the first compose file that
   * opens, parses and has services; `NoComponent` when there is none. It
   * never panics.
   */
  method DetectDockerComponent(files: seq<ProviderFile>, open: string -> Option<string>,
                               parse: string -> Option<DockerCompose>, table: map<string, seq<DependencyMatcher>>,
                               engine: RegexEngine)
    returns (out: Detected)
    ensures !out.Panicked?
    ensures out.NoComponent? <==> FirstCompose(files, open, parse, 0).None?
    ensures out.Found? ==>
      var k := FirstCompose(files, open, parse, 0).value;
      && out.component == NewComponent("virtual", files[k].fp).(childs := out.component.childs)
      && ComposeChildren(ServicesOf(files[k], open, parse).value, files[k].fp, table, engine, out.component.childs)
      && NoTwoSimilar(out.component.childs)
  {
    for i := 0 to |files|
      invariant FirstCompose(files, open, parse, 0) == FirstCompose(files, open, parse, i)
    {
      if !IsComposeName(files[i].name) {
        continue;
      }
      var content := open(files[i].fp);
      if content.None? {
        continue;
      }
      var parsed := parse(content.value);
      if parsed.None? {
        continue;
      }
      var services := parsed.value.services;
      if services.None? {
        continue;
      }
      var c := DockerPayload(files[i].fp, services.value, table, engine);
      return Found(c);
    }
    out := NoComponent;
  }
}

=== FILE: fake_provider.dfy ===
/**
 * The in-memory provider: directory listings and file contents held in two
 * maps, with `/` as its base path.
 */
module FakeProviders {
  import opened Wrappers
  import opened Types
  import opened Strings

  /** The listing of each directory path, and the content of each file path. */
  datatype FakeProvider = FakeProvider(basePath: string, paths: map<string, seq<string>>, files: map<string, string>)

  /** `FakeProvider::new`: the given maps, rooted at `/`. */
  function NewFakeProvider(paths: map<string, seq<string>>, files: map<string, string>): (p: FakeProvider)
    ensures BasePath(p) == "/"
    ensures p.paths == paths && p.files == files
  {
    FakeProvider("/", paths, files)
  }

  /** `base_path`. */
  function BasePath(p: FakeProvider): string {
    p.basePath
  }

  /**
   * The entry listed as `file` in directory `dir`: a trailing `/` marks a
   * directory and is not part of its name; its path is `file` joined to
   * `dir`.
   */
  function Entry(dir: string, file: string): (e: ProviderFile)
    ensures EndsWith(file, "/") ==> e.fileType == Dir && e.name + "/" == file
    ensures !EndsWith(file, "/") ==> e.fileType == File && e.name == file
    ensures e.fp == JoinPath(dir, file)
  {
    if EndsWith(file, "/") then
      assert file == file[..|file| - 1] + "/";
      ProviderFile(file[..|file| - 1], Dir, JoinPath(dir, file))
    else ProviderFile(file, File, JoinPath(dir, file))
  }

  /** The entries of a listing, in the order stored. */
  function Entries(dir: string, files: seq<string>): (r: seq<ProviderFile>)
    ensures |r| == |files|
    ensures forall i :: 0 <= i < |r| ==> r[i] == Entry(dir, files[i])
  {
    seq(|files|, i requires 0 <= i < |files| => Entry(dir, files[i]))
  }

  /** Ascending by name. */
  ghost predicate SortedByName(s: seq<ProviderFile>) {
    forall i, j :: 0 <= i < j < |s| ==> LessEq(s[i].name, s[j].name)
  }

  /** One step of the sort: `x` goes after every entry whose name is not greater than its own. */
  method InsertByName(sorted: seq<ProviderFile>, x: ProviderFile) returns (r: seq<ProviderFile>)
    requires SortedByName(sorted)
    ensures SortedByName(r)
    ensures multiset(r) == multiset(sorted) + multiset{x}
  {
    var k := 0;
    while k < |sorted| && LessEq(sorted[k].name, x.name)
      invariant 0 <= k <= |sorted|
      invariant forall i :: 0 <= i < k ==> LessEq(sorted[i].name, x.name)
    {
      k := k + 1;
    }
    r := sorted[..k] + [x] + sorted[k..];
    InsertSorted(sorted, x, k);
    assert sorted == sorted[..k] + sorted[k..];
  }

  /** Putting `x` after the entries not above it, and before the rest, keeps the order. */
  lemma InsertSorted(sorted: seq<ProviderFile>, x: ProviderFile, k: nat)
    requires SortedByName(sorted) && k <= |sorted|
    requires forall i :: 0 <= i < k ==> LessEq(sorted[i].name, x.name)
    requires k < |sorted| ==> !LessEq(sorted[k].name, x.name)
    ensures SortedByName(sorted[..k] + [x] + sorted[k..])
  {
    var r := sorted[..k] + [x] + sorted[k..];
    if k < |sorted| {
      LessEqTotal(sorted[k].name, x.name);
    }
    forall i, j | 0 <= i < j < |r| ensures LessEq(r[i].name, r[j].name) {
      if j == k {
        assert r[i] == sorted[i];
      } else if i == k {
        assert r[j] == sorted[j - 1];
        if j - 1 > k {
          LessEqTransitive(x.name, sorted[k].name, sorted[j - 1].name);
        }
      } else {
        var i' := if i < k then i else i - 1;
        var j' := if j < k then j else j - 1;
        assert r[i] == sorted[i'] && r[j] == sorted[j'];
      }
    }
  }

  /** `sort_by` on the names: the entries in ascending order of name. */
  method SortByName(entries: seq<ProviderFile>) returns (r: seq<ProviderFile>)
    ensures SortedByName(r)
    ensures multiset(r) == multiset(entries)
  {
    r := [];
    for i := 0 to |entries|
      invariant SortedByName(r)
      invariant multiset(r) == multiset(entries[..i])
    {
      r := InsertByName(r, entries[i]);
      PrefixSnoc(entries, i);
    }
    assert entries[..|entries|] == entries;
  }

  /**
   * `list_dir`: nothing for a path without a listing; otherwise the
   * listing's entries, ascending by name.
   */
  method ListDir(p: FakeProvider, path: string) returns (r: seq<ProviderFile>)
    ensures path !in p.paths ==> r == []
    ensures path in p.paths ==> SortedByName(r) && multiset(r) == multiset(Entries(path, p.paths[path]))
  {
    if path !in p.paths {
      return [];
    }
    var entries := Entries(path, p.paths[path]);
    r := SortByName(entries);
  }

  /** `open`: the content stored for the path, if any. */
  function Open(p: FakeProvider, path: string): (r: Option<string>)
    ensures r.Some? <==> path in p.files
    ensures r.Some? ==> r.value == p.files[path]
  {
    if path in p.files then Some(p.files[path]) else None
  }

  /** The entries of the root of `test_list_dir`, in the order stored. */
  lemma RootEntries()
    ensures var listing := Entries("/", ["dir1/", "file1.txt"]);
      && |listing| == 2
      && listing[0].name == "dir1" && listing[0].fileType == Dir
      && listing[1].name == "file1.txt" && listing[1].fileType == File
      && !LessEq(listing[1].name, listing[0].name)
  {
    DirEntryFixture();
    FileEntryFixture();
    FirstCharDecides("file1.txt", "dir1");
  }

  /** A name whose first character is above another's is not below it. */
  lemma FirstCharDecides(a: string, b: string)
    requires a != [] && b != [] && b[0] < a[0]
    ensures !LessEq(a, b)
  {
  }

  lemma DirEntryFixture()
    ensures Entry("/", "dir1/").name == "dir1" && Entry("/", "dir1/").fileType == Dir
  {
    assert EndsWith("dir1/", "/") by {
      assert "dir1/"[|"dir1/"| - 1..] == "/";
    }
    assert Entry("/", "dir1/").name + "/" == "dir1/";
  }

  lemma FileEntryFixture()
    ensures Entry("/", "file1.txt").name == "file1.txt" && Entry("/", "file1.txt").fileType == File
  {
    assert !EndsWith("file1.txt", "/") by {
      assert "file1.txt"[|"file1.txt"| - 1] == 't';
    }
  }

  /** The listing `test_list_dir` expects of its root: a directory `dir1` before a file `file1.txt`. */
  lemma ListDirFixture(r: seq<ProviderFile>)
    requires SortedByName(r)
    requires multiset(r) == multiset(Entries("/", ["dir1/", "file1.txt"]))
    ensures |r| == 2
    ensures r[0].name == "dir1" && r[0].fileType == Dir
    ensures r[1].name == "file1.txt" && r[1].fileType == File
  {
    RootEntries();
    SortedPair(r, Entries("/", ["dir1/", "file1.txt"]));
  }

  /**
   * Two entries whose second name is not below the first have one order
   * ascending by name: theirs.
   */
  lemma SortedPair(r: seq<ProviderFile>, listing: seq<ProviderFile>)
    requires SortedByName(r) && multiset(r) == multiset(listing)
    requires |listing| == 2 && !LessEq(listing[1].name, listing[0].name)
    ensures r == listing
  {
    assert |r| == 2 by {
      assert |r| == |multiset(r)| == |multiset(listing)| == |listing|;
    }
    assert listing == [listing[0], listing[1]];
    assert r == [r[0], r[1]];
    LessEqTotal(listing[0].name, listing[1].name);
    TwoOrdered(r[0], r[1], listing[0], listing[1]);
  }

  /** Two distinct elements in some order: the order that is ascending by name is the first one. */
  lemma TwoOrdered(x: ProviderFile, y: ProviderFile, a: ProviderFile, b: ProviderFile)
    requires multiset{x, y} == multiset{a, b}
    requires LessEq(x.name, y.name) && !LessEq(b.name, a.name)
    ensures x == a && y == b
  {
    assert x in multiset{a, b} && y in multiset{a, b};
  }
}

=== FILE: helpers.dfy ===
/**
 * `flatten` and what it relies on: the post-order copy of a component tree
 * into one level (`push_childs`), the marking and removal of duplicate
 * components, and the search for edges hidden in dependencies.
 */
module Helpers {
  import opened Wrappers
  import opened Types
  import opened Payloads

  /** Every proper descendant of the components `cs`, in post-order, each without children. */
  function Flat(cs: seq<Component>): (r: seq<Component>)
    ensures forall i :: 0 <= i < |r| ==> r[i].childs == []
    ensures |r| == Size(cs)
    decreases cs
  {
    if cs == [] then []
    else Flat(cs[0].childs) + [cs[0].(childs := [])] + Flat(cs[1..])
  }

  /** The number of components in the trees `cs`. */
  function Size(cs: seq<Component>): nat
    decreases cs
  {
    if cs == [] then 0 else Size(cs[0].childs) + 1 + Size(cs[1..])
  }

  /** Flattening one more tree appends its flattening. */
  lemma {:induction false} FlatSnoc(cs: seq<Component>, c: Component)
    ensures Flat(cs + [c]) == Flat(cs) + Flat(c.childs) + [c.(childs := [])]
    decreases |cs|
  {
    if cs == [] {
      assert [c][1..] == [];
    } else {
      assert (cs + [c])[0] == cs[0] && (cs + [c])[1..] == cs[1..] + [c];
      FlatSnoc(cs[1..], c);
    }
  }

  /** Everything of `pl` but its children is as in `before`. */
  ghost predicate OnlyChildsChanged(pl: Payload, before: Component)
    reads pl
  {
    pl.SameSite(before) && pl.languages == before.languages && pl.techs == before.techs
    && pl.reason == before.reason
  }

  /**
   * `push_childs`: appends to `dest`'s children every proper descendant of
   * `src`, each child after its own descendants and with its children
   * cleared.
   */
  method PushChilds(src: Component, dest: Payload)
    modifies dest
    ensures dest.childs == old(dest.childs) + Flat(src.childs)
    ensures OnlyChildsChanged(dest, old(dest.Value()))
    decreases src
  {
    ghost var start := dest.childs;
    for i := 0 to |src.childs|
      invariant dest.childs == start + Flat(src.childs[..i])
      invariant OnlyChildsChanged(dest, old(dest.Value()))
    {
      var cp := src.childs[i];
      PushChilds(cp, dest);
      cp := cp.(childs := []);
      dest.childs := dest.childs + [cp];
      PushStep(start, src.childs, i);
    }
    assert src.childs[..|src.childs|] == src.childs;
  }

  lemma PushStep(start: seq<Component>, cs: seq<Component>, i: nat)
    requires i < |cs|
    ensures start + Flat(cs[..i]) + Flat(cs[i].childs) + [cs[i].(childs := [])] == start + Flat(cs[..i + 1])
  {
    assert cs[..i + 1] == cs[..i] + [cs[i]];
    FlatSnoc(cs[..i], cs[i]);
  }

  /** `flatten`'s duplicate test: both techs set, and the same name or the same tech. */
  predicate Twin(a: Component, b: Component) {
    a.tech.Some? && b.tech.Some? && (a.name == b.name || a.tech == b.tech)
  }

  /** The ids marked after the inner loop of row `i` has looked at columns `i + 1` up to `j`, from `d0`. */
  function InnerMarks(cs: seq<Component>, i: nat, j: nat, d0: seq<string>): seq<string>
    requires i < j <= |cs|
    decreases j
  {
    if j == i + 1 then d0
    else
      var prev := InnerMarks(cs, i, j - 1, d0);
      if Twin(cs[i], cs[j - 1]) then prev + [cs[j - 1].id] else prev
  }

  /** The ids marked after the outer loop has handled rows `0` up to `i`; a row already marked is skipped. */
  function MarksBefore(cs: seq<Component>, i: nat): seq<string>
    requires i <= |cs|
    decreases i
  {
    if i == 0 then []
    else
      var prev := MarksBefore(cs, i - 1);
      if cs[i - 1].id in prev then prev else InnerMarks(cs, i - 1, |cs|, prev)
  }

  /** The children left after removing every marked id (`retain`), in their order. */
  function Retain(cs: seq<Component>, marks: seq<string>): seq<Component>
    decreases |cs|
  {
    if cs == [] then []
    else if cs[0].id in marks then Retain(cs[1..], marks)
    else [cs[0]] + Retain(cs[1..], marks)
  }

  /** The children of the flattened payload: the flattened tree with duplicates removed. */
  function FlattenedChildren(src: Component): seq<Component> {
    var cs := Flat(src.childs);
    Retain(cs, MarksBefore(cs, |cs|))
  }

  /**
   * `flatten`: a payload named `flatten` at `/` whose children are the
   * flattened tree with duplicates removed. The `merge` flag changes
   * nothing, since the merge is not implemented.
   */
  method Flatten(src: Component, merge: bool) returns (r: Component)
    ensures r == NewComponent("flatten", "/").(childs := FlattenedChildren(src))
  {
    var dest := new Payload("flatten", "/");
    PushChilds(src, dest);
    ghost var cs := dest.childs;
    assert cs == Flat(src.childs);
    ghost var site := dest.Value();
    assert site == NewComponent("flatten", "/").(childs := cs);
    var duplicates := MarkDuplicates(dest);
    dest.childs := Retain(dest.childs, duplicates);
    var _ := FindEdgesInDependencies(dest);
    r := dest.Value();
  }

  /**
   * The marking loops of `flatten`: for each child not yet marked, every
   * later child that is its twin gets its id marked.
   */
  method MarkDuplicates(dest: Payload) returns (duplicates: seq<string>)
    ensures duplicates == MarksBefore(dest.childs, |dest.childs|)
  {
    duplicates := [];
    for i := 0 to |dest.childs|
      invariant duplicates == MarksBefore(dest.childs, i)
    {
      if dest.childs[i].id in duplicates {
        continue;
      }
      for j := i + 1 to |dest.childs|
        invariant duplicates == InnerMarks(dest.childs, i, j, MarksBefore(dest.childs, i))
      {
        if dest.childs[i].tech.None? || dest.childs[j].tech.None? {
          continue;
        }
        if dest.childs[i].name != dest.childs[j].name && dest.childs[i].tech != dest.childs[j].tech {
          continue;
        }
        duplicates := duplicates + [dest.childs[j].id];
      }
    }
  }

  /** Marks are only ever added. */
  lemma {:induction false} InnerMarksGrow(cs: seq<Component>, i: nat, j: nat, d0: seq<string>, x: string)
    requires i < j <= |cs|
    requires x in d0
    ensures x in InnerMarks(cs, i, j, d0)
    decreases j
  {
    if j > i + 1 {
      InnerMarksGrow(cs, i, j - 1, d0, x);
    }
  }

  /** Row `i`'s inner loop marks every later twin of `cs[i]`, and nothing else. */
  lemma {:induction false} InnerMarksExact(cs: seq<Component>, i: nat, j: nat, d0: seq<string>, x: string)
    requires i < j <= |cs|
    ensures x in InnerMarks(cs, i, j, d0) <==>
      x in d0 || exists k :: i < k < j && Twin(cs[i], cs[k]) && x == cs[k].id
    decreases j
  {
    if j > i + 1 {
      InnerMarksExact(cs, i, j - 1, d0, x);
    }
  }

  lemma {:induction false} MarksGrow(cs: seq<Component>, i: nat, k: nat, x: string)
    requires i <= k <= |cs|
    requires x in MarksBefore(cs, i)
    ensures x in MarksBefore(cs, k)
    decreases k
  {
    if k > i {
      MarksGrow(cs, i, k - 1, x);
      var prev := MarksBefore(cs, k - 1);
      if cs[k - 1].id !in prev {
        InnerMarksGrow(cs, k - 1, |cs|, prev, x);
      }
    }
  }

  /** Every mark is the id of a later twin of some component. */
  lemma {:induction false} MarksAreTwins(cs: seq<Component>, i: nat, x: string)
    requires i <= |cs|
    requires x in MarksBefore(cs, i)
    ensures exists a, b :: 0 <= a < b < |cs| && Twin(cs[a], cs[b]) && x == cs[b].id
    decreases i
  {
    var prev := MarksBefore(cs, i - 1);
    if x in prev {
      MarksAreTwins(cs, i - 1, x);
    } else {
      InnerMarksExact(cs, i - 1, |cs|, prev, x);
    }
  }

  /** The later twin of a component that is never marked gets marked. */
  lemma TwinOfSurvivorMarked(cs: seq<Component>, i: nat, j: nat)
    requires i < j < |cs| && Twin(cs[i], cs[j])
    requires cs[i].id !in MarksBefore(cs, |cs|)
    ensures cs[j].id in MarksBefore(cs, |cs|)
  {
    if cs[i].id in MarksBefore(cs, i) {
      MarksGrow(cs, i, |cs|, cs[i].id);
    }
    InnerMarksExact(cs, i, |cs|, MarksBefore(cs, i), cs[j].id);
    MarksGrow(cs, i + 1, |cs|, cs[j].id);
  }

  /** `retain` keeps exactly the components whose id is not marked. */
  lemma {:induction false} RetainMembers(cs: seq<Component>, marks: seq<string>, x: Component)
    ensures x in Retain(cs, marks) <==> x in cs && x.id !in marks
    decreases |cs|
  {
    if cs != [] {
      RetainMembers(cs[1..], marks, x);
      assert x in cs <==> x == cs[0] || x in cs[1..];
    }
  }

  /** `retain` keeps the order: two survivors appear in the order of their positions before. */
  lemma {:induction false} RetainKeepsOrder(cs: seq<Component>, marks: seq<string>, p: nat, q: nat)
    returns (i: nat, j: nat)
    requires p < q < |Retain(cs, marks)|
    ensures i < j < |cs| && Retain(cs, marks)[p] == cs[i] && Retain(cs, marks)[q] == cs[j]
    decreases |cs|
  {
    var rest := Retain(cs[1..], marks);
    if cs[0].id in marks {
      assert Retain(cs, marks) == rest;
      i, j := RetainKeepsOrder(cs[1..], marks, p, q);
      i, j := i + 1, j + 1;
    } else {
      assert Retain(cs, marks) == [cs[0]] + rest;
      if p == 0 {
        j := RetainAt(cs[1..], marks, q - 1);
        i, j := 0, j + 1;
      } else {
        i, j := RetainKeepsOrder(cs[1..], marks, p - 1, q - 1);
        i, j := i + 1, j + 1;
      }
    }
  }

  /** Each survivor is an element of the input, at some index. */
  lemma RetainAt(cs: seq<Component>, marks: seq<string>, q: nat) returns (j: nat)
    requires q < |Retain(cs, marks)|
    ensures j < |cs| && Retain(cs, marks)[q] == cs[j]
  {
    RetainMembers(cs, marks, Retain(cs, marks)[q]);
    j :| 0 <= j < |cs| && cs[j] == Retain(cs, marks)[q];
  }

  /** The components have pairwise different ids. */
  ghost predicate DistinctIds(cs: seq<Component>) {
    forall i, j :: 0 <= i < j < |cs| ==> cs[i].id != cs[j].id
  }

  /** No two survivors of `flatten` are twins. */
  lemma SurvivorsNotTwins(src: Component)
    ensures var r := FlattenedChildren(src);
      forall p, q :: 0 <= p < q < |r| ==> !Twin(r[p], r[q])
  {
    var cs := Flat(src.childs);
    var marks := MarksBefore(cs, |cs|);
    var r := FlattenedChildren(src);
    forall p, q | 0 <= p < q < |r| ensures !Twin(r[p], r[q]) {
      var i, j := RetainKeepsOrder(cs, marks, p, q);
      RetainMembers(cs, marks, r[p]);
      RetainMembers(cs, marks, r[q]);
      if Twin(cs[i], cs[j]) {
        TwinOfSurvivorMarked(cs, i, j);
      }
    }
  }

  /**
   * With pairwise different ids, `flatten` keeps the first component of the
   * flattened tree and every component without a tech.
   */
  lemma FirstAndTechlessSurvive(src: Component)
    requires DistinctIds(Flat(src.childs))
    ensures var cs := Flat(src.childs);
      && (cs != [] ==> FlattenedChildren(src) != [] && FlattenedChildren(src)[0] == cs[0])
      && forall x :: x in cs && x.tech.None? ==> x in FlattenedChildren(src)
  {
    var cs := Flat(src.childs);
    var marks := MarksBefore(cs, |cs|);
    if cs != [] && cs[0].id in marks {
      MarksAreTwins(cs, |cs|, cs[0].id);
    }
    forall x | x in cs && x.tech.None? ensures x in FlattenedChildren(src) {
      RetainMembers(cs, marks, x);
      if x.id in marks {
        MarksAreTwins(cs, |cs|, x.id);
      }
    }
  }

  /** The first child named `name`. */
  function FirstNamed(childs: seq<Component>, name: string): (r: Option<Component>)
    ensures r.None? <==> forall c :: c in childs ==> c.name != name
    ensures r.Some? ==> r.value in childs && r.value.name == name
    decreases |childs|
  {
    if childs == [] then None
    else if childs[0].name == name then Some(childs[0])
    else FirstNamed(childs[1..], name)
  }

  /** The edge a dependency named `name` of child `c` points along, if it names another sibling. */
  function EdgeOf(all: seq<Component>, c: Component, name: string): Option<(string, string)> {
    if name == c.name || c.tech == Some(name) then None
    else
      match FirstNamed(all, name)
      case Some(target) => Some((c.id, target.id))
      case None => None
  }

  /** The edges of the first `m` dependencies of `c`. */
  function DependencyEdges(all: seq<Component>, c: Component, m: nat): seq<(string, string)>
    requires m <= |c.dependencies|
  {
    if m == 0 then []
    else
      var prev := DependencyEdges(all, c, m - 1);
      match EdgeOf(all, c, c.dependencies[m - 1].1)
      case Some(e) => prev + [e]
      case None => prev
  }

  /** The edges of the first `n` children of `all`, child by child. */
  function EdgeCandidates(all: seq<Component>, n: nat): seq<(string, string)>
    requires n <= |all|
  {
    if n == 0 then [] else EdgeCandidates(all, n - 1) + DependencyEdges(all, all[n - 1], |all[n - 1].dependencies|)
  }

  /**
   * `find_edges_in_dependencies`: the (source id, target id) pairs it
   * collects. The payload is not changed: the pairs are then dropped.
   */
  method FindEdgesInDependencies(pl: Payload) returns (edges: seq<(string, string)>)
    ensures edges == EdgeCandidates(pl.childs, |pl.childs|)
  {
    var all := pl.childs;
    var names := set c | c in all :: c.name;
    edges := [];
    for i := 0 to |all|
      invariant edges == EdgeCandidates(all, i)
    {
      edges := PushDependencyEdges(all, names, all[i], edges);
    }
  }

  /** The inner loop of `find_edges_in_dependencies`: the edges of one child, pushed in order. */
  method PushDependencyEdges(all: seq<Component>, names: set<string>, child: Component,
                             edges: seq<(string, string)>)
    returns (r: seq<(string, string)>)
    requires names == set c | c in all :: c.name
    ensures r == edges + DependencyEdges(all, child, |child.dependencies|)
  {
    r := edges;
    for k := 0 to |child.dependencies|
      invariant r == edges + DependencyEdges(all, child, k)
    {
      var name := child.dependencies[k].1;
      if name !in names {
        assert FirstNamed(all, name).None?;
        continue;
      }
      if name == child.name || (child.tech.Some? && name == child.tech.value) {
        continue;
      }
      var target := FirstNamed(all, name);
      if target.Some? {
        AppendAssoc(edges, DependencyEdges(all, child, k), (child.id, target.value.id));
        r := r + [(child.id, target.value.id)];
      }
    }
  }

  lemma AppendAssoc<T>(a: seq<T>, b: seq<T>, x: T)
    ensures a + b + [x] == a + (b + [x])
  {
  }

  /**
   * Every edge candidate goes from a child to the first sibling named by one
   * of its dependencies, a sibling with another name than the source's and
   * than the source's tech: there are no self-loops.
   */
  lemma {:induction false} EdgesSound(all: seq<Component>, n: nat, e: (string, string))
    requires n <= |all|
    requires e in EdgeCandidates(all, n)
    ensures exists c, t, d ::
      && c in all && t in all && d in c.dependencies
      && e == (c.id, t.id) && t.name == d.1 && t.name != c.name && c.tech != Some(t.name)
  {
    if e !in EdgeCandidates(all, n - 1) {
      var c := all[n - 1];
      DependencyEdgesSound(all, c, |c.dependencies|, e);
    } else {
      EdgesSound(all, n - 1, e);
    }
  }

  lemma {:induction false} DependencyEdgesSound(all: seq<Component>, c: Component, m: nat, e: (string, string))
    requires c in all && m <= |c.dependencies|
    requires e in DependencyEdges(all, c, m)
    ensures exists t, d ::
      && t in all && d in c.dependencies
      && e == (c.id, t.id) && t.name == d.1 && t.name != c.name && c.tech != Some(t.name)
  {
    var prev := DependencyEdges(all, c, m - 1);
    if e !in prev {
      var d := c.dependencies[m - 1];
      var t := FirstNamed(all, d.1).value;
      assert e == (c.id, t.id);
    } else {
      DependencyEdgesSound(all, c, m - 1, e);
    }
  }

  /**
   * Conversely, a dependency of a child that names another sibling (not
   * the child itself, nor its tech) yields the edge to the first sibling of
   * that name.
   */
  lemma {:induction false} EdgesComplete(all: seq<Component>, n: nat, i: nat, k: nat)
    requires i < n <= |all| && k < |all[i].dependencies|
    requires var name := all[i].dependencies[k].1;
      && name != all[i].name && all[i].tech != Some(name)
      && exists t :: t in all && t.name == name
    ensures (all[i].id, FirstNamed(all, all[i].dependencies[k].1).value.id) in EdgeCandidates(all, n)
    decreases n
  {
    if i < n - 1 {
      EdgesComplete(all, n - 1, i, k);
    } else {
      DependencyEdgesComplete(all, all[i], |all[i].dependencies|, k);
    }
  }

  lemma {:induction false} DependencyEdgesComplete(all: seq<Component>, c: Component, m: nat, k: nat)
    requires k < m <= |c.dependencies|
    requires var name := c.dependencies[k].1;
      && name != c.name && c.tech != Some(name)
      && exists t :: t in all && t.name == name
    ensures (c.id, FirstNamed(all, c.dependencies[k].1).value.id) in DependencyEdges(all, c, m)
    decreases m
  {
    if k < m - 1 {
      DependencyEdgesComplete(all, c, m - 1, k);
    }
  }
}

=== FILE: languages.dfy ===
/**
 * Language detection by file extension. The language catalog (a JSON file
 * bundled with the program) is a parameter here: `list` stands for what
 * `raw_list` parses out of it.
 */
module Languages {
  import opened Wrappers
  import opened Strings

  datatype LangType = Data | Markup | Programming | Prose

  /** One catalog entry: its extensions (each with the leading dot), group, name and type. */
  datatype LangListItem = LangListItem(extensions: seq<string>, group: Option<string>, name: string,
                                       langType: LangType)

  predicate IsProgramming(item: LangListItem) {
    item.langType == Programming
  }

  /** `a` is `b` with some elements left out and the rest in the same order. */
  ghost predicate SubsequenceOf<T>(a: seq<T>, b: seq<T>)
    decreases |b|
  {
    if a == [] then true
    else if b == [] then false
    else (a[0] == b[0] && SubsequenceOf(a[1..], b[1..])) || SubsequenceOf(a, b[1..])
  }

  /** The entries whose being a programming language is `programming`, in catalog order. */
  function Select(list: seq<LangListItem>, programming: bool): (r: seq<LangListItem>)
    ensures forall i :: 0 <= i < |r| ==> IsProgramming(r[i]) == programming
    ensures forall x :: x in list && IsProgramming(x) == programming ==> x in r
    ensures forall x :: x in r ==> x in list
    decreases |list|
  {
    if list == [] then []
    else if IsProgramming(list[0]) == programming then [list[0]] + Select(list[1..], programming)
    else Select(list[1..], programming)
  }

  /** `languages`: the programming languages of the catalog. */
  function Languages(list: seq<LangListItem>): seq<LangListItem> {
    Select(list, true)
  }

  /** `others`: every other catalog entry (data, markup, prose). */
  function Others(list: seq<LangListItem>): seq<LangListItem> {
    Select(list, false)
  }

  /** The first entry of `langs` that lists `key` among its extensions. */
  function FindByExtension(langs: seq<LangListItem>, key: string): (r: Option<LangListItem>)
    ensures r.None? <==> forall x :: x in langs ==> key !in x.extensions
    ensures r.Some? ==>
      exists i ::
        && 0 <= i < |langs|
        && r.value == langs[i]
        && key in langs[i].extensions
        && forall j :: 0 <= j < i ==> key !in langs[j].extensions
    decreases |langs|
  {
    if langs == [] then None
    else if key in langs[0].extensions then Some(langs[0])
    else
      var r := FindByExtension(langs[1..], key);
      assert forall i :: 1 <= i < |langs| ==> langs[i] == langs[1..][i - 1];
      r
  }

  /**
   * `detect_lang`: the catalog entry listing the file's `.`-prefixed
   * extension, a programming language first; nothing for a file without an
   * extension or an extension no entry lists.
   */
  function DetectLang(list: seq<LangListItem>, fileName: string): (r: Option<LangListItem>)
    ensures Extension(fileName).None? ==> r.None?
    ensures r.Some? ==>
      && Extension(fileName).Some?
      && r.value in list
      && "." + Extension(fileName).value in r.value.extensions
    ensures Extension(fileName).Some? && r.None? ==>
      forall x :: x in list ==> "." + Extension(fileName).value !in x.extensions
    ensures r.Some? && !IsProgramming(r.value) ==>
      forall x :: x in list && IsProgramming(x) ==> "." + Extension(fileName).value !in x.extensions
    ensures r.Some? ==>
      exists i ::
        && 0 <= i < |list| && list[i] == r.value
        && forall j :: 0 <= j < i && IsProgramming(list[j]) == IsProgramming(r.value) ==>
             "." + Extension(fileName).value !in list[j].extensions
  {
    match Extension(fileName)
    case None => None
    case Some(ext) =>
      var key := "." + ext;
      FindInClass(list, true, key);
      FindInClass(list, false, key);
      match FindByExtension(Languages(list), key)
      case Some(lang) => Some(lang)
      case None => FindByExtension(Others(list), key)
  }

  /**
   * Searching one class of the catalog finds the first entry of that class,
   * in catalog order, that lists the key.
   */
  lemma {:induction false} FindInClass(list: seq<LangListItem>, programming: bool, key: string)
    ensures var r := FindByExtension(Select(list, programming), key);
      r.Some? ==>
        exists i ::
          && 0 <= i < |list| && list[i] == r.value
          && IsProgramming(list[i]) == programming && key in list[i].extensions
          && forall j :: 0 <= j < i && IsProgramming(list[j]) == programming ==> key !in list[j].extensions
    decreases |list|
  {
    if list != [] {
      FindInClass(list[1..], programming, key);
      var s := Select(list, programming);
      var r := FindByExtension(s, key);
      var tail := FindByExtension(Select(list[1..], programming), key);
      if IsProgramming(list[0]) == programming {
        assert s[0] == list[0] && s[1..] == Select(list[1..], programming);
        if key in list[0].extensions {
          assert r == Some(list[0]);
        } else {
          assert r == tail;
          if r.Some? {
            var i' :| 0 <= i' < |list[1..]| && list[1..][i'] == tail.value
                      && IsProgramming(list[1..][i']) == programming && key in list[1..][i'].extensions
                      && forall j :: 0 <= j < i' && IsProgramming(list[1..][j]) == programming ==>
                           key !in list[1..][j].extensions;
            assert list[i' + 1] == r.value;
            forall j | 0 <= j < i' + 1 && IsProgramming(list[j]) == programming
              ensures key !in list[j].extensions
            {
              if j > 0 {
                assert list[j] == list[1..][j - 1];
              }
            }
          }
        }
      } else {
        assert s == Select(list[1..], programming);
        if r.Some? {
          var i' :| 0 <= i' < |list[1..]| && list[1..][i'] == tail.value
                    && IsProgramming(list[1..][i']) == programming && key in list[1..][i'].extensions
                    && forall j :: 0 <= j < i' && IsProgramming(list[1..][j]) == programming ==>
                         key !in list[1..][j].extensions;
          assert list[i' + 1] == r.value;
          forall j | 0 <= j < i' + 1 && IsProgramming(list[j]) == programming
            ensures key !in list[j].extensions
          {
            if j > 0 {
              assert list[j] == list[1..][j - 1];
            }
          }
        }
      }
    }
  }

  /** `languages` and `others` split the catalog: together they hold every entry, each once. */
  lemma {:induction false} SelectPartition(list: seq<LangListItem>)
    ensures |Languages(list)| + |Others(list)| == |list|
    ensures multiset(Languages(list)) + multiset(Others(list)) == multiset(list)
  {
    if list != [] {
      SelectPartition(list[1..]);
      assert list == [list[0]] + list[1..];
    }
  }

  /** Each half of the split keeps catalog order. */
  lemma {:induction false} SelectKeepsOrder(list: seq<LangListItem>, programming: bool)
    ensures SubsequenceOf(Select(list, programming), list)
    decreases |list|
  {
    if list != [] {
      SelectKeepsOrder(list[1..], programming);
      var r := Select(list, programming);
      if IsProgramming(list[0]) == programming {
        assert r[0] == list[0] && r[1..] == Select(list[1..], programming);
      } else {
        SubsequenceSkip(r, list);
      }
    }
  }

  /** Leaving out the head keeps a subsequence of the tail a subsequence of the whole. */
  lemma SubsequenceSkip<T>(a: seq<T>, b: seq<T>)
    requires b != [] && SubsequenceOf(a, b[1..])
    ensures SubsequenceOf(a, b)
  {
  }

  /** A catalog holding the first programming entry and the first data entry of the bundled one. */
  function FixtureCatalog(): seq<LangListItem> {
    [LangListItem([".bsl", ".os"], None, "1C Enterprise", Programming),
     LangListItem([".2da"], None, "2-Dimensional Array", Data)]
  }

  /** The detection fixtures for a programming language and for a data format. */
  lemma DetectLangFixture()
    ensures DetectLang(FixtureCatalog(), "test.bsl") == Some(FixtureCatalog()[0])
    ensures DetectLang(FixtureCatalog(), "test.2da") == Some(FixtureCatalog()[1])
  {
    ProgrammingFixture();
    DataFixture();
  }

  /** The detection fixtures for an unknown extension and for a name without one. */
  lemma DetectLangNoneFixture()
    ensures DetectLang(FixtureCatalog(), "test.nonexistent").None?
    ensures DetectLang(FixtureCatalog(), "testfile").None?
  {
    UnknownExtensionFixture();
    NoExtensionFixture();
  }

  lemma ProgrammingFixture()
    ensures DetectLang(FixtureCatalog(), "test.bsl") == Some(FixtureCatalog()[0])
  {
    var c := FixtureCatalog();
    ExtensionFixture("test.bsl", "bsl");
    DetectInPair(c[0], c[1], "test.bsl", "bsl");
    assert "." + "bsl" == ".bsl";
  }

  lemma DataFixture()
    ensures DetectLang(FixtureCatalog(), "test.2da") == Some(FixtureCatalog()[1])
  {
    var c := FixtureCatalog();
    ExtensionFixture("test.2da", "2da");
    DetectInPair(c[0], c[1], "test.2da", "2da");
    assert ("." + "2da")[1] == '2';
    assert "." + "2da" == ".2da";
  }

  lemma UnknownExtensionFixture()
    ensures DetectLang(FixtureCatalog(), "test.nonexistent").None?
  {
    var c := FixtureCatalog();
    ExtensionFixture("test.nonexistent", "nonexistent");
    DetectInPair(c[0], c[1], "test.nonexistent", "nonexistent");
    assert |"." + "nonexistent"| == 12;
  }

  lemma NoExtensionFixture()
    ensures DetectLang(FixtureCatalog(), "testfile").None?
  {
    assert LastIndexOf("testfile", '.').None?;
  }

  /** The extension of a name `test.` followed by a dot-free `ext`. */
  lemma ExtensionFixture(name: string, ext: string)
    requires name == "test." + ext && '.' !in ext
    ensures Extension(name) == Some(ext)
  {
    assert LastIndexOf(name, '.') == Some(4) by {
      assert name[4] == '.' && name[5..] == ext;
    }
    assert name[5..] == ext;
  }

  /** Detection in a catalog of one programming language followed by one other entry. */
  lemma DetectInPair(lang: LangListItem, other: LangListItem, fileName: string, ext: string)
    requires IsProgramming(lang) && !IsProgramming(other)
    requires Extension(fileName) == Some(ext)
    ensures DetectLang([lang, other], fileName) ==
      if "." + ext in lang.extensions then Some(lang)
      else if "." + ext in other.extensions then Some(other)
      else None
  {
    var c := [lang, other];
    assert c[1..] == [other] && c[1..][1..] == [];
    assert [lang][1..] == [] && [other][1..] == [];
  }
}

=== FILE: loader.dfy ===
/**
 * The matcher tables that `load_one` builds from a registered rule, as
 * functions of the tables before the call. The `RuleTables` class proves its
 * `LoadOne` and `LoadAllRules` methods against these.
 */
module Loader {
  import opened Wrappers
  import opened Types

  /** Recognises one package name of an ecosystem (pattern `^name$`) as evidence of `tech`. */
  datatype DependencyMatcher = DependencyMatcher(pattern: Regex, tech: string)

  /**
   * A file matcher of `RULES_TECHS`: the closure captured the rule's key and
   * either its list of file names or its file-name pattern.
   */
  datatype TechMatcher =
    | FileListMatcher(key: string, files: seq<string>)
    | FileRegexMatcher(key: string, pattern: Regex)

  /** An extension matcher of `RULES_EXTENSIONS`: the rule's key and its extensions as a set. */
  datatype ExtensionMatcher = ExtensionMatcher(key: string, extensions: set<string>)

  /** One entry of `RAW_LIST`. */
  datatype RuleEntry =
    | DependencyEntry(dep: RuleDependency)
    | ExtensionEntry(rule: Rule)
    | FileEntry(rule: Rule)

  /** The global tables `DEPENDENCIES`, `RULES_TECHS`, `RULES_EXTENSIONS`, `RULES_COMPONENTS`, `RAW_LIST`. */
  datatype Tables = Tables(
    dependencies: map<string, seq<DependencyMatcher>>,
    techs: seq<TechMatcher>,
    extensions: seq<ExtensionMatcher>,
    components: seq<Detector>,
    rawList: seq<RuleEntry>)

  /** The ecosystems `DEPENDENCIES` is seeded with; dependencies of any other type get no matcher. */
  const Ecosystems: set<string> :=
    {"terraform.resource", "deno", "docker", "golang", "npm", "php",
     "python", "ruby", "rust", "terraform", "githubAction"}

  /** The tables before any rule is loaded: one empty matcher list per ecosystem, everything else empty. */
  function InitialTables(): (t: Tables)
    ensures t.dependencies.Keys == Ecosystems
    ensures forall k :: k in t.dependencies ==> t.dependencies[k] == []
    ensures t.techs == [] && t.extensions == [] && t.components == [] && t.rawList == []
  {
    Tables(map k | k in Ecosystems :: [], [], [], [], [])
  }

  /** The matcher a non-empty dependency name compiles to: the whole name must match. */
  function NameMatcher(name: string, tech: string): DependencyMatcher {
    DependencyMatcher(Regex("^" + name + "$"), tech)
  }

  /** The panic message of a rule declaring a dependency with an empty name. */
  function EmptyNameMessage(rule: Rule): string {
    "empty dependency name for " + rule.name + " (" + rule.ruleType + " > " + rule.tech + ")"
  }

  /** The declared dependencies of a rule (none when the field is absent). */
  function DeclaredDependencies(rule: Rule): seq<RuleDependency> {
    rule.dependencies.GetOr([])
  }

  /** Some declared dependency has a name that is the empty string. */
  predicate HasEmptyName(deps: seq<RuleDependency>) {
    exists i :: 0 <= i < |deps| && deps[i].name == Some("")
  }

  /** One step of the dependency loop of `load_one`, for a dependency with a non-empty name or none. */
  function LoadDependency(t: Tables, rule: Rule, dep: RuleDependency): Tables
    requires dep.name != Some("")
  {
    match dep.name
    case None => t
    case Some(n) =>
      var deps :=
        if dep.depType in t.dependencies
        then t.dependencies[dep.depType := t.dependencies[dep.depType] + [NameMatcher(n, rule.tech)]]
        else t.dependencies;
      t.(dependencies := deps, rawList := t.rawList + [DependencyEntry(dep)])
  }

  /**
   * The dependency loop of `load_one` over `deps`, in order: the tables it
   * leaves and whether it reached the end or stopped on an empty name.
   */
  function LoadDependencies(t: Tables, rule: Rule, deps: seq<RuleDependency>): (Tables, Outcome<string>)
    decreases |deps|
  {
    if deps == [] then (t, Pass)
    else if deps[0].name == Some("") then (t, Fail(EmptyNameMessage(rule)))
    else LoadDependencies(LoadDependency(t, rule, deps[0]), rule, deps[1..])
  }

  /** The file matcher a rule contributes, if its files are a list or a pattern. */
  function FileMatcherOf(rule: Rule): Option<TechMatcher> {
    match rule.files
    case Some(FilesArray(files)) => Some(FileListMatcher(rule.tech, files))
    case Some(FilesRegex(pattern, _)) => Some(FileRegexMatcher(rule.tech, pattern))
    case _ => None
  }

  /** The part of `load_one` after the dependency loop: file matcher, extension matcher, detectors. */
  function LoadMatchers(t: Tables, rule: Rule): Tables {
    var t1 :=
      match FileMatcherOf(rule)
      case Some(m) => t.(techs := t.techs + [m], rawList := t.rawList + [FileEntry(rule)])
      case None => t;
    var t2 :=
      match rule.extensions
      case Some(exts) =>
        t1.(extensions := t1.extensions + [ExtensionMatcher(rule.tech, SetOf(exts))],
            rawList := t1.rawList + [ExtensionEntry(rule)])
      case None => t1;
    match rule.detect
    case Some(detectors) => t2.(components := t2.components + detectors)
    case None => t2
  }

  /**
   * `load_one`: the tables after the call, and `Fail` with the panic message
   * when a dependency name is empty (the tables then hold what the loop had
   * pushed before reaching it).
   */
  function LoadOne(t: Tables, rule: Rule): (Tables, Outcome<string>) {
    var (t1, out) := LoadDependencies(t, rule, DeclaredDependencies(rule));
    if out.Fail? then (t1, out) else (LoadMatchers(t1, rule), Pass)
  }

  /** `load_all_rules`: the rules loaded in order, stopping at the first panic. */
  function LoadAll(t: Tables, rules: seq<Rule>): (Tables, Outcome<string>)
    decreases |rules|
  {
    if rules == [] then (t, Pass)
    else
      var (t1, out) := LoadOne(t, rules[0]);
      if out.Fail? then (t1, out) else LoadAll(t1, rules[1..])
  }

  /** The dependency matchers the named dependencies of type `eco` contribute, in order. */
  function MatchersFor(deps: seq<RuleDependency>, eco: string, tech: string): seq<DependencyMatcher>
    decreases |deps|
  {
    if deps == [] then []
    else
      var rest := MatchersFor(deps[1..], eco, tech);
      match deps[0].name
      case Some(n) => if deps[0].depType == eco then [NameMatcher(n, tech)] + rest else rest
      case None => rest
  }

  /** The raw entries the named dependencies contribute, in order. */
  function EntriesFor(deps: seq<RuleDependency>): seq<RuleEntry>
    decreases |deps|
  {
    if deps == [] then []
    else if deps[0].name.Some? then [DependencyEntry(deps[0])] + EntriesFor(deps[1..])
    else EntriesFor(deps[1..])
  }

  /**
   * The dependency loop stops exactly at an empty name; when it does not,
   * every ecosystem of the tables gets the matchers of its named dependencies
   * appended in order, the ecosystems stay the same, every named dependency
   * gets a raw entry, and nothing else changes.
   */
  lemma {:induction false} LoadDependenciesEffect(t: Tables, rule: Rule, deps: seq<RuleDependency>)
    ensures LoadDependencies(t, rule, deps).1.Fail? <==> HasEmptyName(deps)
    ensures LoadDependencies(t, rule, deps).0.dependencies.Keys == t.dependencies.Keys
    ensures !HasEmptyName(deps) ==>
      var t1 := LoadDependencies(t, rule, deps).0;
      && (forall k :: k in t.dependencies ==>
            t1.dependencies[k] == t.dependencies[k] + MatchersFor(deps, k, rule.tech))
      && t1.rawList == t.rawList + EntriesFor(deps)
      && t1.techs == t.techs && t1.extensions == t.extensions && t1.components == t.components
    decreases |deps|
  {
    if deps != [] {
      if deps[0].name == Some("") {
        assert HasEmptyName(deps);
      } else {
        var t0 := LoadDependency(t, rule, deps[0]);
        LoadDependenciesEffect(t0, rule, deps[1..]);
        EmptyNameAfterHead(deps);
        if !HasEmptyName(deps) {
          var t1 := LoadDependencies(t, rule, deps).0;
          forall k | k in t.dependencies
            ensures t1.dependencies[k] == t.dependencies[k] + MatchersFor(deps, k, rule.tech)
          {
            assert t1.dependencies[k] == t0.dependencies[k] + MatchersFor(deps[1..], k, rule.tech);
          }
        }
      }
    }
  }

  /** Past a head with a non-empty name, an empty name is in the tail or nowhere. */
  lemma EmptyNameAfterHead(deps: seq<RuleDependency>)
    requires deps != [] && deps[0].name != Some("")
    ensures HasEmptyName(deps) <==> HasEmptyName(deps[1..])
  {
    if HasEmptyName(deps) {
      var i :| 0 <= i < |deps| && deps[i].name == Some("");
      assert deps[1..][i - 1] == deps[i];
    }
    if HasEmptyName(deps[1..]) {
      var i :| 0 <= i < |deps[1..]| && deps[1..][i].name == Some("");
      assert deps[i + 1] == deps[1..][i];
    }
  }

  /**
   * `load_one` panics exactly when some declared dependency has an empty
   * name, and never changes which ecosystems the dependency table has.
   */
  lemma LoadOneFailsIff(t: Tables, rule: Rule)
    ensures LoadOne(t, rule).1.Fail? <==> HasEmptyName(DeclaredDependencies(rule))
    ensures LoadOne(t, rule).1.Fail? ==> LoadOne(t, rule).1.error == EmptyNameMessage(rule)
    ensures LoadOne(t, rule).0.dependencies.Keys == t.dependencies.Keys
  {
    LoadDependenciesEffect(t, rule, DeclaredDependencies(rule));
    LoadDependenciesFailure(t, rule, DeclaredDependencies(rule));
  }

  lemma {:induction false} LoadDependenciesFailure(t: Tables, rule: Rule, deps: seq<RuleDependency>)
    ensures LoadDependencies(t, rule, deps).1.Fail? ==>
      LoadDependencies(t, rule, deps).1.error == EmptyNameMessage(rule)
    decreases |deps|
  {
    if deps != [] && deps[0].name != Some("") {
      LoadDependenciesFailure(LoadDependency(t, rule, deps[0]), rule, deps[1..]);
    }
  }

  /**
   * A successful `load_one` appends: each ecosystem's matchers, all carrying
   * the rule's key, the file matcher exactly when the rule's files are a
   * list or a pattern, the extension matcher exactly when it declares
   * extensions, and the rule's detectors; the raw list gains one entry per
   * named dependency, then the file entry, then the extension entry.
   */
  lemma LoadOneAppends(t: Tables, rule: Rule)
    requires !HasEmptyName(DeclaredDependencies(rule))
    ensures var t1 := LoadOne(t, rule).0;
      && t1.dependencies.Keys == t.dependencies.Keys
      && (forall k :: k in t.dependencies ==>
            t1.dependencies[k] == t.dependencies[k] + MatchersFor(DeclaredDependencies(rule), k, rule.tech))
      && t1.techs == t.techs + (if FileMatcherOf(rule).Some? then [FileMatcherOf(rule).value] else [])
      && t1.extensions == t.extensions
           + (if rule.extensions.Some? then [ExtensionMatcher(rule.tech, SetOf(rule.extensions.value))] else [])
      && t1.components == t.components + rule.detect.GetOr([])
      && t1.rawList == t.rawList + EntriesFor(DeclaredDependencies(rule))
           + (if FileMatcherOf(rule).Some? then [FileEntry(rule)] else [])
           + (if rule.extensions.Some? then [ExtensionEntry(rule)] else [])
  {
    LoadDependenciesEffect(t, rule, DeclaredDependencies(rule));
  }

  /** The pattern requires the whole package name to equal some non-empty name. */
  ghost predicate WholeName(p: Regex) {
    exists n :: n != "" && p == Regex("^" + n + "$")
  }

  /** Every matcher credits one of `techs` and matches a whole non-empty name. */
  ghost predicate MatchersOk(ms: seq<DependencyMatcher>, techs: set<string>) {
    forall i :: 0 <= i < |ms| ==> ms[i].tech in techs && WholeName(ms[i].pattern)
  }

  lemma MatchersOkAppend(a: seq<DependencyMatcher>, b: seq<DependencyMatcher>, techs: set<string>)
    requires MatchersOk(a, techs) && MatchersOk(b, techs)
    ensures MatchersOk(a + b, techs)
  {
    forall i | 0 <= i < |a + b| ensures (a + b)[i].tech in techs && WholeName((a + b)[i].pattern) {
      if i >= |a| {
        assert (a + b)[i] == b[i - |a|];
      }
    }
  }

  /** Every matcher `MatchersFor` produces carries the rule's key and a whole-name pattern of a non-empty name. */
  lemma {:induction false} MatchersForShape(deps: seq<RuleDependency>, eco: string, tech: string)
    requires !HasEmptyName(deps)
    ensures MatchersOk(MatchersFor(deps, eco, tech), {tech})
    decreases |deps|
  {
    if deps != [] {
      assert deps[0].name != Some("");
      forall i | 0 <= i < |deps| - 1 ensures deps[1..][i].name != Some("") {
        assert deps[1..][i] == deps[i + 1];
      }
      MatchersForShape(deps[1..], eco, tech);
      var rest := MatchersFor(deps[1..], eco, tech);
      if deps[0].name.Some? && deps[0].depType == eco {
        var n := deps[0].name.value;
        assert WholeName(NameMatcher(n, tech).pattern);
        MatchersOkAppend([NameMatcher(n, tech)], rest, {tech});
      }
    }
  }

  /**
   * The invariant the dependency table keeps while rules are loaded from the
   * initial tables: its ecosystems are the seeded ones, and every matcher
   * compiles a non-empty name and credits one of the loaded rules.
   */
  ghost predicate WellFormed(t: Tables, techs: set<string>) {
    && t.dependencies.Keys == Ecosystems
    && forall k :: k in t.dependencies ==> MatchersOk(t.dependencies[k], techs)
  }

  /** The initial tables are well formed before any rule is loaded. */
  lemma InitialWellFormed()
    ensures WellFormed(InitialTables(), {})
  {
  }

  /** `load_all_rules` keeps the table well formed and panics exactly when some rule has an empty dependency name. */
  lemma {:induction false} LoadAllKeepsWellFormed(t: Tables, techs: set<string>, rules: seq<Rule>)
    requires WellFormed(t, techs)
    ensures WellFormed(LoadAll(t, rules).0, techs + TechsOf(rules))
    ensures LoadAll(t, rules).1.Fail? <==>
      exists i :: 0 <= i < |rules| && HasEmptyName(DeclaredDependencies(rules[i]))
    decreases |rules|
  {
    if rules != [] {
      var rule := rules[0];
      var rest := rules[1..];
      var all := techs + TechsOf(rules);
      assert TechsOf(rules) == {rule.tech} + TechsOf(rest) by {
        assert rules == [rule] + rest;
      }
      var (t1, out) := LoadOne(t, rule);
      LoadOneFailsIff(t, rule);
      if out.Fail? {
        LoadDependenciesKeepsWellFormed(t, techs, rule, DeclaredDependencies(rule));
        WellFormedWeaken(t1, techs + {rule.tech}, all);
      } else {
        LoadOneKeepsWellFormed(t, techs, rule);
        LoadAllKeepsWellFormed(t1, techs + {rule.tech}, rest);
        assert techs + {rule.tech} + TechsOf(rest) == all;
        EmptyNameInTail(rules);
      }
    }
  }

  lemma EmptyNameInTail(rules: seq<Rule>)
    requires rules != [] && !HasEmptyName(DeclaredDependencies(rules[0]))
    ensures (exists i :: 0 <= i < |rules| && HasEmptyName(DeclaredDependencies(rules[i])))
        <==> (exists i :: 0 <= i < |rules| - 1 && HasEmptyName(DeclaredDependencies(rules[1..][i])))
  {
    if exists i :: 0 <= i < |rules| && HasEmptyName(DeclaredDependencies(rules[i])) {
      var i :| 0 <= i < |rules| && HasEmptyName(DeclaredDependencies(rules[i]));
      assert rules[1..][i - 1] == rules[i];
    }
    if exists i :: 0 <= i < |rules| - 1 && HasEmptyName(DeclaredDependencies(rules[1..][i])) {
      var i :| 0 <= i < |rules| - 1 && HasEmptyName(DeclaredDependencies(rules[1..][i]));
      assert rules[i + 1] == rules[1..][i];
    }
  }

  lemma WellFormedWeaken(t: Tables, techs: set<string>, more: set<string>)
    requires WellFormed(t, techs) && techs <= more
    ensures WellFormed(t, more)
  {
  }

  lemma LoadOneKeepsWellFormed(t: Tables, techs: set<string>, rule: Rule)
    requires WellFormed(t, techs)
    requires !HasEmptyName(DeclaredDependencies(rule))
    ensures WellFormed(LoadOne(t, rule).0, techs + {rule.tech})
  {
    var deps := DeclaredDependencies(rule);
    var t1 := LoadOne(t, rule).0;
    LoadOneAppends(t, rule);
    LoadOneFailsIff(t, rule);
    forall k | k in t1.dependencies
      ensures MatchersOk(t1.dependencies[k], techs + {rule.tech})
    {
      MatchersForShape(deps, k, rule.tech);
      MatchersOkAppend(t.dependencies[k], MatchersFor(deps, k, rule.tech), techs + {rule.tech});
    }
  }

  /** The matchers pushed before a panic are well formed too. */
  lemma {:induction false} LoadDependenciesKeepsWellFormed(t: Tables, techs: set<string>, rule: Rule, deps: seq<RuleDependency>)
    requires WellFormed(t, techs)
    ensures WellFormed(LoadDependencies(t, rule, deps).0, techs + {rule.tech})
    decreases |deps|
  {
    if deps == [] || deps[0].name == Some("") {
      WellFormedWeaken(t, techs, techs + {rule.tech});
    } else {
      var t0 := LoadDependency(t, rule, deps[0]);
      assert WellFormed(t0, techs + {rule.tech}) by {
        forall k | k in t0.dependencies
          ensures MatchersOk(t0.dependencies[k], techs + {rule.tech})
        {
          if deps[0].name.Some? && k == deps[0].depType {
            var n := deps[0].name.value;
            assert WholeName(NameMatcher(n, rule.tech).pattern);
            MatchersOkAppend(t.dependencies[k], [NameMatcher(n, rule.tech)], techs + {rule.tech});
          }
        }
      }
      LoadDependenciesKeepsWellFormed(t0, techs + {rule.tech}, rule, deps[1..]);
      assert techs + {rule.tech} + {rule.tech} == techs + {rule.tech};
    }
  }

  /**
   * The loader's fixture: a rule keyed "python" declaring the python package
   * "django" gives the python ecosystem exactly one matcher, for the whole
   * name "django", crediting "python".
   */
  lemma PythonFixture()
    ensures var rule := DefaultRule().(name := "test-rule", tech := "python", ruleType := "language",
                                       dependencies := Some([RuleDependency("python", Some("django"), None)]));
      var (t, out) := LoadOne(InitialTables(), rule);
      && out == Pass
      && "python" in t.dependencies
      && t.dependencies["python"] == [DependencyMatcher(Regex("^django$"), "python")]
      && |t.rawList| == 1
  {
    var rule := DefaultRule().(name := "test-rule", tech := "python", ruleType := "language",
                               dependencies := Some([RuleDependency("python", Some("django"), None)]));
    var deps := DeclaredDependencies(rule);
    assert deps[1..] == [];
    assert !HasEmptyName(deps);
    LoadOneFailsIff(InitialTables(), rule);
    LoadOneAppends(InitialTables(), rule);
    assert MatchersFor(deps, "python", "python") == [NameMatcher("django", "python")];
    assert "^" + "django" + "$" == "^django$";
    assert |EntriesFor(deps)| == 1;
  }

  /**
   * The second fixture: one rule with a python dependency and one with a
   * file list give one python matcher, one file matcher and two raw entries.
   */
  lemma LoadAllFixture()
    ensures var r1 := DefaultRule().(name := "Test Rule 1", tech := "tech1", ruleType := "language",
                                     dependencies := Some([RuleDependency("python", Some("dep1"), None)]));
      var r2 := DefaultRule().(name := "Test Rule 2", tech := "tech2", ruleType := "language",
                               files := Some(FilesArray(["test.file"])));
      var (t, out) := LoadAll(InitialTables(), [r1, r2]);
      && out == Pass
      && "python" in t.dependencies
      && t.dependencies["python"] == [DependencyMatcher(Regex("^dep1$"), "tech1")]
      && |t.techs| == 1 && |t.rawList| == 2
  {
    var r1 := DefaultRule().(name := "Test Rule 1", tech := "tech1", ruleType := "language",
                             dependencies := Some([RuleDependency("python", Some("dep1"), None)]));
    var r2 := DefaultRule().(name := "Test Rule 2", tech := "tech2", ruleType := "language",
                             files := Some(FilesArray(["test.file"])));
    var t0 := InitialTables();
    var deps1 := DeclaredDependencies(r1);
    assert deps1[1..] == [];
    assert !HasEmptyName(deps1);
    LoadOneFailsIff(t0, r1);
    LoadOneAppends(t0, r1);
    assert MatchersFor(deps1, "python", "tech1") == [NameMatcher("dep1", "tech1")];
    assert "^" + "dep1" + "$" == "^dep1$";
    assert |EntriesFor(deps1)| == 1;
    var t1 := LoadOne(t0, r1).0;
    assert !HasEmptyName(DeclaredDependencies(r2));
    LoadOneFailsIff(t1, r2);
    LoadOneAppends(t1, r2);
    assert MatchersFor([], "python", "tech2") == [];
    assert [r1, r2][1..] == [r2];
    assert [r2][1..] == [];
    assert LoadAll(t0, [r1, r2]) == LoadAll(t1, [r2]);
    assert LoadAll(t1, [r2]) == LoadAll(LoadOne(t1, r2).0, []);
  }
}

/** The process-wide matcher tables of `loader.rs`, updated in place by `load_one`. */
module Loading {
  import opened Wrappers
  import opened Types
  import opened Loader

  class RuleTables {
    var dependencies: map<string, seq<DependencyMatcher>>
    var techs: seq<TechMatcher>
    var extensions: seq<ExtensionMatcher>
    var components: seq<Detector>
    var rawList: seq<RuleEntry>

    /** The tables as one value. */
    function Snapshot(): Tables
      reads this
    {
      Tables(dependencies, techs, extensions, components, rawList)
    }

    /** The tables as the program starts: the ecosystems seeded, nothing loaded. */
    constructor ()
      ensures Snapshot() == InitialTables()
    {
      dependencies := InitialTables().dependencies;
      techs := [];
      extensions := [];
      components := [];
      rawList := [];
    }

    /**
     * `load_one`: pushes the rule's dependency matchers, file matcher,
     * extension matcher and detectors; a dependency with an empty name stops
     * it (the panic), leaving what was pushed before.
     */
    method LoadOne(rule: Rule) returns (r: Outcome<string>)
      modifies this
      ensures (Snapshot(), r) == Loader.LoadOne(old(Snapshot()), rule)
    {
      ghost var t0 := Snapshot();
      if rule.dependencies.Some? {
        var deps := rule.dependencies.value;
        for i := 0 to |deps|
          invariant LoadDependencies(t0, rule, deps) == LoadDependencies(Snapshot(), rule, deps[i..])
        {
          var dep := deps[i];
          assert deps[i..][0] == dep && deps[i..][1..] == deps[i + 1..];
          if dep.name.Some? {
            var name := dep.name.value;
            if name == "" {
              return Fail(EmptyNameMessage(rule));
            }
            if dep.depType in dependencies {
              dependencies := dependencies[dep.depType := dependencies[dep.depType] + [NameMatcher(name, rule.tech)]];
            }
            rawList := rawList + [DependencyEntry(dep)];
          }
        }
        assert deps[|deps|..] == [];
      }
      match rule.files {
        case Some(FilesArray(files)) =>
          techs := techs + [FileListMatcher(rule.tech, files)];
          rawList := rawList + [FileEntry(rule)];
        case Some(FilesRegex(pattern, _)) =>
          techs := techs + [FileRegexMatcher(rule.tech, pattern)];
          rawList := rawList + [FileEntry(rule)];
        case _ =>
      }
      if rule.extensions.Some? {
        extensions := extensions + [ExtensionMatcher(rule.tech, SetOf(rule.extensions.value))];
        rawList := rawList + [ExtensionEntry(rule)];
      }
      if rule.detect.Some? {
        components := components + rule.detect.value;
      }
      return Pass;
    }

    /** `load_all_rules`: loads the rules in order; a panic stops the loading. */
    method LoadAllRules(rules: seq<Rule>) returns (r: Outcome<string>)
      modifies this
      ensures (Snapshot(), r) == LoadAll(old(Snapshot()), rules)
    {
      for i := 0 to |rules|
        invariant LoadAll(old(Snapshot()), rules) == LoadAll(Snapshot(), rules[i..])
      {
        assert rules[i..][0] == rules[i] && rules[i..][1..] == rules[i + 1..];
        r := LoadOne(rules[i]);
        if r.Fail? {
          return;
        }
      }
      assert rules[|rules|..] == [];
      return Pass;
    }
  }
}

=== FILE: match_all_files.dfy ===
/**
 * `match_all_files`: the technologies a directory listing gives evidence
 * of. Every file matcher is asked in turn (a later hit for the same
 * technology replaces an earlier one), then every extension matcher is
 * asked about the set of extensions of the listing, and an extension hit
 * never replaces what is already recorded. The matcher tables are the
 * ones `load_one` builds.
 */
module MatchAllFiles {
  import opened Wrappers
  import opened Types
  import opened Strings
  import opened Loader
  import opened MatchFiles

  /** What a file matcher answers about a listing: bare names are tested, never full paths. */
  function TechMatch(index: map<string, Rule>, m: TechMatcher, files: seq<ProviderFile>, engine: RegexEngine)
    : Option<(Rule, string)>
  {
    match m
    case FileListMatcher(key, names) => MatchFiles.MatchFiles(index, key, files, names, false)
    case FileRegexMatcher(key, pattern) => MatchFilesRegex(index, key, files, pattern, false, engine)
  }

  function FileReason(name: string, basePath: string): string {
    "matched file: " + DeleteAll(name, basePath)
  }

  function ExtensionReason(ext: string): string {
    "matched extension: " + ext
  }

  /** The answers of the file matchers, in table order. */
  function FileAnswers(index: map<string, Rule>, techs: seq<TechMatcher>, files: seq<ProviderFile>,
                       engine: RegexEngine): (r: seq<Option<(Rule, string)>>)
    ensures |r| == |techs|
    ensures forall i :: 0 <= i < |techs| ==> r[i] == TechMatch(index, techs[i], files, engine)
    decreases |techs|
  {
    if techs == [] then []
    else [TechMatch(index, techs[0], files, engine)] + FileAnswers(index, techs[1..], files, engine)
  }

  /** Is the `j`-th answer a hit for technology `t`? */
  predicate FileHit(answers: seq<Option<(Rule, string)>>, j: nat, t: string)
    requires j < |answers|
  {
    answers[j].Some? && answers[j].value.0.tech == t
  }

  /** The evidence the first `n` file answers record, each hit replacing what its technology had. */
  function FileMatches(answers: seq<Option<(Rule, string)>>, n: nat, basePath: string): map<string, seq<string>>
    requires n <= |answers|
  {
    if n == 0 then map[]
    else
      var before := FileMatches(answers, n - 1, basePath);
      match answers[n - 1]
      case Some((rule, name)) => before[rule.tech := [FileReason(name, basePath)]]
      case None => before
  }

  /** The extensions of a listing; a name without one contributes the empty string. */
  function ExtensionsOf(files: seq<ProviderFile>): set<string> {
    set f | f in files :: Extension(f.name).GetOr("")
  }

  /** Does extension matcher `m` hit the extension set `list`, for technology `t`? */
  predicate ExtensionHit(index: map<string, Rule>, m: ExtensionMatcher, list: set<string>, t: string) {
    m.key in index && index[m.key].tech == t && list * m.extensions != {}
  }

  /** The technologies the first `n` extension matchers give evidence of. */
  function ExtensionHits(index: map<string, Rule>, exts: seq<ExtensionMatcher>, n: nat, list: set<string>)
    : (r: set<string>)
    requires n <= |exts|
    ensures forall t :: t in r <==> exists j :: 0 <= j < n && ExtensionHit(index, exts[j], list, t)
  {
    if n == 0 then {}
    else
      var before := ExtensionHits(index, exts, n - 1, list);
      var m := exts[n - 1];
      if m.key in index && list * m.extensions != {} then before + {index[m.key].tech} else before
  }

  /**
   * The evidence recorded for `t` comes from the first of the first `n`
   * extension matchers that hits for `t`, and names an extension both of
   * the listing and of that matcher.
   */
  ghost predicate FirstExtensionReason(index: map<string, Rule>, exts: seq<ExtensionMatcher>, n: nat,
                                       list: set<string>, t: string, reason: seq<string>)
    requires n <= |exts|
  {
    exists j :: 0 <= j < n && ExtensionHit(index, exts[j], list, t)
      && (forall k :: 0 <= k < j ==> !ExtensionHit(index, exts[k], list, t))
      && exists e :: e in list && e in exts[j].extensions && reason == [ExtensionReason(e)]
  }

  /** The file phase: every file matcher asked in order, a hit replacing its technology's evidence. */
  method FileEvidence(index: map<string, Rule>, techs: seq<TechMatcher>, files: seq<ProviderFile>,
                      basePath: string, engine: RegexEngine)
    returns (matched: map<string, seq<string>>)
    ensures matched == FileMatches(FileAnswers(index, techs, files, engine), |techs|, basePath)
  {
    ghost var answers := FileAnswers(index, techs, files, engine);
    matched := map[];
    for i := 0 to |techs|
      invariant matched == FileMatches(answers, i, basePath)
    {
      var res := TechMatch(index, techs[i], files, engine);
      assert res == answers[i];
      FileMatchesStep(answers, i, basePath);
      if res.Some? {
        matched := matched[res.value.0.tech := [FileReason(res.value.1, basePath)]];
      }
    }
  }

  lemma FileMatchesStep(answers: seq<Option<(Rule, string)>>, i: nat, basePath: string)
    requires i < |answers|
    ensures FileMatches(answers, i + 1, basePath)
      == if answers[i].Some? then FileMatches(answers, i, basePath)[answers[i].value.0.tech :=
                                    [FileReason(answers[i].value.1, basePath)]]
         else FileMatches(answers, i, basePath)
  {
  }

  /** The extension set of the listing, built file by file. */
  method ListingExtensions(files: seq<ProviderFile>) returns (list: set<string>)
    ensures list == ExtensionsOf(files)
  {
    list := {};
    for i := 0 to |files|
      invariant list == ExtensionsOf(files[..i])
    {
      assert files[..i + 1] == files[..i] + [files[i]];
      list := list + {Extension(files[i].name).GetOr("")};
    }
    assert files[..|files|] == files;
  }

  /**
   * After the first `j` extension matchers: the technologies with file
   * evidence keep it, and every other recorded technology holds the
   * evidence of the first matcher that hit for it.
   */
  ghost predicate ExtensionPhase(index: map<string, Rule>, exts: seq<ExtensionMatcher>, j: nat, list: set<string>,
                                 byFile: map<string, seq<string>>, matched: map<string, seq<string>>)
  {
    && j <= |exts|
    && matched.Keys == byFile.Keys + ExtensionHits(index, exts, j, list)
    && (forall t :: t in byFile ==> matched[t] == byFile[t])
    && (forall t :: t in matched && t !in byFile ==> FirstExtensionReason(index, exts, j, list, t, matched[t]))
  }

  /** An extension of the enumerated set `list` is in `extensions` exactly when the two sets meet. */
  lemma SharedExtension(order: seq<string>, list: set<string>, extensions: set<string>)
    requires SetOf(order) == list
    ensures (exists i :: 0 <= i < |order| && order[i] in extensions) <==> list * extensions != {}
  {
    if list * extensions != {} {
      var e :| e in list * extensions;
      assert e in SetOf(order);
    }
    if exists i :: 0 <= i < |order| && order[i] in extensions {
      var i :| 0 <= i < |order| && order[i] in extensions;
      assert order[i] in SetOf(order);
      assert order[i] in list * extensions;
    }
  }

  /** Asking matcher `j` records nothing when it misses or its technology has evidence already. */
  lemma ExtensionPhaseSkip(index: map<string, Rule>, exts: seq<ExtensionMatcher>, j: nat, list: set<string>,
                           byFile: map<string, seq<string>>, matched: map<string, seq<string>>)
    requires ExtensionPhase(index, exts, j, list, byFile, matched) && j < |exts|
    requires exts[j].key in index && list * exts[j].extensions != {} ==> index[exts[j].key].tech in matched
    ensures ExtensionPhase(index, exts, j + 1, list, byFile, matched)
  {
    FirstReasonsExtend(index, exts, j, list, byFile, matched);
  }

  /** A first hit for technology `t` records the extension `e` the matcher found. */
  lemma ExtensionPhaseRecord(index: map<string, Rule>, exts: seq<ExtensionMatcher>, j: nat, list: set<string>,
                             byFile: map<string, seq<string>>, matched: map<string, seq<string>>, e: string)
    requires ExtensionPhase(index, exts, j, list, byFile, matched) && j < |exts|
    requires exts[j].key in index && e in list && e in exts[j].extensions
    requires index[exts[j].key].tech !in matched
    ensures ExtensionPhase(index, exts, j + 1, list, byFile,
                           matched[index[exts[j].key].tech := [ExtensionReason(e)]])
  {
    var t := index[exts[j].key].tech;
    var m2 := matched[t := [ExtensionReason(e)]];
    FirstHitReason(index, exts, j, list, t, e);
    assert t !in byFile;
    RecordReasons(index, exts, j, list, byFile, matched, t, e);
  }

  /** Recording the first hit for `t` keeps every other first evidence, now among `j + 1` matchers. */
  lemma RecordReasons(index: map<string, Rule>, exts: seq<ExtensionMatcher>, j: nat, list: set<string>,
                      byFile: map<string, seq<string>>, matched: map<string, seq<string>>, t: string, e: string)
    requires j < |exts|
    requires forall u :: u in matched && u !in byFile ==> FirstExtensionReason(index, exts, j, list, u, matched[u])
    requires FirstExtensionReason(index, exts, j + 1, list, t, [ExtensionReason(e)])
    ensures forall u :: u in matched[t := [ExtensionReason(e)]] && u !in byFile ==>
      FirstExtensionReason(index, exts, j + 1, list, u, matched[t := [ExtensionReason(e)]][u])
  {
    FirstReasonsExtend(index, exts, j, list, byFile, matched);
  }

  /** Matcher `j` hitting for a technology no earlier matcher hit for gives its first evidence. */
  lemma FirstHitReason(index: map<string, Rule>, exts: seq<ExtensionMatcher>, j: nat, list: set<string>,
                       t: string, e: string)
    requires j < |exts| && exts[j].key in index && index[exts[j].key].tech == t
    requires e in list && e in exts[j].extensions
    requires t !in ExtensionHits(index, exts, j, list)
    ensures ExtensionHits(index, exts, j + 1, list) == ExtensionHits(index, exts, j, list) + {t}
    ensures FirstExtensionReason(index, exts, j + 1, list, t, [ExtensionReason(e)])
  {
    assert e in list * exts[j].extensions;
    assert ExtensionHit(index, exts[j], list, t);
  }

  /** The first evidence among `j` matchers stays the first among `j + 1`. */
  lemma FirstReasonsExtend(index: map<string, Rule>, exts: seq<ExtensionMatcher>, j: nat, list: set<string>,
                           byFile: map<string, seq<string>>, matched: map<string, seq<string>>)
    requires j < |exts|
    requires forall t :: t in matched && t !in byFile ==> FirstExtensionReason(index, exts, j, list, t, matched[t])
    ensures forall t :: t in matched && t !in byFile ==> FirstExtensionReason(index, exts, j + 1, list, t, matched[t])
  {
    forall t | t in matched && t !in byFile
      ensures FirstExtensionReason(index, exts, j + 1, list, t, matched[t])
    {
      assert FirstExtensionReason(index, exts, j, list, t, matched[t]);
    }
  }

  /**
   * The extension phase: every extension matcher asked in order; a hit for
   * a technology that already has evidence is skipped.
   */
  method ExtensionEvidence(index: map<string, Rule>, exts: seq<ExtensionMatcher>, list: set<string>,
                           byFile: map<string, seq<string>>)
    returns (matched: map<string, seq<string>>)
    ensures ExtensionPhase(index, exts, |exts|, list, byFile, matched)
  {
    matched := byFile;
    var order := Enumerate(list);
    for j := 0 to |exts|
      invariant ExtensionPhase(index, exts, j, list, byFile, matched)
    {
      var res := MatchExtensions(index, exts[j].key, order, exts[j].extensions);
      SharedExtension(order, list, exts[j].extensions);
      if res.Some? {
        if res.value.0.tech in matched {
          ExtensionPhaseSkip(index, exts, j, list, byFile, matched);
          continue;
        }
        ExtensionPhaseRecord(index, exts, j, list, byFile, matched, res.value.1);
        matched := matched[res.value.0.tech := [ExtensionReason(res.value.1)]];
      } else {
        ExtensionPhaseSkip(index, exts, j, list, byFile, matched);
      }
    }
  }

  /**
   * `match_all_files`: file evidence for every technology some file matcher
   * hits, then extension evidence for the technologies that have none yet.
   */
  method MatchAllFiles(index: map<string, Rule>, techs: seq<TechMatcher>, exts: seq<ExtensionMatcher>,
                       files: seq<ProviderFile>, basePath: string, engine: RegexEngine)
    returns (matched: map<string, seq<string>>)
    ensures var byFile := FileMatches(FileAnswers(index, techs, files, engine), |techs|, basePath);
      && matched.Keys == byFile.Keys + ExtensionHits(index, exts, |exts|, ExtensionsOf(files))
      && (forall t :: t in byFile ==> matched[t] == byFile[t])
      && (forall t :: t in matched && t !in byFile ==>
            FirstExtensionReason(index, exts, |exts|, ExtensionsOf(files), t, matched[t]))
  {
    var byFile := FileEvidence(index, techs, files, basePath, engine);
    var list := ListingExtensions(files);
    matched := ExtensionEvidence(index, exts, list, byFile);
  }

  /** A technology has file evidence exactly when some file matcher hits for it. */
  lemma {:induction false} FileMatchesKeys(answers: seq<Option<(Rule, string)>>, n: nat, basePath: string, t: string)
    requires n <= |answers|
    ensures t in FileMatches(answers, n, basePath) <==> exists j :: 0 <= j < n && FileHit(answers, j, t)
  {
    if n > 0 {
      FileMatchesKeys(answers, n - 1, basePath, t);
      if !FileHit(answers, n - 1, t) {
        assert t in FileMatches(answers, n, basePath) <==> t in FileMatches(answers, n - 1, basePath);
      }
    }
  }

  /** The file evidence of a technology names the file the LAST matcher hitting for it found. */
  lemma {:induction false} FileMatchesLastWins(answers: seq<Option<(Rule, string)>>, n: nat, basePath: string,
                                               t: string)
    requires n <= |answers|
    requires t in FileMatches(answers, n, basePath)
    ensures exists j ::
      && 0 <= j < n && FileHit(answers, j, t)
      && (forall k :: j < k < n ==> !FileHit(answers, k, t))
      && FileMatches(answers, n, basePath)[t] == [FileReason(answers[j].value.1, basePath)]
  {
    var before := FileMatches(answers, n - 1, basePath);
    if !FileHit(answers, n - 1, t) {
      assert FileMatches(answers, n, basePath)[t] == before[t];
      FileMatchesLastWins(answers, n - 1, basePath, t);
      var j :| 0 <= j < n - 1 && FileHit(answers, j, t)
        && (forall k :: j < k < n - 1 ==> !FileHit(answers, k, t))
        && before[t] == [FileReason(answers[j].value.1, basePath)];
      assert forall k :: j < k < n ==> !FileHit(answers, k, t);
    }
  }

  /** An empty listing gives evidence of nothing: no file matcher and no extension matcher hits. */
  lemma {:induction false} EmptyListing(index: map<string, Rule>, techs: seq<TechMatcher>, exts: seq<ExtensionMatcher>,
                                        n: nat, basePath: string, engine: RegexEngine)
    requires n <= |techs|
    ensures FileMatches(FileAnswers(index, techs, [], engine), n, basePath) == map[]
    ensures ExtensionHits(index, exts, |exts|, ExtensionsOf([])) == {}
  {
    if n > 0 {
      EmptyListing(index, techs, exts, n - 1, basePath, engine);
      assert FileAnswers(index, techs, [], engine)[n - 1] == TechMatch(index, techs[n - 1], [], engine);
    }
  }
}

=== FILE: match_dependencies.dfy ===
/**
 * `match_dependencies`: which technologies the package names of one
 * ecosystem give evidence of, with one reason per matching
 * (package, matcher) pair.
 */
module MatchDependencies {
  import opened Wrappers
  import opened Types
  import opened Loader

  /** `n` copies of `s`. */
  function Repeat(s: string, n: nat): (r: seq<string>)
    ensures |r| == n
    ensures forall i :: 0 <= i < n ==> r[i] == s
  {
    if n == 0 then [] else Repeat(s, n - 1) + [s]
  }

  /** How many of the matchers credit `tech` and match the package name `pkg`. */
  function MatcherHits(pkg: string, matchers: seq<DependencyMatcher>, tech: string, engine: RegexEngine): nat
    decreases |matchers|
  {
    if matchers == [] then 0
    else
      var last := matchers[|matchers| - 1];
      MatcherHits(pkg, matchers[..|matchers| - 1], tech, engine)
        + (if last.tech == tech && engine(last.pattern.source, pkg) then 1 else 0)
  }

  /** How many (package, matcher) pairs credit `tech` with a match. */
  function PairHits(pkgs: seq<string>, matchers: seq<DependencyMatcher>, tech: string, engine: RegexEngine): nat
    decreases |pkgs|
  {
    if pkgs == [] then 0
    else PairHits(pkgs[..|pkgs| - 1], matchers, tech, engine) + MatcherHits(pkgs[|pkgs| - 1], matchers, tech, engine)
  }

  /** The reason pushed for each matching pair. */
  function Reason(tech: string): string {
    "matched: " + tech
  }

  /**
   * `matched` holds, for every technology, one reason per matching pair
   * among the packages `done` against all matchers, and the package `pkg`
   * against the matchers `prefix`.
   */
  ghost predicate Records(matched: map<string, seq<string>>, done: seq<string>, pkg: string,
                          prefix: seq<DependencyMatcher>, matchers: seq<DependencyMatcher>, engine: RegexEngine)
  {
    forall t ::
      && (t in matched <==> PairHits(done, matchers, t, engine) + MatcherHits(pkg, prefix, t, engine) > 0)
      && (t in matched ==>
            matched[t] == Repeat(Reason(t), PairHits(done, matchers, t, engine) + MatcherHits(pkg, prefix, t, engine)))
  }

  /** The body of the inner loop: one more reason for the matcher's technology if it matches the package. */
  function Push(matched: map<string, seq<string>>, m: DependencyMatcher, pkg: string, engine: RegexEngine)
    : map<string, seq<string>>
  {
    if engine(m.pattern.source, pkg)
    then matched[m.tech := (if m.tech in matched then matched[m.tech] else []) + [Reason(m.tech)]]
    else matched
  }

  lemma RecordsPush(matched: map<string, seq<string>>, done: seq<string>, pkg: string,
                    prefix: seq<DependencyMatcher>, m: DependencyMatcher, matchers: seq<DependencyMatcher>,
                    engine: RegexEngine)
    requires Records(matched, done, pkg, prefix, matchers, engine)
    ensures Records(Push(matched, m, pkg, engine), done, pkg, prefix + [m], matchers, engine)
  {
    assert (prefix + [m])[..|prefix|] == prefix;
  }

  lemma RecordsStartPackage(matched: map<string, seq<string>>, done: seq<string>, pkg: string,
                            matchers: seq<DependencyMatcher>, engine: RegexEngine)
    requires Records(matched, done, "", [], matchers, engine)
    ensures Records(matched, done, pkg, [], matchers, engine)
  {
  }

  lemma RecordsNextPackage(matched: map<string, seq<string>>, pkgs: seq<string>, i: nat,
                           matchers: seq<DependencyMatcher>, engine: RegexEngine)
    requires i < |pkgs|
    requires Records(matched, pkgs[..i], pkgs[i], matchers, matchers, engine)
    ensures Records(matched, pkgs[..i + 1], "", [], matchers, engine)
  {
    assert pkgs[..i + 1][..i] == pkgs[..i];
  }

  /**
   * `match_dependencies`: for an ecosystem the table knows, every
   * technology credited by at least one matching (package, matcher) pair,
   * with one reason per such pair; for an unknown ecosystem, nothing.
   */
  method MatchDependencies(table: map<string, seq<DependencyMatcher>>, pkgs: seq<string>, depType: string,
                           engine: RegexEngine)
    returns (matched: map<string, seq<string>>)
    ensures depType !in table ==> matched == map[]
    ensures depType in table ==> forall t ::
      t in matched <==> PairHits(pkgs, table[depType], t, engine) > 0
    ensures depType in table ==> forall t :: t in matched ==>
      matched[t] == Repeat(Reason(t), PairHits(pkgs, table[depType], t, engine))
  {
    matched := map[];
    if depType in table {
      var matchers := table[depType];
      for i := 0 to |pkgs|
        invariant Records(matched, pkgs[..i], "", [], matchers, engine)
      {
        RecordsStartPackage(matched, pkgs[..i], pkgs[i], matchers, engine);
        for j := 0 to |matchers|
          invariant Records(matched, pkgs[..i], pkgs[i], matchers[..j], matchers, engine)
        {
          var m := matchers[j];
          RecordsPush(matched, pkgs[..i], pkgs[i], matchers[..j], m, matchers, engine);
          assert matchers[..j] + [m] == matchers[..j + 1];
          if engine(m.pattern.source, pkgs[i]) {
            var reasons := if m.tech in matched then matched[m.tech] else [];
            matched := matched[m.tech := reasons + [Reason(m.tech)]];
          }
        }
        assert matchers[..|matchers|] == matchers;
        RecordsNextPackage(matched, pkgs, i, matchers, engine);
      }
      assert pkgs[..|pkgs|] == pkgs;
      assert Records(matched, pkgs, "", [], matchers, engine);
    }
  }

  lemma {:induction false} MatcherHitsPositive(pkg: string, matchers: seq<DependencyMatcher>, tech: string,
                                               engine: RegexEngine)
    ensures MatcherHits(pkg, matchers, tech, engine) > 0 <==>
      exists j :: 0 <= j < |matchers| && matchers[j].tech == tech && engine(matchers[j].pattern.source, pkg)
    decreases |matchers|
  {
    if matchers != [] {
      var init := matchers[..|matchers| - 1];
      MatcherHitsPositive(pkg, init, tech, engine);
      assert forall j :: 0 <= j < |init| ==> init[j] == matchers[j];
    }
  }

  /**
   * A technology is reported exactly when some package matches some matcher
   * crediting it.
   */
  lemma {:induction false} PairHitsPositive(pkgs: seq<string>, matchers: seq<DependencyMatcher>, tech: string,
                                            engine: RegexEngine)
    ensures PairHits(pkgs, matchers, tech, engine) > 0 <==>
      exists i, j :: 0 <= i < |pkgs| && 0 <= j < |matchers|
        && matchers[j].tech == tech && engine(matchers[j].pattern.source, pkgs[i])
    decreases |pkgs|
  {
    if pkgs != [] {
      var init := pkgs[..|pkgs| - 1];
      PairHitsPositive(init, matchers, tech, engine);
      MatcherHitsPositive(pkgs[|pkgs| - 1], matchers, tech, engine);
      assert forall i :: 0 <= i < |init| ==> init[i] == pkgs[i];
    }
  }

  /** Counting over the packages splits over a concatenation. */
  lemma {:induction false} PairHitsAppend(a: seq<string>, b: seq<string>, matchers: seq<DependencyMatcher>,
                                          tech: string, engine: RegexEngine)
    ensures PairHits(a + b, matchers, tech, engine)
         == PairHits(a, matchers, tech, engine) + PairHits(b, matchers, tech, engine)
    decreases |b|
  {
    if b != [] {
      var init := b[..|b| - 1];
      assert (a + b)[..|a + b| - 1] == a + init;
      assert (a + b)[|a + b| - 1] == b[|b| - 1];
      PairHitsAppend(a, init, matchers, tech, engine);
    } else {
      assert a + b == a;
    }
  }

  lemma MultisetRemove(b: seq<string>, k: nat)
    requires k < |b|
    ensures multiset(b[..k] + b[k + 1..]) == multiset(b) - multiset{b[k]}
  {
    assert b == b[..k] + [b[k]] + b[k + 1..];
  }

  /** Taking one package out of the sequence takes its own hits out of the count. */
  lemma PairHitsRemove(b: seq<string>, k: nat, matchers: seq<DependencyMatcher>, tech: string, engine: RegexEngine)
    requires k < |b|
    ensures PairHits(b, matchers, tech, engine)
         == PairHits(b[..k] + b[k + 1..], matchers, tech, engine) + MatcherHits(b[k], matchers, tech, engine)
  {
    assert b == b[..k] + ([b[k]] + b[k + 1..]);
    PairHitsAppend(b[..k], [b[k]] + b[k + 1..], matchers, tech, engine);
    PairHitsAppend([b[k]], b[k + 1..], matchers, tech, engine);
    PairHitsAppend(b[..k], b[k + 1..], matchers, tech, engine);
    assert [b[k]][..0] == [];
  }

  /**
   * The answer does not depend on the order in which the packages are
   * given: the detectors pass the keys of a `HashMap`, whose order is not
   * specified.
   */
  lemma {:induction false} PairHitsPermutation(a: seq<string>, b: seq<string>, matchers: seq<DependencyMatcher>,
                                               tech: string, engine: RegexEngine)
    requires multiset(a) == multiset(b)
    ensures PairHits(a, matchers, tech, engine) == PairHits(b, matchers, tech, engine)
    decreases |a|
  {
    if a == [] {
      assert |b| == |multiset(b)| == 0;
    } else {
      var x := a[|a| - 1];
      var init := a[..|a| - 1];
      assert a == init + [x];
      assert multiset(init) == multiset(a) - multiset{x};
      assert x in multiset(b);
      var k :| 0 <= k < |b| && b[k] == x;
      MultisetRemove(b, k);
      PairHitsRemove(b, k, matchers, tech, engine);
      PairHitsPermutation(init, b[..k] + b[k + 1..], matchers, tech, engine);
    }
  }

  /**
   * The fixture with two matchers `^dep-1$` and `^dep-2$`: when the engine
   * matches each pattern against its own package only, the packages
   * "dep-1", "dep-2" and "dep-3" credit both technologies once.
   */
  lemma TwoMatchersFixture(engine: RegexEngine)
    requires engine("^dep-1$", "dep-1") && engine("^dep-2$", "dep-2")
    requires !engine("^dep-1$", "dep-2") && !engine("^dep-1$", "dep-3")
    requires !engine("^dep-2$", "dep-1") && !engine("^dep-2$", "dep-3")
    ensures var ms := [DependencyMatcher(Regex("^dep-1$"), "tech-1"), DependencyMatcher(Regex("^dep-2$"), "tech-2")];
      var pkgs := ["dep-1", "dep-2", "dep-3"];
      && PairHits(pkgs, ms, "tech-1", engine) == 1
      && PairHits(pkgs, ms, "tech-2", engine) == 1
      && forall t :: t != "tech-1" && t != "tech-2" ==> PairHits(pkgs, ms, t, engine) == 0
  {
    var ms := [DependencyMatcher(Regex("^dep-1$"), "tech-1"), DependencyMatcher(Regex("^dep-2$"), "tech-2")];
    var pkgs := ["dep-1", "dep-2", "dep-3"];
    assert "tech-1" != "tech-2";
    forall t ensures PairHits(pkgs, ms, t, engine)
      == MatcherHits("dep-1", ms, t, engine) + MatcherHits("dep-2", ms, t, engine) + MatcherHits("dep-3", ms, t, engine)
    {
      PairHitsOfThree("dep-1", "dep-2", "dep-3", ms, t, engine);
    }
    forall p, t ensures MatcherHits(p, ms, t, engine) == Hit(ms[0], p, t, engine) + Hit(ms[1], p, t, engine) {
      MatcherHitsOfTwo(p, ms[0], ms[1], t, engine);
    }
  }

  /** One matcher's contribution to the count. */
  function Hit(m: DependencyMatcher, pkg: string, tech: string, engine: RegexEngine): nat {
    if m.tech == tech && engine(m.pattern.source, pkg) then 1 else 0
  }

  lemma MatcherHitsOfTwo(pkg: string, m0: DependencyMatcher, m1: DependencyMatcher, tech: string, engine: RegexEngine)
    ensures MatcherHits(pkg, [m0, m1], tech, engine) == Hit(m0, pkg, tech, engine) + Hit(m1, pkg, tech, engine)
  {
    assert [m0][..0] == [];
    assert MatcherHits(pkg, [m0], tech, engine) == Hit(m0, pkg, tech, engine);
    assert [m0, m1][..1] == [m0];
  }

  lemma PairHitsOfThree(p0: string, p1: string, p2: string, ms: seq<DependencyMatcher>, tech: string,
                        engine: RegexEngine)
    ensures PairHits([p0, p1, p2], ms, tech, engine)
      == MatcherHits(p0, ms, tech, engine) + MatcherHits(p1, ms, tech, engine) + MatcherHits(p2, ms, tech, engine)
  {
    assert [p0][..0] == [];
    assert PairHits([p0], ms, tech, engine) == MatcherHits(p0, ms, tech, engine);
    assert [p0, p1][..1] == [p0];
    assert PairHits([p0, p1], ms, tech, engine) == MatcherHits(p0, ms, tech, engine) + MatcherHits(p1, ms, tech, engine);
    assert [p0, p1, p2][..2] == [p0, p1];
  }
}

=== FILE: match_files.dfy ===
/**
 * The three searches `match_files.rs` offers the file and extension
 * matchers: the first file whose name is listed, the first file whose name
 * matches a pattern, and some extension shared by two sets. Each answers
 * with the indexed rule of its key, or nothing when the key is not indexed.
 */
module MatchFiles {
  import opened Wrappers
  import opened Types

  /** The name a file is tested by: its full path or its bare name. */
  function Candidate(file: ProviderFile, matchFullPath: bool): string {
    if matchFullPath then file.fp else file.name
  }

  /** What a file matcher asks of a name: to be one of a list, or to match a pattern. */
  datatype NameTest = Listed(names: seq<string>) | Matching(pattern: Regex, engine: RegexEngine)

  predicate Passes(test: NameTest, name: string) {
    match test
    case Listed(names) => name in names
    case Matching(pattern, engine) => engine(pattern.source, name)
  }

  /** The tested name of the first file, in listing order, that passes the test. */
  function FirstPassing(files: seq<ProviderFile>, matchFullPath: bool, test: NameTest): (r: Option<string>)
    ensures r.None? <==> forall i :: 0 <= i < |files| ==> !Passes(test, Candidate(files[i], matchFullPath))
    ensures r.Some? ==>
      exists i ::
        && 0 <= i < |files|
        && r.value == Candidate(files[i], matchFullPath)
        && Passes(test, r.value)
        && forall j :: 0 <= j < i ==> !Passes(test, Candidate(files[j], matchFullPath))
    decreases |files|
  {
    if files == [] then None
    else if Passes(test, Candidate(files[0], matchFullPath)) then Some(Candidate(files[0], matchFullPath))
    else
      var r := FirstPassing(files[1..], matchFullPath, test);
      assert forall i :: 1 <= i < |files| ==> files[i] == files[1..][i - 1];
      r
  }

  /** The answer of a search that found `found`: the rule indexed under `key` with it, if both exist. */
  function Answer(index: map<string, Rule>, key: string, found: Option<string>): (r: Option<(Rule, string)>)
    ensures r.Some? <==> key in index && found.Some?
    ensures r.Some? ==> r.value == (index[key], found.value)
  {
    if found.Some? && key in index then Some((index[key], found.value)) else None
  }

  /**
   * `match_files`: the rule indexed under `key`, with the first tested name
   * (bare name, or full path when `matchFullPath`) that `matches` lists;
   * nothing when no name is listed or the key is not indexed.
   */
  function MatchFiles(index: map<string, Rule>, key: string, files: seq<ProviderFile>, matches: seq<string>,
                      matchFullPath: bool): (r: Option<(Rule, string)>)
    ensures r.Some? <==>
      key in index && exists i :: 0 <= i < |files| && Candidate(files[i], matchFullPath) in matches
    ensures r.Some? ==>
      && r.value.0 == index[key]
      && exists i ::
        && 0 <= i < |files|
        && r.value.1 == Candidate(files[i], matchFullPath)
        && r.value.1 in matches
        && forall j :: 0 <= j < i ==> Candidate(files[j], matchFullPath) !in matches
  {
    var found := FirstPassing(files, matchFullPath, Listed(matches));
    Answer(index, key, found)
  }

  /** `match_files_regex`: as `match_files`, with names tested against `pattern`. */
  function MatchFilesRegex(index: map<string, Rule>, key: string, files: seq<ProviderFile>, pattern: Regex,
                           matchFullPath: bool, engine: RegexEngine): (r: Option<(Rule, string)>)
    ensures r.Some? <==>
      key in index && exists i :: 0 <= i < |files| && engine(pattern.source, Candidate(files[i], matchFullPath))
    ensures r.Some? ==>
      && r.value.0 == index[key]
      && exists i ::
        && 0 <= i < |files|
        && r.value.1 == Candidate(files[i], matchFullPath)
        && engine(pattern.source, r.value.1)
        && forall j :: 0 <= j < i ==> !engine(pattern.source, Candidate(files[j], matchFullPath))
  {
    var test := Matching(pattern, engine);
    var found := FirstPassing(files, matchFullPath, test);
    Answer(index, key, found)
  }

  /**
   * `match_extensions`: the rule indexed under `key`, with the first
   * extension of `list` that `extensions` holds. `order` is the iteration
   * order of the `list` set, which is not specified.
   */
  function MatchExtensions(index: map<string, Rule>, key: string, order: seq<string>, extensions: set<string>)
    : (r: Option<(Rule, string)>)
    ensures r.Some? <==> key in index && exists i :: 0 <= i < |order| && order[i] in extensions
    ensures r.Some? ==>
      && r.value.0 == index[key]
      && exists i ::
        && 0 <= i < |order|
        && r.value.1 == order[i]
        && order[i] in extensions
        && forall j :: 0 <= j < i ==> order[j] !in extensions
    decreases |order|
  {
    if order == [] then None
    else if order[0] in extensions then Answer(index, key, Some(order[0]))
    else
      var r := MatchExtensions(index, key, order[1..], extensions);
      assert forall i :: 1 <= i < |order| ==> order[i] == order[1..][i - 1];
      r
  }

  /** The listing the file-matching fixtures use: `test.js` under `path/to`, then `main.rs` under `src`. */
  function FixtureFiles(): seq<ProviderFile> {
    [ProviderFile("test.js", File, "path/to/test.js"), ProviderFile("main.rs", File, "src/main.rs")]
  }

  function FixtureIndex(): map<string, Rule> {
    map["test_tech" := DefaultRule().(tech := "test_tech", name := "Test Tech", ruleType := "test")]
  }

  /**
   * The fixtures of `match_files`: a listed bare name is found, an unlisted
   * one is not, a listed full path is found when full paths are tested, and
   * a pattern that accepts `test.js` finds it before `main.rs`.
   */
  lemma MatchFilesFixtures(engine: RegexEngine)
    ensures MatchFiles(FixtureIndex(), "test_tech", FixtureFiles(), ["test.js"], false)
         == Some((FixtureIndex()["test_tech"], "test.js"))
    ensures MatchFiles(FixtureIndex(), "test_tech", FixtureFiles(), ["nonexistent.file"], false).None?
    ensures MatchFiles(FixtureIndex(), "test_tech", FixtureFiles(), ["src/main.rs"], true)
         == Some((FixtureIndex()["test_tech"], "src/main.rs"))
    ensures engine("test\\.js$", "test.js") ==>
      MatchFilesRegex(FixtureIndex(), "test_tech", FixtureFiles(), Regex("test\\.js$"), false, engine)
        == Some((FixtureIndex()["test_tech"], "test.js"))
  {
    var files := FixtureFiles();
    assert files[1..][1..] == [];
    assert "test.js" != "nonexistent.file" && "main.rs" != "nonexistent.file";
    assert "path/to/test.js" != "src/main.rs";
  }

  /**
   * The fixtures of `match_extensions`: the listing's only extension `js`
   * is found among `{js}` and not among `{rs}`.
   */
  lemma MatchExtensionsFixture()
    ensures MatchExtensions(FixtureIndex(), "test_tech", ["js"], {"js"}) == Some((FixtureIndex()["test_tech"], "js"))
    ensures MatchExtensions(FixtureIndex(), "test_tech", ["js"], {"rs"}).None?
  {
    assert "js" != "rs";
  }
}

=== FILE: nodejs_component.dfy ===
/**
 * `detect_node_component`: the component a `package.json` describes.
 * Reading the file is the provider's `open`, given as a function; parsing
 * the JSON is the function `parse`, which yields the manifest record or
 * nothing.
 */
module NodeComponent {
  import opened Wrappers
  import opened Types
  import opened Loader
  import opened Payloads
  import opened Detection

  /** The parts of a `package.json` the detector reads. */
  datatype PackageJson = PackageJson(
    name: Option<string>,
    dependencies: Option<map<string, string>>,
    devDependencies: Option<map<string, string>>)

  /** The only file name the detector reads. */
  const ManifestName: string := "package.json"

  /** A section that may be absent, as a map. */
  function Section(s: Option<map<string, string>>): map<string, string> {
    if s.Some? then s.value else map[]
  }

  /** The dependencies and the development dependencies, the latter winning for the same name. */
  function AllDependencies(pkg: PackageJson): map<string, string> {
    Extend(Extend(map[], pkg.dependencies), pkg.devDependencies)
  }

  /** `extend` with a section that may be absent. */
  function Extend(deps: map<string, string>, s: Option<map<string, string>>): map<string, string> {
    if s.Some? then deps + s.value else deps
  }

  /** Every name of either section is a dependency, with its development version when it has one. */
  lemma AllDependenciesUnion(pkg: PackageJson, n: string)
    ensures n in AllDependencies(pkg) <==> n in Section(pkg.dependencies) || n in Section(pkg.devDependencies)
    ensures n in Section(pkg.devDependencies) ==> AllDependencies(pkg)[n] == Section(pkg.devDependencies)[n]
    ensures n !in Section(pkg.devDependencies) && n in Section(pkg.dependencies) ==>
      AllDependencies(pkg)[n] == Section(pkg.dependencies)[n]
  {
  }

  /** The manifest a file yields: only `package.json` files that open, parse and carry a name. */
  function ManifestOf(f: ProviderFile, open: string -> Option<string>, parse: string -> Option<PackageJson>)
    : (r: Option<PackageJson>)
    ensures r.Some? ==> r.value.name.Some?
  {
    if f.name != ManifestName then None
    else match open(f.fp)
      case None => None
      case Some(content) =>
        match parse(content)
        case None => None
        case Some(pkg) => if pkg.name.Some? then Some(pkg) else None
  }

  /** The first file at or after `i` that yields a manifest. */
  function FirstManifest(files: seq<ProviderFile>, open: string -> Option<string>,
                         parse: string -> Option<PackageJson>, i: nat): (r: Option<nat>)
    requires i <= |files|
    ensures r.None? <==> forall k :: i <= k < |files| ==> ManifestOf(files[k], open, parse).None?
    ensures r.Some? ==>
      && i <= r.value < |files|
      && ManifestOf(files[r.value], open, parse).Some?
      && forall k :: i <= k < r.value ==> ManifestOf(files[k], open, parse).None?
    decreases |files| - i
  {
    if i == |files| then None
    else if ManifestOf(files[i], open, parse).Some? then Some(i)
    else FirstManifest(files, open, parse, i + 1)
  }

  /**
   * The component a named manifest found at `fp` describes: named after
   * the package, found at `fp`, crediting every technology its dependency
   * names give evidence of with its `"matched: "` reason, with the implicit
   * components of those technologies as children in some visiting order,
   * and one `("npm", name, version)` triple per dependency, the version as
   * written.
   */
  ghost predicate Describes(c: Component, fp: string, pkg: PackageJson, table: map<string, seq<DependencyMatcher>>,
                            index: map<string, Rule>, engine: RegexEngine)
    requires pkg.name.Some?
  {
    var deps := AllDependencies(pkg);
    && c.name == pkg.name.value
    && c.id == c.name
    && c.path == {fp}
    && c.tech == None
    && c.languages == map[]
    && c.techs == Evidenced(table, deps.Keys, "npm", engine)
    && OneTriplePerName(c.dependencies, "npm", deps)
    && c.reason == MatchedReasons(c.techs)
    && TechsChecked(index, c.techs, {fp}, c.childs)
    && exists order ::
         && Distinct(order) && SetOf(order) == c.techs
         && ImplicitChain(index, MatchedSteps(order), {fp}, [], c.childs)
  }

  /** The dependency sections extended into one map, section by section. */
  method CollectDependencies(pkg: PackageJson) returns (deps: map<string, string>)
    ensures deps == AllDependencies(pkg)
  {
    deps := map[];
    if pkg.dependencies.Some? {
      deps := deps + pkg.dependencies.value;
    }
    assert deps == Extend(map[], pkg.dependencies);
    if pkg.devDependencies.Some? {
      deps := deps + pkg.devDependencies.value;
    }
  }

  /** The body of the detector for the named manifest `pkg` found at `fp`. */
  method NodePayload(fp: string, pkg: PackageJson, table: map<string, seq<DependencyMatcher>>,
                     index: map<string, Rule>, engine: RegexEngine)
    returns (out: Detected)
    requires pkg.name.Some?
    ensures !out.NoComponent?
    ensures out.Found? ==> Describes(out.component, fp, pkg, table, index, engine)
    ensures out.Panicked? ==> HostingPanic(index, Evidenced(table, AllDependencies(pkg).Keys, "npm", engine), out.message)
  {
    var deps := CollectDependencies(pkg);
    var names := Enumerate(deps.Keys);
    var techs := MatchNames(table, names, "npm", engine);
    assert SetOf(names) == deps.Keys;
    var flat := Triples("npm", names, deps);
    TriplesOfEnumeration("npm", names, deps);
    out := BuildPayload(pkg.name.value, fp, index, techs, flat);
    if out.Found? {
      SingleReasonsFor(techs);
      MatchedChain(index, techs, {fp}, [], out.component.childs);
    }
  }

  /**
   * `detect_node_component`: the component of the first `package.json`
   * that opens, parses and names its package; `NoComponent` when there
   * is none.
   */
  method DetectNodeComponent(files: seq<ProviderFile>, open: string -> Option<string>,
                             parse: string -> Option<PackageJson>, table: map<string, seq<DependencyMatcher>>,
                             index: map<string, Rule>, engine: RegexEngine)
    returns (out: Detected)
    ensures out.NoComponent? <==> FirstManifest(files, open, parse, 0).None?
    ensures out.Found? ==>
      var k := FirstManifest(files, open, parse, 0).value;
      Describes(out.component, files[k].fp, ManifestOf(files[k], open, parse).value, table, index, engine)
    ensures out.Panicked? ==>
      var k := FirstManifest(files, open, parse, 0).value;
      HostingPanic(index, Evidenced(table, AllDependencies(ManifestOf(files[k], open, parse).value).Keys, "npm", engine),
                   out.message)
  {
    for i := 0 to |files|
      invariant FirstManifest(files, open, parse, 0) == FirstManifest(files, open, parse, i)
    {
      if files[i].name != ManifestName {
        continue;
      }
      var content := open(files[i].fp);
      if content.None? {
        continue;
      }
      var pkg := parse(content.value);
      if pkg.None? {
        continue;
      }
      if pkg.value.name.None? {
        continue;
      }
      out := NodePayload(files[i].fp, pkg.value, table, index, engine);
      return;
    }
    out := NoComponent;
  }

  /** The manifest of `test_detect_node_component`. */
  function TestManifest(): PackageJson {
    PackageJson(Some("test_project"),
                Some(map["express" := "^4.17.1", "react" := "17.0.2"]),
                Some(map["jest" := "^27.0.0", "typescript" := "4.5.4"]))
  }

  /** What `test_detect_node_component` expects of the component of its manifest. */
  lemma TestManifestDescribed(c: Component, table: map<string, seq<DependencyMatcher>>, index: map<string, Rule>,
                               engine: RegexEngine)
    requires Describes(c, "package.json", TestManifest(), table, index, engine)
    ensures c.name == "test_project" && "package.json" in c.path
    ensures ("npm", "express", "^4.17.1") in c.dependencies && ("npm", "react", "17.0.2") in c.dependencies
    ensures ("npm", "jest", "^27.0.0") in c.dependencies && ("npm", "typescript", "4.5.4") in c.dependencies
    ensures |c.dependencies| == 4
  {
    var deps := TestDependencies();
    TripleListed(c.dependencies, "npm", deps, "express");
    TripleListed(c.dependencies, "npm", deps, "react");
    TripleListed(c.dependencies, "npm", deps, "jest");
    TripleListed(c.dependencies, "npm", deps, "typescript");
  }

  /** The dependencies of the manifest of `test_detect_node_component`: the four names of its two sections. */
  lemma TestDependencies() returns (deps: map<string, string>)
    ensures deps == AllDependencies(TestManifest())
    ensures deps == map["express" := "^4.17.1", "react" := "17.0.2", "jest" := "^27.0.0", "typescript" := "4.5.4"]
    ensures |deps| == 4
  {
    deps := AllDependencies(TestManifest());
    assert deps == map["express" := "^4.17.1", "react" := "17.0.2"] + map["jest" := "^27.0.0", "typescript" := "4.5.4"];
    FourNames(deps);
  }

  /** A map of the test manifest's four names has four entries. */
  lemma FourNames(deps: map<string, string>)
    requires deps == map["express" := "^4.17.1", "react" := "17.0.2"] + map["jest" := "^27.0.0", "typescript" := "4.5.4"]
    ensures deps == map["express" := "^4.17.1", "react" := "17.0.2", "jest" := "^27.0.0", "typescript" := "4.5.4"]
    ensures |deps| == 4
  {
    assert deps.Keys == {"express", "react", "jest", "typescript"};
  }

  /** Under one triple per name, each name's triple is listed. */
  lemma TripleListed(deps: seq<Dependency>, ecosystem: string, versions: map<string, string>, n: string)
    requires OneTriplePerName(deps, ecosystem, versions) && n in versions
    ensures (ecosystem, n, versions[n]) in deps
  {
    assert (ecosystem, n, versions[n]) in SetOf(deps);
  }
}

=== FILE: payload.dfy ===
/**
 * The payload: one node of the detected component tree, with the
 * operations that merge evidence into it. A payload's children are owned
 * values (a Rust `Vec<Payload>`), so they are `Component` values here; the
 * payload under construction is a `Payload` object whose fields the
 * operations update in place.
 *
 * `find_implicit_component` and `find_hosting` (helpers.rs) live in this
 * module because `add_tech` calls them and they call back into the payload.
 */
module Payloads {
  import opened Wrappers
  import opened Types
  import opened Strings
  import Languages

  /** The value of a payload: what a parent holds of each child. */
  datatype Component = Component(
    id: string,
    name: string,
    path: set<string>,
    tech: Option<string>,
    languages: map<string, nat>,
    childs: seq<Component>,
    techs: set<string>,
    dependencies: seq<Dependency>,
    reason: set<string>)

  /**
   * `Payload::new` as its callers use it: named `name`, found at `path`,
   * with nothing detected yet. The id is the first argument, as in the
   * declaration.
   */
  function NewComponent(name: string, path: string): (c: Component)
    ensures c.name == name && c.path == {path} && c.tech.None?
    ensures c.childs == [] && c.techs == {} && c.languages == map[] && c.dependencies == [] && c.reason == {}
  {
    Component(name, name, {path}, None, map[], [], {}, [], {})
  }

  /**
   * `Payload::new` as declared: `(id, name)`, so the callers' name lands in
   * `id`, their path lands in `name`, and `path` stays empty.
   */
  function NewAsDeclared(id: string, name: string): Component {
    Component(id, name, {}, None, map[], [], {}, [], {})
  }

  /**
   * The caller `Payload::new("main", "/")` expects a payload named `main`
   * found at `/`; the declared constructor gives one named `/` found nowhere,
   * and the corrected one gives what the caller expects.
   */
  lemma NewArgumentOrder()
    ensures NewAsDeclared("main", "/").name != "main" && "/" !in NewAsDeclared("main", "/").path
    ensures NewComponent("main", "/").name == "main" && "/" in NewComponent("main", "/").path
  {
    assert "/" != "main";
  }

  /** `add_child`'s identity: the same name, or both techs set and equal. */
  predicate Similar(a: Component, b: Component) {
    a.name == b.name || (a.tech.Some? && b.tech.Some? && a.tech == b.tech)
  }

  /** The first child at or after `k` that is similar to `service`. */
  function FirstSimilarFrom(childs: seq<Component>, service: Component, k: nat): (r: Option<nat>)
    requires k <= |childs|
    ensures r.None? <==> forall i :: k <= i < |childs| ==> !Similar(childs[i], service)
    ensures r.Some? ==>
      && k <= r.value < |childs|
      && Similar(childs[r.value], service)
      && forall i :: k <= i < r.value ==> !Similar(childs[i], service)
    decreases |childs| - k
  {
    if k == |childs| then None
    else if Similar(childs[k], service) then Some(k)
    else FirstSimilarFrom(childs, service, k + 1)
  }

  /** The child `service` is merged into: adds the service's paths and dependencies. */
  function MergeInto(exist: Component, service: Component): Component {
    exist.(path := exist.path + service.path, dependencies := exist.dependencies + service.dependencies)
  }

  /** The children after `add_child(service)`: merged into the first similar child, else appended. */
  function AddChildSpec(childs: seq<Component>, service: Component): seq<Component> {
    match FirstSimilarFrom(childs, service, 0)
    case Some(k) => childs[k := MergeInto(childs[k], service)]
    case None => childs + [service]
  }

  /** No two children are similar. */
  ghost predicate NoTwoSimilar(childs: seq<Component>) {
    forall i, j :: 0 <= i < j < |childs| ==> !Similar(childs[i], childs[j])
  }

  /**
   * A service similar to some child does not add a child: the first similar
   * one gains its paths and dependencies and keeps everything else, and the
   * other children are unchanged. A service similar to none is appended.
   */
  lemma AddChildEffect(childs: seq<Component>, service: Component)
    ensures var r := AddChildSpec(childs, service);
      && ((exists i :: 0 <= i < |childs| && Similar(childs[i], service)) ==>
            && |r| == |childs|
            && exists k ::
                 && 0 <= k < |childs|
                 && Similar(childs[k], service)
                 && r[k].path == childs[k].path + service.path
                 && r[k].dependencies == childs[k].dependencies + service.dependencies
                 && r[k].name == childs[k].name && r[k].tech == childs[k].tech && r[k].id == childs[k].id
                 && forall i :: 0 <= i < |childs| && i != k ==> r[i] == childs[i])
      && ((forall i :: 0 <= i < |childs| ==> !Similar(childs[i], service)) ==> r == childs + [service])
  {
    var f := FirstSimilarFrom(childs, service, 0);
    if f.Some? {
      assert exists i :: 0 <= i < |childs| && Similar(childs[i], service);
    }
  }

  /** Adding a child keeps the children pairwise dissimilar, since a merge keeps name and tech. */
  lemma AddChildKeepsDissimilar(childs: seq<Component>, service: Component)
    requires NoTwoSimilar(childs)
    ensures NoTwoSimilar(AddChildSpec(childs, service))
  {
    var r := AddChildSpec(childs, service);
    match FirstSimilarFrom(childs, service, 0)
    case Some(k) =>
      forall i, j | 0 <= i < j < |r| ensures !Similar(r[i], r[j]) {
        assert Similar(r[i], r[j]) == Similar(childs[i], childs[j]);
      }
    case None =>
      forall i, j | 0 <= i < j < |r| ensures !Similar(r[i], r[j]) {
        if j == |childs| {
          assert !Similar(childs[i], service);
        }
      }
  }

  /** The rule types that never make an implicit component. */
  const NotAComponent: seq<string> := ["ci", "language", "tool", "framework"]

  /** The component `find_implicit_component` deduces from `tech`'s rule, found at `path`. */
  function ImplicitComponent(rule: Rule, tech: string, reasons: seq<string>, path: string): Component {
    NewComponent(rule.name, path).(tech := Some(tech), reason := SetOf(reasons))
  }

  /** Does `tech` name an indexed rule whose type makes a component? */
  predicate MakesComponent(index: map<string, Rule>, tech: string) {
    tech in index && index[tech].ruleType !in NotAComponent
  }

  /** The panic of `find_implicit_component` on a payload with no path. */
  const UnwrapNone: string := "called `Option::unwrap()` on a `None` value"

  /**
   * The children after `find_implicit_component`: unchanged when the tech
   * makes no component (or the call panics), otherwise the implicit
   * component, found at one of the payload's paths, added as a child.
   */
  ghost predicate ImplicitChildren(index: map<string, Rule>, tech: string, reasons: seq<string>, path: set<string>,
                                   before: seq<Component>, after: seq<Component>)
  {
    if MakesComponent(index, tech) && path != {} then
      exists p :: p in path && after == AddChildSpec(before, ImplicitComponent(index[tech], tech, reasons, p))
    else after == before
  }

  /** `find_hosting`: a hosting or cloud rule requires a child with its tech, else the call panics. */
  function FindHosting(index: map<string, Rule>, childs: seq<Component>, tech: string): (r: Outcome<string>)
    ensures r.Fail? <==>
      && tech in index
      && index[tech].ruleType in {"hosting", "cloud"}
      && forall i :: 0 <= i < |childs| ==> childs[i].tech != Some(index[tech].tech)
  {
    if tech !in index then Pass
    else
      var rule := index[tech];
      if rule.ruleType != "hosting" && rule.ruleType != "cloud" then Pass
      else if exists i :: 0 <= i < |childs| && childs[i].tech == Some(rule.tech) then Pass
      else Fail("cant find hosting " + rule.tech)
  }

  /**
   * A panic of `add_tech(tech)` on a payload found at `path`: the unwrap in
   * `find_implicit_component` for a component-making tech when there is no
   * path, or `find_hosting` for a hosting or cloud rule.
   */
  predicate TechPanic(index: map<string, Rule>, tech: string, path: set<string>, error: string) {
    || (MakesComponent(index, tech) && path == {} && error == UnwrapNone)
    || (tech in index && index[tech].ruleType in {"hosting", "cloud"} && error == "cant find hosting " + index[tech].tech)
  }

  /**
   * A hosting or cloud rule keyed by its own tech never panics in
   * `add_tech` when the payload has a path and no child carries the rule's
   * name: the implicit component carrying the tech is then added, or a
   * child with that tech already exists.
   */
  lemma HostingFoundAfterImplicit(index: map<string, Rule>, tech: string, reasons: seq<string>, path: set<string>,
                                  before: seq<Component>, after: seq<Component>)
    requires tech in index && index[tech].tech == tech && index[tech].ruleType in {"hosting", "cloud"}
    requires path != {}
    requires forall i :: 0 <= i < |before| ==> before[i].name != index[tech].name
    requires ImplicitChildren(index, tech, reasons, path, before, after)
    ensures FindHosting(index, after, tech) == Pass
  {
    assert "hosting" !in NotAComponent && "cloud" !in NotAComponent;
    var p :| p in path && after == AddChildSpec(before, ImplicitComponent(index[tech], tech, reasons, p));
    var comp := ImplicitComponent(index[tech], tech, reasons, p);
    match FirstSimilarFrom(before, comp, 0)
    case Some(k) =>
      assert after[k].tech == before[k].tech == Some(tech);
    case None =>
      assert after[|before|] == comp;
  }

  /** The join key `combine_dependencies` dedups on: the triple's parts joined with `_`. */
  function JoinedKey(d: Dependency): string {
    JoinWith([d.0, d.1, d.2], '_')
  }

  /** `combine_dependencies` as written: a map from joined key to dependency, later entries overwriting. */
  function DedupByJoinedKey(acc: map<string, Dependency>, deps: seq<Dependency>): map<string, Dependency>
    decreases |deps|
  {
    if deps == [] then acc else DedupByJoinedKey(acc[JoinedKey(deps[0]) := deps[0]], deps[1..])
  }

  /**
   * Two different dependencies can share a joined key, and then the dedup
   * as written keeps only one of them.
   */
  lemma JoinedKeyCollision()
    ensures var a: Dependency := ("rust", "a_b", "1");
      var b: Dependency := ("rust", "a", "b_1");
      && a != b
      && DedupByJoinedKey(map[], [a]).Values == {a}
      && DedupByJoinedKey(map[], [a, b]).Values == {b}
  {
    var a: Dependency := ("rust", "a_b", "1");
    var b: Dependency := ("rust", "a", "b_1");
    assert ["rust", "a_b", "1"][1..] == ["a_b", "1"] && ["a_b", "1"][1..] == ["1"];
    assert ["rust", "a", "b_1"][1..] == ["a", "b_1"] && ["a", "b_1"][1..] == ["b_1"];
    assert JoinedKey(a) == "rust_a_b_1";
    assert JoinedKey(b) == "rust_a_b_1";
    var m1: map<string, Dependency> := map[][JoinedKey(a) := a];
    assert [a][1..] == [];
    assert DedupByJoinedKey(map[], [a]) == DedupByJoinedKey(m1, []) == m1;
    assert m1 == map["rust_a_b_1" := a];
    assert m1["rust_a_b_1"] in m1.Values;
    assert m1.Values == {a};
    assert [a, b][1..] == [b];
    var m2 := m1[JoinedKey(b) := b];
    assert DedupByJoinedKey(map[], [a, b]) == DedupByJoinedKey(m1, [b]) == DedupByJoinedKey(m2, []) == m2;
    assert m2 == map["rust_a_b_1" := b];
    assert m2["rust_a_b_1"] in m2.Values;
    assert m2.Values == {b};
  }

  /** The dependency sum of two lists, keyed on the whole triple. */
  function CombinedDependencies(mine: seq<Dependency>, theirs: seq<Dependency>): set<Dependency> {
    SetOf(mine) + SetOf(theirs)
  }

  /** Combining again with the same dependencies changes nothing, and no dependency is lost. */
  lemma CombineIdempotent(mine: seq<Dependency>, theirs: seq<Dependency>, once: seq<Dependency>)
    requires SetOf(once) == CombinedDependencies(mine, theirs)
    ensures CombinedDependencies(once, theirs) == SetOf(once)
    ensures forall d :: d in mine || d in theirs ==> d in once
  {
    forall d | d in mine || d in theirs ensures d in once {
      assert d in SetOf(mine) + SetOf(theirs);
    }
  }

  /** The union of the reasons of a tech map. */
  function ReasonsOf(matched: map<string, seq<string>>): set<string> {
    set k, x | k in matched && x in matched[k] :: x
  }

  /** `language count` after `add_lang(name, count)`: the count starts from 0. */
  function AddCount(languages: map<string, nat>, name: string, count: nat): (r: map<string, nat>)
    ensures r.Keys == languages.Keys + {name}
    ensures r[name] == (if name in languages then languages[name] else 0) + count
    ensures forall l :: l in languages && l != name ==> r[l] == languages[l]
  {
    languages[name := (if name in languages then languages[name] else 0) + count]
  }

  /** The count of `name` in a language map, 0 when absent. */
  function Count(languages: map<string, nat>, name: string): nat {
    if name in languages then languages[name] else 0
  }

  /** The language counts of `mine` with those of `theirs` for the languages `ks` added in. */
  function PartialTotal(mine: map<string, nat>, theirs: map<string, nat>, ks: set<string>): map<string, nat> {
    map l | l in mine.Keys + ks :: Count(mine, l) + (if l in ks then Count(theirs, l) else 0)
  }

  /** Adding the count of one more language `x` moves the partial total on by `x`. */
  lemma PartialTotalStep(mine: map<string, nat>, theirs: map<string, nat>, ks: set<string>, x: string)
    requires x !in ks
    ensures AddCount(PartialTotal(mine, theirs, ks), x, Count(theirs, x)) == PartialTotal(mine, theirs, ks + {x})
  {
    var a := AddCount(PartialTotal(mine, theirs, ks), x, Count(theirs, x));
    var b := PartialTotal(mine, theirs, ks + {x});
    assert a.Keys == b.Keys;
    forall l | l in a.Keys ensures a[l] == b[l] {
      if l != x {
        assert l in PartialTotal(mine, theirs, ks);
      }
    }
  }

  /** The reasons a tech map gives for the techs `ks`. */
  function ReasonsFor(matched: map<string, seq<string>>, ks: set<string>): set<string> {
    set k, x | k in ks && k in matched && x in matched[k] :: x
  }

  lemma ReasonsForStep(matched: map<string, seq<string>>, ks: set<string>, k: string)
    requires k in matched
    ensures ReasonsFor(matched, ks + {k}) == ReasonsFor(matched, ks) + SetOf(matched[k])
  {
  }

  /**
   * `find_implicit_component`: when `tech`'s rule is a component type, adds
   * an eponymous child found at one of the payload's paths (which one is
   * not specified: the paths are a `HashSet`). A payload without a path
   * makes the call panic.
   */
  method FindImplicitComponent(pl: Payload, index: map<string, Rule>, tech: string, reasons: seq<string>)
    returns (out: Outcome<string>)
    modifies pl
    ensures out == if MakesComponent(index, tech) && old(pl.path) == {} then Fail(UnwrapNone) else Pass
    ensures ImplicitChildren(index, tech, reasons, old(pl.path), old(pl.childs), pl.childs)
    ensures pl.Value() == old(pl.Value()).(childs := pl.childs)
  {
    if tech !in index {
      return Pass;
    }
    var rule := index[tech];
    if rule.ruleType in NotAComponent {
      return Pass;
    }
    if pl.path == {} {
      return Fail(UnwrapNone);
    }
    var p :| p in pl.path;
    var comp := NewComponent(rule.name, p);
    comp := comp.(tech := Some(tech), reason := SetOf(reasons));
    var _ := pl.AddChild(comp);
    return Pass;
  }

  /** The implicit component keeps the children pairwise dissimilar. */
  lemma ImplicitKeepsDissimilar(index: map<string, Rule>, tech: string, reasons: seq<string>, path: set<string>,
                                before: seq<Component>, after: seq<Component>)
    requires ImplicitChildren(index, tech, reasons, path, before, after)
    requires NoTwoSimilar(before)
    ensures NoTwoSimilar(after)
  {
    if MakesComponent(index, tech) && path != {} {
      var p :| p in path && after == AddChildSpec(before, ImplicitComponent(index[tech], tech, reasons, p));
      AddChildKeepsDissimilar(before, ImplicitComponent(index[tech], tech, reasons, p));
    }
  }

  /** `add_child` keeps every existing child in place with its tech. */
  lemma AddChildKeepsTechs(childs: seq<Component>, service: Component)
    ensures |childs| <= |AddChildSpec(childs, service)|
    ensures forall i :: 0 <= i < |childs| ==> AddChildSpec(childs, service)[i].tech == childs[i].tech
  {
    match FirstSimilarFrom(childs, service, 0)
    case Some(k) =>
    case None =>
  }

  /**
   * Each tech of `ts` has been through `add_tech` without a panic, and
   * stays so: the payload has a path if the tech makes a component, and the
   * children hold the hosting child a hosting or cloud tech requires.
   */
  predicate TechsChecked(index: map<string, Rule>, ts: set<string>, path: set<string>, childs: seq<Component>) {
    forall t :: t in ts ==> !(MakesComponent(index, t) && path == {}) && FindHosting(index, childs, t) == Pass
  }

  /** An implicit component never takes a hosting child away, so a passed check stays passed. */
  lemma ImplicitKeepsChecked(index: map<string, Rule>, ts: set<string>, path: set<string>, tech: string,
                             reasons: seq<string>, before: seq<Component>, after: seq<Component>)
    requires ImplicitChildren(index, tech, reasons, path, before, after)
    requires TechsChecked(index, ts, path, before)
    ensures TechsChecked(index, ts, path, after)
  {
    if MakesComponent(index, tech) && path != {} {
      var p :| p in path && after == AddChildSpec(before, ImplicitComponent(index[tech], tech, reasons, p));
      AddChildKeepsTechs(before, ImplicitComponent(index[tech], tech, reasons, p));
      forall t | t in ts && t in index && index[t].ruleType in {"hosting", "cloud"}
        ensures FindHosting(index, after, t) == Pass
      {
        var k :| 0 <= k < |before| && before[k].tech == Some(index[t].tech);
        assert after[k].tech == Some(index[t].tech);
      }
    }
  }

  /** An `add_tech` that passes keeps the earlier techs checked and checks its own tech. */
  lemma TechsCheckedStep(index: map<string, Rule>, ts: set<string>, tech: string, reasons: seq<string>,
                         path: set<string>, before: seq<Component>, after: seq<Component>, out: Outcome<string>)
    requires TechsChecked(index, ts, path, before)
    requires ImplicitChildren(index, tech, reasons, path, before, after)
    requires out == if MakesComponent(index, tech) && path == {} then Fail(UnwrapNone) else FindHosting(index, after, tech)
    requires out.Pass?
    ensures TechsChecked(index, ts + {tech}, path, after)
  {
    ImplicitKeepsChecked(index, ts, path, tech, reasons, before, after);
  }

  /**
   * The children after `find_implicit_component` ran for each (tech,
   * reasons) step of `steps` in turn on a payload found at `path`.
   */
  ghost predicate ImplicitChain(index: map<string, Rule>, steps: seq<(string, seq<string>)>, path: set<string>,
                                before: seq<Component>, after: seq<Component>)
    decreases |steps|
  {
    if steps == [] then after == before
    else
      exists mid ::
        && ImplicitChildren(index, steps[0].0, steps[0].1, path, before, mid)
        && ImplicitChain(index, steps[1..], path, mid, after)
  }

  /** A chain grows by one step at its end. */
  lemma {:induction false} ImplicitChainStep(index: map<string, Rule>, steps: seq<(string, seq<string>)>,
                                             step: (string, seq<string>), path: set<string>,
                                             before: seq<Component>, mid: seq<Component>, after: seq<Component>)
    requires ImplicitChain(index, steps, path, before, mid)
    requires ImplicitChildren(index, step.0, step.1, path, mid, after)
    ensures ImplicitChain(index, steps + [step], path, before, after)
    decreases |steps|
  {
    if steps == [] {
      assert (steps + [step])[1..] == [];
      assert ImplicitChain(index, [], path, after, after);
    } else {
      var m :| ImplicitChildren(index, steps[0].0, steps[0].1, path, before, m)
            && ImplicitChain(index, steps[1..], path, m, mid);
      ImplicitChainStep(index, steps[1..], step, path, m, mid, after);
      assert (steps + [step])[1..] == steps[1..] + [step];
    }
  }

  /** `find_implicit_component` sees a tech's reasons only as a set. */
  lemma ImplicitChildrenSameReasons(index: map<string, Rule>, tech: string, reasons: seq<string>,
                                    others: seq<string>, path: set<string>,
                                    before: seq<Component>, after: seq<Component>)
    requires SetOf(reasons) == SetOf(others)
    requires ImplicitChildren(index, tech, reasons, path, before, after)
    ensures ImplicitChildren(index, tech, others, path, before, after)
  {
    if MakesComponent(index, tech) && path != {} {
      var p :| p in path && after == AddChildSpec(before, ImplicitComponent(index[tech], tech, reasons, p));
      assert ImplicitComponent(index[tech], tech, reasons, p) == ImplicitComponent(index[tech], tech, others, p);
    }
  }

  /** Two chains over the same techs whose reasons agree as sets make the same children. */
  lemma {:induction false} ImplicitChainSameReasons(index: map<string, Rule>, steps: seq<(string, seq<string>)>,
                                                    others: seq<(string, seq<string>)>, path: set<string>,
                                                    before: seq<Component>, after: seq<Component>)
    requires |steps| == |others|
    requires forall i :: 0 <= i < |steps| ==> steps[i].0 == others[i].0 && SetOf(steps[i].1) == SetOf(others[i].1)
    requires ImplicitChain(index, steps, path, before, after)
    ensures ImplicitChain(index, others, path, before, after)
    decreases |steps|
  {
    if steps != [] {
      var mid :| ImplicitChildren(index, steps[0].0, steps[0].1, path, before, mid)
              && ImplicitChain(index, steps[1..], path, mid, after);
      ImplicitChildrenSameReasons(index, steps[0].0, steps[0].1, others[0].1, path, before, mid);
      ImplicitChainSameReasons(index, steps[1..], others[1..], path, mid, after);
    }
  }

  /** The `add_tech` calls of `add_techs` when it visits the techs of `matched` in the order `order`. */
  function TechSteps(matched: map<string, seq<string>>, order: seq<string>): seq<(string, seq<string>)>
    decreases |order|
  {
    if order == [] then []
    else
      var k := order[|order| - 1];
      TechSteps(matched, order[..|order| - 1]) + [(k, if k in matched then matched[k] else [])]
  }

  /** The `i`-th step adds the `i`-th tech of the order with its reasons. */
  lemma {:induction false} TechStepsAt(matched: map<string, seq<string>>, order: seq<string>)
    ensures |TechSteps(matched, order)| == |order|
    ensures forall i :: 0 <= i < |order| ==>
      TechSteps(matched, order)[i] == (order[i], if order[i] in matched then matched[order[i]] else [])
    decreases |order|
  {
    if order != [] {
      TechStepsAt(matched, order[..|order| - 1]);
    }
  }

  lemma TechStepsStep(matched: map<string, seq<string>>, order: seq<string>, i: nat)
    requires i < |order| && order[i] in matched
    ensures TechSteps(matched, order[..i + 1]) == TechSteps(matched, order[..i]) + [(order[i], matched[order[i]])]
  {
    assert order[..i + 1][..i] == order[..i];
  }

  /**
   * `add_techs` after visiting the techs of `order` from `start`: they and
   * their reasons are recorded, the children are those their implicit
   * components make in visiting order, and nothing else changes.
   */
  ghost predicate TechsSoFar(index: map<string, Rule>, matched: map<string, seq<string>>, order: seq<string>,
                             start: Component, now: Component)
  {
    && now.techs == start.techs + SetOf(order)
    && now.reason == start.reason + ReasonsFor(matched, SetOf(order))
    && ImplicitChain(index, TechSteps(matched, order), start.path, start.childs, now.childs)
    && (NoTwoSimilar(start.childs) ==> NoTwoSimilar(now.childs))
    && now == start.(techs := now.techs, reason := now.reason, childs := now.childs)
  }

  /** The techs the language names of `ks` map to. */
  function LangTechs(nameToKey: map<string, string>, ks: set<string>): set<string> {
    set l | l in ks && l in nameToKey :: nameToKey[l]
  }

  lemma LangTechsStep(nameToKey: map<string, string>, ks: set<string>, l: string)
    ensures LangTechs(nameToKey, ks + {l})
         == LangTechs(nameToKey, ks) + (if l in nameToKey then {nameToKey[l]} else {})
  {
  }

  /**
   * The `add_tech` calls the `add_lang` calls make when they visit the
   * languages in the order `order`, on a payload that starts with the techs
   * `techs`: a language calls it only when it maps to a tech not yet
   * recorded.
   */
  function LangSteps(nameToKey: map<string, string>, techs: set<string>, order: seq<string>): seq<(string, seq<string>)>
    decreases |order|
  {
    if order == [] then []
    else
      var prior := order[..|order| - 1];
      var l := order[|order| - 1];
      LangSteps(nameToKey, techs, prior)
        + if l in nameToKey && nameToKey[l] !in techs + LangTechs(nameToKey, SetOf(prior)) then [(nameToKey[l], [])]
          else []
  }

  /**
   * What `add_lang(lang, count)` does to a payload: the language's count
   * grows by `count`; a language that maps to a tech not yet recorded
   * records it through `add_tech` with no reasons (the implicit component,
   * then the hosting check); otherwise nothing else happens. Reasons,
   * identity, paths and dependencies never change.
   */
  ghost predicate LangAdded(index: map<string, Rule>, nameToKey: map<string, string>, lang: string, count: nat,
                            before: Component, after: Component, out: Outcome<string>)
  {
    && after.languages == AddCount(before.languages, lang, count)
    && (if lang in nameToKey && nameToKey[lang] !in before.techs then
          && after.techs == before.techs + {nameToKey[lang]}
          && ImplicitChildren(index, nameToKey[lang], [], before.path, before.childs, after.childs)
          && out == if MakesComponent(index, nameToKey[lang]) && before.path == {} then Fail(UnwrapNone)
                    else FindHosting(index, after.childs, nameToKey[lang])
        else out == Pass && after.techs == before.techs && after.childs == before.childs)
    && after == before.(languages := after.languages, techs := after.techs, childs := after.childs)
  }

  /**
   * The language loop of `combine` after visiting the languages of `order`
   * from `start`: their counts are added in, the techs they map to are
   * recorded, the children are those the implicit components of the newly
   * recorded techs make in visiting order, and nothing else changes.
   */
  ghost predicate LangsSoFar(index: map<string, Rule>, nameToKey: map<string, string>, counts: map<string, nat>,
                             order: seq<string>, start: Component, now: Component)
  {
    && now.languages == PartialTotal(start.languages, counts, SetOf(order))
    && now.techs == start.techs + LangTechs(nameToKey, SetOf(order))
    && ImplicitChain(index, LangSteps(nameToKey, start.techs, order), start.path, start.childs, now.childs)
    && (NoTwoSimilar(start.childs) ==> NoTwoSimilar(now.childs))
    && now == start.(languages := now.languages, techs := now.techs, childs := now.childs)
  }

  /** The chain gains the step of one more language `l`, if it makes one. */
  lemma LangChainStep(index: map<string, Rule>, nameToKey: map<string, string>, techs: set<string>,
                      order: seq<string>, l: string, path: set<string>,
                      start: seq<Component>, mid: seq<Component>, after: seq<Component>)
    requires ImplicitChain(index, LangSteps(nameToKey, techs, order), path, start, mid)
    requires l in nameToKey && nameToKey[l] !in techs + LangTechs(nameToKey, SetOf(order)) ==>
      ImplicitChildren(index, nameToKey[l], [], path, mid, after)
    requires !(l in nameToKey && nameToKey[l] !in techs + LangTechs(nameToKey, SetOf(order))) ==> after == mid
    ensures ImplicitChain(index, LangSteps(nameToKey, techs, order + [l]), path, start, after)
  {
    assert (order + [l])[..|order|] == order;
    var prior := LangSteps(nameToKey, techs, order);
    if l in nameToKey && nameToKey[l] !in techs + LangTechs(nameToKey, SetOf(order)) {
      ImplicitChainStep(index, prior, (nameToKey[l], []), path, start, mid, after);
    } else {
      assert LangSteps(nameToKey, techs, order + [l]) == prior + [];
      assert prior + [] == prior;
    }
  }

  /** One more `add_lang` call, on a language not visited yet, extends the loop's account by that language. */
  lemma LangsSoFarStep(index: map<string, Rule>, nameToKey: map<string, string>, counts: map<string, nat>,
                       order: seq<string>, l: string, start: Component, before: Component, after: Component,
                       out: Outcome<string>)
    requires l in counts && l !in SetOf(order)
    requires LangsSoFar(index, nameToKey, counts, order, start, before)
    requires LangAdded(index, nameToKey, l, counts[l], before, after, out)
    ensures LangsSoFar(index, nameToKey, counts, order + [l], start, after)
  {
    assert SetOf(order + [l]) == SetOf(order) + {l};
    PartialTotalStep(start.languages, counts, SetOf(order), l);
    LangTechsStep(nameToKey, SetOf(order), l);
    LangChainStep(index, nameToKey, start.techs, order, l, start.path, start.childs, before.childs, after.childs);
    if l in nameToKey && nameToKey[l] !in before.techs && NoTwoSimilar(start.childs) {
      ImplicitKeepsDissimilar(index, nameToKey[l], [], start.path, before.childs, after.childs);
    }
  }

  /**
   * An `add_lang` that passes keeps every tech recorded by the earlier
   * languages checked, and checks the tech it records, if any.
   */
  lemma LangsCheckedStep(index: map<string, Rule>, nameToKey: map<string, string>, prior: set<string>, l: string,
                         count: nat, known: set<string>, before: Component, after: Component, out: Outcome<string>)
    requires before.techs == known + LangTechs(nameToKey, prior)
    requires TechsChecked(index, LangTechs(nameToKey, prior) - known, before.path, before.childs)
    requires LangAdded(index, nameToKey, l, count, before, after, out)
    requires out.Pass?
    ensures TechsChecked(index, LangTechs(nameToKey, prior + {l}) - known, before.path, after.childs)
  {
    LangTechsStep(nameToKey, prior, l);
    if l in nameToKey && nameToKey[l] !in before.techs {
      ImplicitKeepsChecked(index, LangTechs(nameToKey, prior) - known, before.path, nameToKey[l], [],
                           before.childs, after.childs);
      assert LangTechs(nameToKey, prior + {l}) - known == (LangTechs(nameToKey, prior) - known) + {nameToKey[l]};
    } else {
      assert LangTechs(nameToKey, prior + {l}) - known == LangTechs(nameToKey, prior) - known;
    }
  }

  class Payload {
    var id: string
    var name: string
    var path: set<string>
    var tech: Option<string>
    var languages: map<string, nat>
    var childs: seq<Component>
    var techs: set<string>
    var dependencies: seq<Dependency>
    var reason: set<string>

    /** The payload as a value. */
    function Value(): Component
      reads this
    {
      Component(id, name, path, tech, languages, childs, techs, dependencies, reason)
    }

    /** Identity, paths and dependencies are those of `before`: `add_tech` and `add_lang` never touch them. */
    predicate SameSite(before: Component)
      reads this
    {
      id == before.id && name == before.name && path == before.path && tech == before.tech
      && dependencies == before.dependencies
    }

    /** `Payload::new(name, path)`, as the callers use it. */
    constructor (name: string, path: string)
      ensures Value() == NewComponent(name, path)
    {
      this.id := name;
      this.name := name;
      this.path := {path};
      this.tech := None;
      this.languages := map[];
      this.childs := [];
      this.techs := {};
      this.dependencies := [];
      this.reason := {};
    }

    /**
     * `add_child`: merges `service` into the first similar child, or appends
     * it; answers the child as it now is.
     */
    method AddChild(service: Component) returns (r: Component)
      modifies this
      ensures Value() == old(Value()).(childs := AddChildSpec(old(childs), service))
      ensures r == match FirstSimilarFrom(old(childs), service, 0)
                   case Some(k) => childs[k]
                   case None => service
    {
      for k := 0 to |childs|
        invariant FirstSimilarFrom(childs, service, 0) == FirstSimilarFrom(childs, service, k)
      {
        var s := childs[k];
        if s.name == service.name || (s.tech.Some? && service.tech.Some? && s.tech == service.tech) {
          var exist := s.(path := s.path + service.path, dependencies := s.dependencies + service.dependencies);
          childs := childs[k := exist];
          return exist;
        }
      }
      childs := childs + [service];
      return service;
    }

    /**
     * `add_tech`: records the tech and its reasons, then looks for an
     * implicit component and checks the hosting; either check can panic.
     */
    method AddTech(index: map<string, Rule>, tech: string, reasons: seq<string>) returns (out: Outcome<string>)
      modifies this
      ensures techs == old(techs) + {tech}
      ensures reason == old(reason) + SetOf(reasons)
      ensures ImplicitChildren(index, tech, reasons, old(path), old(childs), childs)
      ensures NoTwoSimilar(old(childs)) ==> NoTwoSimilar(childs)
      ensures out == if MakesComponent(index, tech) && old(path) == {} then Fail(UnwrapNone)
                     else FindHosting(index, childs, tech)
      ensures out.Fail? ==> TechPanic(index, tech, old(path), out.error)
      ensures SameSite(old(Value())) && languages == old(languages)
    {
      techs := techs + {tech};
      for i := 0 to |reasons|
        invariant reason == old(reason) + SetOf(reasons[..i])
        invariant techs == old(techs) + {tech}
        invariant SameSite(old(Value())) && languages == old(languages) && childs == old(childs)
      {
        assert SetOf(reasons[..i + 1]) == SetOf(reasons[..i]) + {reasons[i]} by {
          assert reasons[..i + 1] == reasons[..i] + [reasons[i]];
        }
        reason := reason + {reasons[i]};
      }
      assert reasons[..|reasons|] == reasons;
      ghost var before := childs;
      out := FindImplicitComponent(this, index, tech, reasons);
      if NoTwoSimilar(before) {
        ImplicitKeepsDissimilar(index, tech, reasons, path, before, childs);
      }
      if out.Fail? {
        return;
      }
      out := FindHosting(index, childs, tech);
    }

    /**
     * `add_techs`: `add_tech` for every entry of the map, in the map's
     * (unspecified) order, stopping at a panic.
     */
    method AddTechs(index: map<string, Rule>, matched: map<string, seq<string>>) returns (out: Outcome<string>)
      modifies this
      ensures out.Pass? ==> techs == old(techs) + matched.Keys
      ensures out.Pass? ==> reason == old(reason) + ReasonsFor(matched, matched.Keys)
      ensures out.Pass? ==>
        exists order ::
          && Distinct(order) && SetOf(order) == matched.Keys
          && ImplicitChain(index, TechSteps(matched, order), old(path), old(childs), childs)
      ensures out.Pass? ==> TechsChecked(index, matched.Keys, old(path), childs)
      ensures out.Fail? ==> exists t :: t in matched && TechPanic(index, t, old(path), out.error)
      ensures old(techs) <= techs && old(reason) <= reason
      ensures NoTwoSimilar(old(childs)) ==> NoTwoSimilar(childs)
      ensures SameSite(old(Value())) && languages == old(languages)
    {
      var keys := Enumerate(matched.Keys);
      ghost var start := Value();
      for i := 0 to |keys|
        invariant TechsSoFar(index, matched, keys[..i], start, Value())
        invariant TechsChecked(index, SetOf(keys[..i]), start.path, childs)
      {
        out := AddTechTurn(index, matched, keys, i, start);
        if out.Fail? {
          return;
        }
      }
      assert keys[..|keys|] == keys;
      return Pass;
    }

    /** One turn of the loop of `add_techs`: `add_tech` for the tech `keys[i]`, not visited yet. */
    method AddTechTurn(index: map<string, Rule>, matched: map<string, seq<string>>, keys: seq<string>, i: nat,
                       ghost start: Component)
      returns (out: Outcome<string>)
      requires i < |keys| && Distinct(keys) && SetOf(keys) == matched.Keys
      requires TechsSoFar(index, matched, keys[..i], start, Value())
      requires TechsChecked(index, SetOf(keys[..i]), start.path, childs)
      modifies this
      ensures TechsSoFar(index, matched, keys[..i + 1], start, Value())
      ensures out.Pass? ==> TechsChecked(index, SetOf(keys[..i + 1]), start.path, childs)
      ensures out == if MakesComponent(index, keys[i]) && start.path == {} then Fail(UnwrapNone)
                     else FindHosting(index, childs, keys[i])
      ensures out.Fail? ==> TechPanic(index, keys[i], start.path, out.error)
    {
      SetOfStep(keys, i);
      ReasonsForStep(matched, SetOf(keys[..i]), keys[i]);
      ghost var before := Value();
      out := AddTech(index, keys[i], matched[keys[i]]);
      TechStepsStep(matched, keys, i);
      ImplicitChainStep(index, TechSteps(matched, keys[..i]), (keys[i], matched[keys[i]]),
                        start.path, start.childs, before.childs, childs);
      if out.Pass? {
        TechsCheckedStep(index, SetOf(keys[..i]), keys[i], matched[keys[i]], before.path, before.childs, childs, out);
      }
    }

    /**
     * `add_lang`: adds `count` to the language's count, then records the
     * tech the language's name maps to, if it is not recorded yet.
     */
    method AddLang(index: map<string, Rule>, nameToKey: map<string, string>, lang: string, count: nat)
      returns (out: Outcome<string>)
      modifies this
      ensures LangAdded(index, nameToKey, lang, count, old(Value()), Value(), out)
      ensures NoTwoSimilar(old(childs)) ==> NoTwoSimilar(childs)
    {
      languages := languages[lang := (if lang in languages then languages[lang] else 0) + count];
      if lang in nameToKey && nameToKey[lang] !in techs {
        out := AddTech(index, nameToKey[lang], []);
      } else {
        out := Pass;
      }
    }

    /** `detect_lang`: counts one file of the language its name shows, under the language's group if any. */
    method DetectLang(catalog: seq<Languages.LangListItem>, index: map<string, Rule>,
                      nameToKey: map<string, string>, fileName: string)
      returns (out: Outcome<string>)
      modifies this
      ensures Languages.DetectLang(catalog, fileName).None? ==> out == Pass && Value() == old(Value())
      ensures Languages.DetectLang(catalog, fileName).Some? ==>
        var lang := Languages.DetectLang(catalog, fileName).value;
        LangAdded(index, nameToKey, lang.group.GetOr(lang.name), 1, old(Value()), Value(), out)
    {
      var found := Languages.DetectLang(catalog, fileName);
      if found.Some? {
        out := AddLang(index, nameToKey, found.value.group.GetOr(found.value.name), 1);
      } else {
        out := Pass;
      }
    }

    /**
     * `combine_dependencies`, keyed on the whole triple: the dependencies
     * of both payloads, each once, in an unspecified order.
     */
    method CombineDependencies(pl: Component)
      modifies this
      ensures SetOf(dependencies) == CombinedDependencies(old(dependencies), pl.dependencies)
      ensures Distinct(dependencies)
      ensures Value() == old(Value()).(dependencies := dependencies)
    {
      var dedup: set<Dependency> := {};
      for i := 0 to |dependencies|
        invariant dedup == SetOf(dependencies[..i])
      {
        assert dependencies[..i + 1] == dependencies[..i] + [dependencies[i]];
        dedup := dedup + {dependencies[i]};
      }
      assert dependencies[..|dependencies|] == dependencies;
      for i := 0 to |pl.dependencies|
        invariant dedup == SetOf(dependencies) + SetOf(pl.dependencies[..i])
      {
        assert pl.dependencies[..i + 1] == pl.dependencies[..i] + [pl.dependencies[i]];
        dedup := dedup + {pl.dependencies[i]};
      }
      assert pl.dependencies[..|pl.dependencies|] == pl.dependencies;
      dependencies := Enumerate(dedup);
    }

    /** One turn of the language loop of `combine`: `add_lang` for the language `langs[i]`, not visited yet. */
    method AddLangTurn(index: map<string, Rule>, nameToKey: map<string, string>, counts: map<string, nat>,
                       langs: seq<string>, i: nat, ghost start: Component)
      returns (out: Outcome<string>)
      requires i < |langs| && Distinct(langs) && SetOf(langs) == counts.Keys
      requires LangsSoFar(index, nameToKey, counts, langs[..i], start, Value())
      requires TechsChecked(index, LangTechs(nameToKey, SetOf(langs[..i])) - start.techs, start.path, childs)
      modifies this
      ensures LangsSoFar(index, nameToKey, counts, langs[..i + 1], start, Value())
      ensures out == if langs[i] in nameToKey && nameToKey[langs[i]] !in old(techs) then
                       if MakesComponent(index, nameToKey[langs[i]]) && start.path == {} then Fail(UnwrapNone)
                       else FindHosting(index, childs, nameToKey[langs[i]])
                     else Pass
      ensures out.Pass? ==>
        TechsChecked(index, LangTechs(nameToKey, SetOf(langs[..i + 1])) - start.techs, start.path, childs)
      ensures out.Fail? ==> langs[i] in nameToKey && TechPanic(index, nameToKey[langs[i]], start.path, out.error)
    {
      SetOfStep(langs, i);
      ghost var before := Value();
      out := AddLang(index, nameToKey, langs[i], counts[langs[i]]);
      LangsSoFarStep(index, nameToKey, counts, langs[..i], langs[i], start, before, Value(), out);
      if out.Pass? {
        LangsCheckedStep(index, nameToKey, SetOf(langs[..i]), langs[i], counts[langs[i]], start.techs,
                         before, Value(), out);
      }
    }

    /**
     * The language loop of `combine`: `add_lang` for each language of
     * `counts`, in the map's (unspecified) order, stopping at a panic.
     */
    method AddLangs(counts: map<string, nat>, index: map<string, Rule>, nameToKey: map<string, string>)
      returns (out: Outcome<string>)
      modifies this
      ensures out.Pass? ==> languages == PartialTotal(old(languages), counts, counts.Keys)
      ensures out.Pass? ==> techs == old(techs) + LangTechs(nameToKey, counts.Keys)
      ensures out.Pass? ==>
        exists order ::
          && Distinct(order) && SetOf(order) == counts.Keys
          && ImplicitChain(index, LangSteps(nameToKey, old(techs), order), old(path), old(childs), childs)
      ensures out.Pass? ==> TechsChecked(index, LangTechs(nameToKey, counts.Keys) - old(techs), old(path), childs)
      ensures out.Fail? ==>
        exists l :: l in counts && l in nameToKey && TechPanic(index, nameToKey[l], old(path), out.error)
      ensures old(techs) <= techs && reason == old(reason)
      ensures NoTwoSimilar(old(childs)) ==> NoTwoSimilar(childs)
      ensures SameSite(old(Value()))
    {
      var langs := Enumerate(counts.Keys);
      ghost var start := Value();
      out := Pass;
      for i := 0 to |langs|
        invariant LangsSoFar(index, nameToKey, counts, langs[..i], start, Value())
        invariant TechsChecked(index, LangTechs(nameToKey, SetOf(langs[..i])) - start.techs, start.path, childs)
        invariant out.Pass?
      {
        out := AddLangTurn(index, nameToKey, counts, langs, i, start);
        if out.Fail? {
          assert langs[i] in SetOf(langs);
          return;
        }
      }
      assert langs[..|langs|] == langs;
    }

    /**
     * `combine`: takes in another payload's paths, dependencies, language
     * counts and techs (its own tech included); a language whose tech gets
     * recorded can panic.
     */
    method Combine(pl: Component, index: map<string, Rule>, nameToKey: map<string, string>)
      returns (out: Outcome<string>)
      modifies this
      ensures path == old(path) + pl.path
      ensures SetOf(dependencies) == CombinedDependencies(old(dependencies), pl.dependencies)
      ensures out.Pass? ==> languages == PartialTotal(old(languages), pl.languages, pl.languages.Keys)
      ensures out.Pass? ==>
        techs == old(techs) + LangTechs(nameToKey, pl.languages.Keys) + pl.techs
                 + (if pl.tech.Some? then {pl.tech.value} else {})
      ensures out.Pass? ==>
        exists order ::
          && Distinct(order) && SetOf(order) == pl.languages.Keys
          && ImplicitChain(index, LangSteps(nameToKey, old(techs), order), old(path) + pl.path, old(childs), childs)
      ensures out.Pass? ==>
        TechsChecked(index, LangTechs(nameToKey, pl.languages.Keys) - old(techs), old(path) + pl.path, childs)
      ensures out.Fail? ==>
        exists l :: l in pl.languages && l in nameToKey && TechPanic(index, nameToKey[l], old(path) + pl.path, out.error)
      ensures reason == old(reason)
      ensures NoTwoSimilar(old(childs)) ==> NoTwoSimilar(childs)
      ensures id == old(id) && name == old(name) && tech == old(tech)
    {
      path := path + pl.path;
      CombineDependencies(pl);
      out := AddLangs(pl.languages, index, nameToKey);
      if out.Fail? {
        return;
      }
      techs := techs + pl.techs;
      if pl.tech.Some? {
        techs := techs + {pl.tech.value};
      }
    }
  }
}

=== FILE: register.dfy ===
/**
 * What a sequence of `register` calls does to the rule catalog, as functions
 * of the technology keys registered before. The `Registry` class proves its
 * `Register` and `RegisterAll` methods against these.
 */
module Register {
  import opened Wrappers
  import opened Types

  /** The result of one `register` call when `known` keys are already registered. */
  function RegisterOutcome(known: set<string>, rule: Rule): Outcome<string> {
    if rule.tech in known then Fail("Already registered " + rule.name) else Pass
  }

  /** The rules that a sequence of `register` calls appends, in call order. */
  function Admitted(known: set<string>, rules: seq<Rule>): seq<Rule>
    decreases |rules|
  {
    if rules == [] then []
    else
      var prev := Admitted(known, rules[..|rules| - 1]);
      var rule := rules[|rules| - 1];
      if rule.tech in known + TechsOf(prev) then prev else prev + [rule]
  }

  /** The result of each `register` call of the sequence, in call order. */
  function Outcomes(known: set<string>, rules: seq<Rule>): seq<Outcome<string>>
    decreases |rules|
  {
    if rules == [] then []
    else
      var prefix := rules[..|rules| - 1];
      Outcomes(known, prefix)
        + [RegisterOutcome(known + TechsOf(Admitted(known, prefix)), rules[|rules| - 1])]
  }

  /** `for result in results { result?; } Ok(())`: the first failure, if any. */
  function FirstFailure(results: seq<Outcome<string>>): (r: Outcome<string>)
    ensures r.Pass? <==> forall i :: 0 <= i < |results| ==> results[i].Pass?
    ensures r.Fail? ==> exists i :: 0 <= i < |results| && results[i] == r
                          && forall j :: 0 <= j < i ==> results[j].Pass?
  {
    if results == [] then Pass
    else if results[0].Fail? then results[0]
    else
      var r := FirstFailure(results[1..]);
      assert forall i :: 1 <= i < |results| ==> results[i] == results[1..][i - 1];
      r
  }

  /** The technology keys of the rules form a sequence without repetition. */
  ghost predicate DistinctTechs(rules: seq<Rule>) {
    forall i, j :: 0 <= i < j < |rules| ==> rules[i].tech != rules[j].tech
  }

  lemma TechsOfSnoc(rules: seq<Rule>, rule: Rule)
    ensures TechsOf(rules + [rule]) == TechsOf(rules) + {rule.tech}
  {
    assert forall r :: r in rules + [rule] <==> r in rules || r == rule;
  }

  /**
   * Registration admits no key twice and no key known before, and together
   * with the known keys the admitted rules cover every key of the sequence.
   */
  lemma {:induction false} AdmittedKeys(known: set<string>, rules: seq<Rule>)
    ensures DistinctTechs(Admitted(known, rules))
    ensures TechsOf(Admitted(known, rules)) !! known
    ensures known + TechsOf(Admitted(known, rules)) == known + TechsOf(rules)
    decreases |rules|
  {
    if rules != [] {
      var prefix := rules[..|rules| - 1];
      var rule := rules[|rules| - 1];
      AdmittedKeys(known, prefix);
      var prev := Admitted(known, prefix);
      assert rules == prefix + [rule];
      TechsOfSnoc(prefix, rule);
      if rule.tech !in known + TechsOf(prev) {
        var a := prev + [rule];
        TechsOfSnoc(prev, rule);
        forall i, j | 0 <= i < j < |a| ensures a[i].tech != a[j].tech {
          if j == |prev| {
            assert a[i] == prev[i] && prev[i] in prev;
          } else {
            assert a[i] == prev[i] && a[j] == prev[j];
          }
        }
      }
    }
  }

  /** `rule` occurs in `rules`, and no rule before it there has its key. */
  ghost predicate FirstOfItsTech(rules: seq<Rule>, rule: Rule) {
    exists i :: 0 <= i < |rules| && rules[i] == rule && forall j :: 0 <= j < i ==> rules[j].tech != rule.tech
  }

  /** Registration keeps the first rule for each key: each admitted rule is the first of the sequence with its key. */
  lemma {:induction false} AdmittedFirstWins(known: set<string>, rules: seq<Rule>)
    ensures forall k :: 0 <= k < |Admitted(known, rules)| ==> FirstOfItsTech(rules, Admitted(known, rules)[k])
    decreases |rules|
  {
    if rules != [] {
      var prefix := rules[..|rules| - 1];
      var rule := rules[|rules| - 1];
      AdmittedFirstWins(known, prefix);
      var prev := Admitted(known, prefix);
      var a := Admitted(known, rules);
      forall k | 0 <= k < |a| ensures FirstOfItsTech(rules, a[k]) {
        if k < |prev| {
          assert a[k] == prev[k] && FirstOfItsTech(prefix, prev[k]);
          FirstInPrefix(rules, prefix, prev[k]);
        } else {
          AdmittedKeys(known, prefix);
          assert a[k] == rule && rule.tech !in TechsOf(prefix);
          LastIsFirst(rules, prefix);
        }
      }
    }
  }

  lemma FirstInPrefix(rules: seq<Rule>, prefix: seq<Rule>, rule: Rule)
    requires |prefix| <= |rules| && prefix == rules[..|prefix|] && FirstOfItsTech(prefix, rule)
    ensures FirstOfItsTech(rules, rule)
  {
    var i :| 0 <= i < |prefix| && prefix[i] == rule && forall j :: 0 <= j < i ==> prefix[j].tech != rule.tech;
    assert rules[i] == rule;
    forall j | 0 <= j < i ensures rules[j].tech != rule.tech {
      assert rules[j] == prefix[j];
    }
  }

  lemma LastIsFirst(rules: seq<Rule>, prefix: seq<Rule>)
    requires rules != [] && prefix == rules[..|rules| - 1] && rules[|rules| - 1].tech !in TechsOf(prefix)
    ensures FirstOfItsTech(rules, rules[|rules| - 1])
  {
    forall j | 0 <= j < |rules| - 1 ensures rules[j].tech != rules[|rules| - 1].tech {
      assert rules[j] == prefix[j] && prefix[j] in prefix;
    }
  }

  /** The outcome of each call is failure exactly when its key was registered already. */
  lemma {:induction false} OutcomesAt(known: set<string>, rules: seq<Rule>, i: nat)
    requires i < |rules|
    ensures |Outcomes(known, rules)| == |rules|
    ensures Outcomes(known, rules)[i].Pass?
      <==> rules[i].tech !in known && forall j :: 0 <= j < i ==> rules[j].tech != rules[i].tech
    decreases |rules|
  {
    var prefix := rules[..|rules| - 1];
    if i < |rules| - 1 {
      OutcomesAt(known, prefix, i);
      assert Outcomes(known, rules)[i] == Outcomes(known, prefix)[i];
      assert forall j :: 0 <= j < i ==> rules[j] == prefix[j];
    } else {
      if prefix != [] {
        OutcomesAt(known, prefix, 0);
      }
      AdmittedKeys(known, prefix);
      var prev := Admitted(known, prefix);
      assert known + TechsOf(prev) == known + TechsOf(prefix);
      assert rules[i].tech in TechsOf(prefix) <==> exists j :: 0 <= j < i && rules[j].tech == rules[i].tech by {
        if rules[i].tech in TechsOf(prefix) {
          var r :| r in prefix && r.tech == rules[i].tech;
          var j :| 0 <= j < |prefix| && prefix[j] == r;
          assert rules[j] == r;
        }
        forall j | 0 <= j < i ensures rules[j] in prefix {
          assert rules[j] == prefix[j];
        }
      }
    }
  }

  /**
   * `register_all` succeeds exactly when no two rules share a key and none is
   * registered already; then every rule is appended, in order.
   */
  lemma RegisterAllSucceedsIff(known: set<string>, rules: seq<Rule>)
    ensures FirstFailure(Outcomes(known, rules)).Pass?
      <==> DistinctTechs(rules) && TechsOf(rules) !! known
    ensures DistinctTechs(rules) && TechsOf(rules) !! known ==> Admitted(known, rules) == rules
  {
    var outs := Outcomes(known, rules);
    if rules != [] {
      OutcomesAt(known, rules, 0);
    }
    if FirstFailure(outs).Pass? {
      forall i, j | 0 <= i < j < |rules| ensures rules[i].tech != rules[j].tech {
        OutcomesAt(known, rules, j);
      }
      forall r | r in rules ensures r.tech !in known {
        var i :| 0 <= i < |rules| && rules[i] == r;
        OutcomesAt(known, rules, i);
      }
    }
    if DistinctTechs(rules) && TechsOf(rules) !! known {
      forall i | 0 <= i < |outs| ensures outs[i].Pass? {
        OutcomesAt(known, rules, i);
        assert rules[i] in rules;
      }
      AdmittedAll(known, rules);
    }
  }

  lemma {:induction false} AdmittedAll(known: set<string>, rules: seq<Rule>)
    requires DistinctTechs(rules) && TechsOf(rules) !! known
    ensures Admitted(known, rules) == rules
    decreases |rules|
  {
    if rules != [] {
      var prefix := rules[..|rules| - 1];
      var rule := rules[|rules| - 1];
      assert rules == prefix + [rule];
      TechsOfSnoc(prefix, rule);
      assert DistinctTechs(prefix) by {
        forall i, j | 0 <= i < j < |prefix| ensures prefix[i].tech != prefix[j].tech {
          assert prefix[i] == rules[i] && prefix[j] == rules[j];
        }
      }
      AdmittedAll(known, prefix);
      assert rule.tech !in TechsOf(prefix) by {
        forall r | r in prefix ensures r.tech != rule.tech {
          var j :| 0 <= j < |prefix| && prefix[j] == r;
          assert rules[j] == r;
        }
      }
    }
  }
}

/**
 * The process-wide registration state of `register.rs`: `REGISTERED_TECH`,
 * `REGISTERED_RULES`, `LIST_INDEXED` and `NAME_TO_KEY`.
 */
module Registry {
  import opened Wrappers
  import opened Types
  import opened Register

  /** Each name maps to the key of a registered rule with that name, and every registered name is mapped. */
  ghost predicate NamesAgree(rules: seq<Rule>, nameToKey: map<string, string>) {
    && (forall n :: n in nameToKey ==>
          exists i :: 0 <= i < |rules| && rules[i].name == n && nameToKey[n] == rules[i].tech)
    && (forall i :: 0 <= i < |rules| ==> rules[i].name in nameToKey)
  }

  /** The index maps the key of each registered rule to that rule. */
  ghost predicate IndexAgrees(rules: seq<Rule>, listIndexed: map<string, Rule>) {
    forall i :: 0 <= i < |rules| ==> rules[i].tech in listIndexed && listIndexed[rules[i].tech] == rules[i]
  }

  /**
   * The four tables agree: the registered keys are exactly the keys of the
   * registered rules and of the index, no key is registered twice, the
   * index maps each key to its rule, and each name maps to the key of a
   * registered rule with that name.
   */
  ghost predicate Consistent(tech: set<string>, rules: seq<Rule>, listIndexed: map<string, Rule>,
                             nameToKey: map<string, string>) {
    && tech == listIndexed.Keys == TechsOf(rules)
    && DistinctTechs(rules)
    && IndexAgrees(rules, listIndexed)
    && NamesAgree(rules, nameToKey)
  }

  /** Registering a rule with a new key keeps the tables consistent. */
  lemma RegisterKeepsConsistent(tech: set<string>, rules: seq<Rule>, listIndexed: map<string, Rule>,
                                nameToKey: map<string, string>, rule: Rule)
    requires Consistent(tech, rules, listIndexed, nameToKey)
    requires rule.tech !in tech
    ensures Consistent(tech + {rule.tech}, rules + [rule], listIndexed[rule.tech := rule],
                       nameToKey[rule.name := rule.tech])
  {
    TechsOfSnoc(rules, rule);
    forall i | 0 <= i < |rules| ensures rules[i].tech != rule.tech {
      assert rules[i] in rules;
    }
    DistinctTechsSnoc(rules, rule);
    IndexAgreesSnoc(rules, listIndexed, rule);
    NamesAgreeSnoc(rules, nameToKey, rule);
  }

  lemma DistinctTechsSnoc(rules: seq<Rule>, rule: Rule)
    requires DistinctTechs(rules)
    requires forall i :: 0 <= i < |rules| ==> rules[i].tech != rule.tech
    ensures DistinctTechs(rules + [rule])
  {
    var rules' := rules + [rule];
    forall i, j | 0 <= i < j < |rules'| ensures rules'[i].tech != rules'[j].tech {
      assert rules'[i] == rules[i];
      if j < |rules| {
        assert rules'[j] == rules[j];
      }
    }
  }

  lemma IndexAgreesSnoc(rules: seq<Rule>, listIndexed: map<string, Rule>, rule: Rule)
    requires IndexAgrees(rules, listIndexed)
    requires forall i :: 0 <= i < |rules| ==> rules[i].tech != rule.tech
    ensures IndexAgrees(rules + [rule], listIndexed[rule.tech := rule])
  {
    var rules' := rules + [rule];
    forall i | 0 <= i < |rules'|
      ensures rules'[i].tech in listIndexed[rule.tech := rule]
           && listIndexed[rule.tech := rule][rules'[i].tech] == rules'[i]
    {
      if i < |rules| {
        assert rules'[i] == rules[i];
      }
    }
  }

  lemma NamesAgreeSnoc(rules: seq<Rule>, nameToKey: map<string, string>, rule: Rule)
    requires NamesAgree(rules, nameToKey)
    ensures NamesAgree(rules + [rule], nameToKey[rule.name := rule.tech])
  {
    var rules' := rules + [rule];
    var names' := nameToKey[rule.name := rule.tech];
    forall n | n in names'
      ensures exists i :: 0 <= i < |rules'| && rules'[i].name == n && names'[n] == rules'[i].tech
    {
      if n == rule.name {
        assert rules'[|rules|] == rule;
      } else {
        var i :| 0 <= i < |rules| && rules[i].name == n && nameToKey[n] == rules[i].tech;
        assert rules'[i] == rules[i];
      }
    }
    forall i | 0 <= i < |rules'| ensures rules'[i].name in names' {
      if i < |rules| {
        assert rules'[i] == rules[i];
      }
    }
  }

  lemma AppendAssoc(a: seq<Rule>, b: seq<Rule>, x: Rule)
    ensures (a + b) + [x] == a + (b + [x])
  {
  }

  /** One more `register` call of a sequence, unfolded. */
  lemma AdmittedStep(known: set<string>, rules: seq<Rule>, i: nat)
    requires i < |rules|
    ensures var prev := Admitted(known, rules[..i]);
      && Admitted(known, rules[..i + 1])
           == (if rules[i].tech in known + TechsOf(prev) then prev else prev + [rules[i]])
      && Outcomes(known, rules[..i + 1])
           == Outcomes(known, rules[..i]) + [RegisterOutcome(known + TechsOf(prev), rules[i])]
  {
    assert rules[..i + 1][..i] == rules[..i];
  }

  /** One call of the loop of `register_all`, in terms of the rules admitted before it. */
  lemma RegisterAllStep(known: set<string>, before: seq<Rule>, rules: seq<Rule>, i: nat, admitted: seq<Rule>)
    requires i < |rules| && admitted == Admitted(known, rules[..i])
    ensures var out := RegisterOutcome(known + TechsOf(admitted), rules[i]);
      && Outcomes(known, rules[..i + 1]) == Outcomes(known, rules[..i]) + [out]
      && (out.Fail? ==> Admitted(known, rules[..i + 1]) == admitted)
      && (out.Pass? ==>
            && Admitted(known, rules[..i + 1]) == admitted + [rules[i]]
            && known + TechsOf(admitted) + {rules[i].tech} == known + TechsOf(admitted + [rules[i]])
            && before + admitted + [rules[i]] == before + (admitted + [rules[i]]))
  {
    AdmittedStep(known, rules, i);
    TechsOfSnoc(admitted, rules[i]);
    AppendAssoc(before, admitted, rules[i]);
  }

  /** The loop `for result in results { result?; }`: returns the first failure, if any. */
  method FirstFailureOf(results: seq<Outcome<string>>) returns (r: Outcome<string>)
    ensures r == FirstFailure(results)
  {
    var j := 0;
    while j < |results|
      invariant 0 <= j <= |results|
      invariant FirstFailure(results) == FirstFailure(results[j..])
    {
      if results[j].Fail? {
        return results[j];
      }
      assert results[j..][1..] == results[j + 1..];
      j := j + 1;
    }
    return Pass;
  }

  /**
   * The name map after each rule of `rules` in turn maps its name to its
   * key: a later rule of the same name overwrites an earlier one.
   */
  function NamesAfter(names: map<string, string>, rules: seq<Rule>): map<string, string>
    decreases |rules|
  {
    if rules == [] then names
    else NamesAfter(names, rules[..|rules| - 1])[rules[|rules| - 1].name := rules[|rules| - 1].tech]
  }

  lemma NamesAfterSnoc(names: map<string, string>, rules: seq<Rule>, rule: Rule)
    ensures NamesAfter(names, rules + [rule]) == NamesAfter(names, rules)[rule.name := rule.tech]
  {
    assert (rules + [rule])[..|rules|] == rules;
  }

  /**
   * Last wins: the names mapped after `rules` are the old ones and those of
   * the rules; a name maps to the key of the last rule carrying it, and a
   * name no rule carries keeps its old key.
   */
  lemma {:induction false} NamesAfterLastWins(names: map<string, string>, rules: seq<Rule>)
    ensures forall n :: n in NamesAfter(names, rules) <==>
      n in names || exists i :: 0 <= i < |rules| && rules[i].name == n
    ensures forall i :: 0 <= i < |rules| && (forall j :: i < j < |rules| ==> rules[j].name != rules[i].name) ==>
      NamesAfter(names, rules)[rules[i].name] == rules[i].tech
    ensures forall n :: n in names && (forall i :: 0 <= i < |rules| ==> rules[i].name != n) ==>
      NamesAfter(names, rules)[n] == names[n]
    decreases |rules|
  {
    if rules != [] {
      var prev := rules[..|rules| - 1];
      NamesAfterLastWins(names, prev);
      forall n ensures n in NamesAfter(names, rules) <==> n in names || exists i :: 0 <= i < |rules| && rules[i].name == n {
        if exists i :: 0 <= i < |rules| && rules[i].name == n {
          var i :| 0 <= i < |rules| && rules[i].name == n;
          if i < |prev| {
            assert prev[i].name == n;
          }
        }
      }
      forall i | 0 <= i < |rules| && (forall j :: i < j < |rules| ==> rules[j].name != rules[i].name)
        ensures NamesAfter(names, rules)[rules[i].name] == rules[i].tech
      {
        if i < |prev| {
          assert prev[i] == rules[i];
          assert forall j :: i < j < |prev| ==> prev[j].name != prev[i].name;
        }
      }
      forall n | n in names && (forall i :: 0 <= i < |rules| ==> rules[i].name != n)
        ensures NamesAfter(names, rules)[n] == names[n]
      {
        assert forall i :: 0 <= i < |prev| ==> prev[i].name != n;
      }
    }
  }

  /** Every indexed rule of consistent tables is stored under its own key. */
  lemma IndexedUnderOwnKey(tech: set<string>, rules: seq<Rule>, listIndexed: map<string, Rule>,
                           nameToKey: map<string, string>)
    requires Consistent(tech, rules, listIndexed, nameToKey)
    ensures forall k :: k in listIndexed ==> listIndexed[k].tech == k
  {
    forall k | k in listIndexed ensures listIndexed[k].tech == k {
      assert k in TechsOf(rules);
      var r :| r in rules && r.tech == k;
      var i :| 0 <= i < |rules| && rules[i] == r;
    }
  }

  class Registry {
    var registeredTech: set<string>
    var registeredRules: seq<Rule>
    var listIndexed: map<string, Rule>
    var nameToKey: map<string, string>

    ghost predicate Valid()
      reads this
    {
      Consistent(registeredTech, registeredRules, listIndexed, nameToKey)
    }

    constructor ()
      ensures Valid()
      ensures registeredTech == {} && registeredRules == [] && listIndexed == map[] && nameToKey == map[]
    {
      registeredTech := {};
      registeredRules := [];
      listIndexed := map[];
      nameToKey := map[];
    }

    /**
     * `register`: fails when the rule's key is registered already and then
     * changes nothing; otherwise appends the rule, indexes it under its key
     * and maps its name to its key.
     */
    method Register(rule: Rule) returns (r: Outcome<string>)
      requires Valid()
      modifies this
      ensures Valid()
      ensures r == RegisterOutcome(old(registeredTech), rule)
      ensures r.Fail? ==> unchanged(this)
      ensures r.Pass? ==>
        && registeredTech == old(registeredTech) + {rule.tech}
        && registeredRules == old(registeredRules) + [rule]
        && listIndexed == old(listIndexed)[rule.tech := rule]
        && nameToKey == old(nameToKey)[rule.name := rule.tech]
    {
      if rule.tech in registeredTech {
        return Fail("Already registered " + rule.name);
      }
      RegisterKeepsConsistent(registeredTech, registeredRules, listIndexed, nameToKey, rule);
      registeredTech := registeredTech + {rule.tech};
      registeredRules := registeredRules + [rule];
      listIndexed := listIndexed[rule.tech := rule];
      nameToKey := nameToKey[rule.name := rule.tech];
      return Pass;
    }

    /**
     * `register_all`: registers every rule in order (a failing registration
     * does not stop the later ones), then reports the first failure.
     */
    method RegisterAll(rules: seq<Rule>) returns (r: Outcome<string>)
      requires Valid()
      modifies this
      ensures Valid()
      ensures registeredRules == old(registeredRules) + Admitted(old(registeredTech), rules)
      ensures registeredTech == old(registeredTech) + TechsOf(Admitted(old(registeredTech), rules))
      ensures nameToKey == NamesAfter(old(nameToKey), Admitted(old(registeredTech), rules))
      ensures r == FirstFailure(Outcomes(old(registeredTech), rules))
    {
      ghost var known := registeredTech;
      ghost var before := registeredRules;
      ghost var names := nameToKey;
      ghost var admitted: seq<Rule> := [];
      var results: seq<Outcome<string>> := [];
      for i := 0 to |rules|
        invariant Valid()
        invariant registeredRules == before + admitted
        invariant registeredTech == known + TechsOf(admitted)
        invariant nameToKey == NamesAfter(names, admitted)
        invariant admitted == Admitted(known, rules[..i])
        invariant results == Outcomes(known, rules[..i])
      {
        RegisterAllStep(known, before, rules, i, admitted);
        var out := Register(rules[i]);
        if out.Pass? {
          NamesAfterSnoc(names, admitted, rules[i]);
          admitted := admitted + [rules[i]];
        }
        results := results + [out];
      }
      assert rules[..|rules|] == rules;
      r := FirstFailureOf(results);
    }
  }
}

=== FILE: rust_component.dfy ===
/**
 * `detect_rust_component`: the component a `Cargo.toml` describes. Reading
 * the file is the provider's `open`, given as a function; parsing the TOML
 * is the function `parse`, which yields the manifest record or nothing.
 */
module RustComponent {
  import opened Wrappers
  import opened Types
  import opened Strings
  import opened Loader
  import opened MatchDependencies
  import opened Payloads
  import opened Detection

  /** A dependency as written in a manifest: a bare version, or a table. */
  datatype CargoDependency =
    | Simple(requirement: string)
    | Detailed(version: Option<string>, path: Option<string>, git: Option<string>, branch: Option<string>,
               rev: Option<string>)

  datatype Workspace = Workspace(dependencies: Option<map<string, CargoDependency>>)

  /** The parts of a `Cargo.toml` the detector reads; `package` is the package name. */
  datatype CargoToml = CargoToml(
    package: Option<string>,
    dependencies: Option<map<string, CargoDependency>>,
    devDependencies: Option<map<string, CargoDependency>>,
    buildDependencies: Option<map<string, CargoDependency>>,
    workspace: Option<Workspace>)

  /** The only file name the detector reads. */
  const ManifestName: string := "Cargo.toml"

  /**
   * The version recorded for a dependency: a bare version as is; for a
   * table, a local path (with its version, if any), else a git source with
   * its branch, else its revision, else `latest`, else the version, else
   * `latest`.
   */
  function Locator(d: CargoDependency): string {
    match d
    case Simple(requirement) => requirement
    case Detailed(version, path, git, branch, rev) =>
      if path.Some? then
        "path:" + path.value + (if version.Some? then ":" + version.value else "")
      else if git.Some? then
        "git:" + git.value + "#" + (if branch.Some? then branch.value else if rev.Some? then rev.value else "latest")
      else if version.Some? then version.value
      else "latest"
  }

  /**
   * The precedences of the locator: a path hides any git source, a branch
   * hides any revision, and a git source hides the version.
   */
  lemma LocatorPrecedence(d: CargoDependency)
    requires d.Detailed?
    ensures d.path.Some? ==> Locator(d) == Locator(d.(git := None, branch := None, rev := None))
    ensures d.path.None? && d.git.Some? && d.branch.Some? ==> Locator(d) == Locator(d.(rev := None, version := None))
    ensures d.path.None? && d.git.Some? ==> Locator(d) == Locator(d.(version := None))
    ensures d.path.Some? ==> StartsWith(Locator(d), "path:")
    ensures d.path.None? && d.git.Some? ==> StartsWith(Locator(d), "git:")
  {
  }

  /** The version forms of the manifest of `test_detect_rust_component` and what each records. */
  lemma LocatorVersionFixtures()
    ensures Locator(Simple("1.0")) == "1.0"
    ensures Locator(Detailed(Some("1.0"), None, None, None, None)) == "1.0"
    ensures Locator(Detailed(None, None, None, None, None)) == "latest"
  {
  }

  /** The git dependency of the manifest of `test_detect_rust_component` records its repository and branch. */
  lemma LocatorGitFixture()
    ensures Locator(Detailed(None, None, Some("https://github.com/tokio-rs/axum"), Some("main"), None))
         == "git:https://github.com/tokio-rs/axum#main"
  {
    var d := Detailed(None, None, Some("https://github.com/tokio-rs/axum"), Some("main"), None);
    assert Locator(d) == "git:" + "https://github.com/tokio-rs/axum" + "#" + "main";
  }

  /** The path dependency of the manifest of `test_detect_rust_component` records its path, without a version. */
  lemma LocatorPathFixture()
    ensures Locator(Detailed(None, Some("../local_dep"), None, None, None)) == "path:../local_dep"
  {
    assert "../local_dep" + "" == "../local_dep";
  }

  /** A section that may be absent, as a map. */
  function Section(s: Option<map<string, CargoDependency>>): map<string, CargoDependency> {
    if s.Some? then s.value else map[]
  }

  /**
   * All dependencies of the manifest: those of `dependencies`,
   * `dev-dependencies`, `build-dependencies` and `workspace.dependencies`,
   * a later section overriding an earlier one for the same name.
   */
  function AllDependencies(toml: CargoToml): map<string, CargoDependency> {
    var workspace := if toml.workspace.Some? then toml.workspace.value.dependencies else None;
    Extend(Extend(Extend(Extend(map[], toml.dependencies), toml.devDependencies), toml.buildDependencies), workspace)
  }

  /** `extend` with a section that may be absent. */
  function Extend(deps: map<string, CargoDependency>, s: Option<map<string, CargoDependency>>)
    : map<string, CargoDependency>
  {
    if s.Some? then deps + s.value else deps
  }

  /** The union of the sections, each name taking the entry of the last section that has it. */
  lemma AllDependenciesUnion(toml: CargoToml, n: string)
    ensures var all := AllDependencies(toml);
      var workspace := if toml.workspace.Some? then Section(toml.workspace.value.dependencies) else map[];
      && (n in all <==>
            n in Section(toml.dependencies) || n in Section(toml.devDependencies)
            || n in Section(toml.buildDependencies) || n in workspace)
      && (n in workspace ==> all[n] == workspace[n])
      && (n !in workspace && n in Section(toml.buildDependencies) ==> all[n] == Section(toml.buildDependencies)[n])
      && ((n !in workspace && n !in Section(toml.buildDependencies) && n in Section(toml.devDependencies))
            ==> all[n] == Section(toml.devDependencies)[n])
      && ((n !in workspace && n !in Section(toml.buildDependencies) && n !in Section(toml.devDependencies)
           && n in Section(toml.dependencies)) ==> all[n] == Section(toml.dependencies)[n])
  {
  }

  /** The version string recorded for each dependency name. */
  function Versions(deps: map<string, CargoDependency>): (r: map<string, string>)
    ensures r.Keys == deps.Keys
  {
    map n | n in deps :: Locator(deps[n])
  }

  /** The manifest a file yields: only `Cargo.toml` files that open and parse. */
  function ManifestOf(f: ProviderFile, open: string -> Option<string>, parse: string -> Option<CargoToml>)
    : Option<CargoToml>
  {
    if f.name != ManifestName then None
    else match open(f.fp)
      case None => None
      case Some(content) => parse(content)
  }

  /** The first file at or after `i` that yields a manifest. */
  function FirstManifest(files: seq<ProviderFile>, open: string -> Option<string>,
                         parse: string -> Option<CargoToml>, i: nat): (r: Option<nat>)
    requires i <= |files|
    ensures r.None? <==> forall k :: i <= k < |files| ==> ManifestOf(files[k], open, parse).None?
    ensures r.Some? ==>
      && i <= r.value < |files|
      && ManifestOf(files[r.value], open, parse).Some?
      && forall k :: i <= k < r.value ==> ManifestOf(files[k], open, parse).None?
    decreases |files| - i
  {
    if i == |files| then None
    else if ManifestOf(files[i], open, parse).Some? then Some(i)
    else FirstManifest(files, open, parse, i + 1)
  }

  /**
   * The component a manifest found at `fp` describes: named after the
   * package (else `virtual`), found at `fp`, crediting every technology its
   * dependency names give evidence of with its `"matched: "` reason, with
   * the implicit components of those technologies as children in some
   * visiting order, and one `("rust", name, locator)` triple per dependency.
   */
  ghost predicate Describes(c: Component, fp: string, toml: CargoToml, table: map<string, seq<DependencyMatcher>>,
                            index: map<string, Rule>, engine: RegexEngine)
  {
    var deps := AllDependencies(toml);
    && c.name == (if toml.package.Some? then toml.package.value else "virtual")
    && c.id == c.name
    && c.path == {fp}
    && c.tech == None
    && c.languages == map[]
    && c.techs == Evidenced(table, deps.Keys, "rust", engine)
    && OneTriplePerName(c.dependencies, "rust", Versions(deps))
    && c.reason == MatchedReasons(c.techs)
    && TechsChecked(index, c.techs, {fp}, c.childs)
    && exists order ::
         && Distinct(order) && SetOf(order) == c.techs
         && ImplicitChain(index, MatchedSteps(order), {fp}, [], c.childs)
  }

  /** The dependency sections extended into one map, section by section. */
  method CollectDependencies(toml: CargoToml) returns (deps: map<string, CargoDependency>)
    ensures deps == AllDependencies(toml)
  {
    deps := map[];
    if toml.dependencies.Some? {
      deps := deps + toml.dependencies.value;
    }
    assert deps == Extend(map[], toml.dependencies);
    if toml.devDependencies.Some? {
      deps := deps + toml.devDependencies.value;
    }
    assert deps == Extend(Extend(map[], toml.dependencies), toml.devDependencies);
    if toml.buildDependencies.Some? {
      deps := deps + toml.buildDependencies.value;
    }
    if toml.workspace.Some? && toml.workspace.value.dependencies.Some? {
      deps := deps + toml.workspace.value.dependencies.value;
    }
  }

  /** The body of the detector for the manifest `toml` found at `fp`. */
  method RustPayload(fp: string, toml: CargoToml, table: map<string, seq<DependencyMatcher>>,
                     index: map<string, Rule>, engine: RegexEngine)
    returns (out: Detected)
    ensures !out.NoComponent?
    ensures out.Found? ==> Describes(out.component, fp, toml, table, index, engine)
    ensures out.Panicked? ==> HostingPanic(index, Evidenced(table, AllDependencies(toml).Keys, "rust", engine), out.message)
  {
    var deps := CollectDependencies(toml);
    var names := Enumerate(deps.Keys);
    var techs := MatchNames(table, names, "rust", engine);
    assert SetOf(names) == deps.Keys;
    var versions := Versions(deps);
    var flat := Triples("rust", names, versions);
    TriplesOfEnumeration("rust", names, versions);
    out := BuildPayload(if toml.package.Some? then toml.package.value else "virtual", fp, index, techs, flat);
    if out.Found? {
      SingleReasonsFor(techs);
      MatchedChain(index, techs, {fp}, [], out.component.childs);
    }
  }

  /**
   * `detect_rust_component`: the component of the first `Cargo.toml` that
   * opens and parses; `NoComponent` when there is none.
   */
  method DetectRustComponent(files: seq<ProviderFile>, open: string -> Option<string>,
                             parse: string -> Option<CargoToml>, table: map<string, seq<DependencyMatcher>>,
                             index: map<string, Rule>, engine: RegexEngine)
    returns (out: Detected)
    ensures out.NoComponent? <==> FirstManifest(files, open, parse, 0).None?
    ensures out.Found? ==>
      var k := FirstManifest(files, open, parse, 0).value;
      Describes(out.component, files[k].fp, ManifestOf(files[k], open, parse).value, table, index, engine)
    ensures out.Panicked? ==>
      var k := FirstManifest(files, open, parse, 0).value;
      HostingPanic(index, Evidenced(table, AllDependencies(ManifestOf(files[k], open, parse).value).Keys, "rust", engine),
                   out.message)
  {
    for i := 0 to |files|
      invariant FirstManifest(files, open, parse, 0) == FirstManifest(files, open, parse, i)
    {
      if files[i].name != ManifestName {
        continue;
      }
      var content := open(files[i].fp);
      if content.None? {
        continue;
      }
      var toml := parse(content.value);
      if toml.None? {
        continue;
      }
      out := RustPayload(files[i].fp, toml.value, table, index, engine);
      return;
    }
    out := NoComponent;
  }
}

=== FILE: strings.dfy ===
/**
 * The few string operations of Rust's `str` and `std::path` that the engine
 * relies on, written out over `seq<char>`.
 */
module Strings {
  import opened Wrappers

  predicate StartsWith(s: string, prefix: string) {
    |prefix| <= |s| && s[..|prefix|] == prefix
  }

  predicate EndsWith(s: string, suffix: string) {
    |suffix| <= |s| && s[|s| - |suffix|..] == suffix
  }

  /** `p` occurs somewhere in `s`. */
  predicate Occurs(s: string, p: string) {
    exists i :: 0 <= i <= |s| - |p| && StartsWith(s[i..], p)
  }

  /** Index of the first `c` in `s` (`str::find`). */
  function IndexOf(s: string, c: char): (r: Option<nat>)
    ensures r.Some? ==> r.value < |s| && s[r.value] == c && c !in s[..r.value]
    ensures r.None? ==> c !in s
  {
    if s == [] then None
    else if s[0] == c then Some(0)
    else
      match IndexOf(s[1..], c)
      case None => None
      case Some(i) => Some(i + 1)
  }

  /** Index of the last `c` in `s` (`str::rfind`). */
  function LastIndexOf(s: string, c: char): (r: Option<nat>)
    ensures r.Some? ==> r.value < |s| && s[r.value] == c && c !in s[r.value + 1..]
    ensures r.None? ==> c !in s
  {
    if s == [] then None
    else if s[|s| - 1] == c then Some(|s| - 1)
    else LastIndexOf(s[..|s| - 1], c)
  }

  /**
   * `Path::new(file_name).extension()` for a bare file name: the text after
   * the last dot, unless there is no dot, the only dot is the leading one of
   * a hidden file (".nvmrc"), or the name is "..".
   */
  function Extension(fileName: string): (r: Option<string>)
    ensures r.Some? <==> fileName != ".." && exists i :: 0 < i < |fileName| && fileName[i] == '.'
    ensures r.Some? ==> '.' !in r.value && |r.value| < |fileName|
    ensures r.Some? ==> fileName[|fileName| - |r.value| - 1] == '.' && EndsWith(fileName, r.value)
  {
    if fileName == ".." then None
    else
      match LastIndexOf(fileName, '.')
      case None => None
      case Some(i) => if i == 0 then None else Some(fileName[i + 1..])
  }

  /** `s.replace(p, "")`: deletes every non-overlapping occurrence of `p`, scanning from the left. */
  function DeleteAll(s: string, p: string): string
    decreases |s|
  {
    if p == [] || |s| < |p| then s
    else if StartsWith(s, p) then DeleteAll(s[|p|..], p)
    else [s[0]] + DeleteAll(s[1..], p)
  }

  /** Deleting never lengthens, and changes the text exactly when `p` occurs in it. */
  lemma {:induction false} DeleteAllChanges(s: string, p: string)
    ensures |DeleteAll(s, p)| <= |s|
    ensures p != [] ==> (DeleteAll(s, p) == s <==> !Occurs(s, p))
    decreases |s|
  {
    if p == [] || |s| < |p| {
    } else if StartsWith(s, p) {
      DeleteAllChanges(s[|p|..], p);
      assert s[0..] == s;
    } else {
      DeleteAllChanges(s[1..], p);
      OccursInTail(s, p);
      assert DeleteAll(s, p) == [s[0]] + DeleteAll(s[1..], p);
      assert s == [s[0]] + s[1..];
    }
  }

  /** When `p` does not start `s`, it occurs in `s` exactly when it occurs after the first character. */
  lemma OccursInTail(s: string, p: string)
    requires |s| >= |p| && s != [] && !StartsWith(s, p)
    ensures Occurs(s, p) <==> Occurs(s[1..], p)
  {
    if Occurs(s, p) {
      var i :| 0 <= i <= |s| - |p| && StartsWith(s[i..], p);
      assert i != 0 by {
        assert s[0..] == s;
      }
      assert s[1..][i - 1..] == s[i..];
    }
    if Occurs(s[1..], p) {
      var i :| 0 <= i <= |s[1..]| - |p| && StartsWith(s[1..][i..], p);
      assert s[1..][i..] == s[i + 1..];
    }
  }

  /** The parts joined back with `c` between them (`parts.join(c)`). */
  function JoinWith(parts: seq<string>, c: char): string
    requires |parts| >= 1
  {
    if |parts| == 1 then parts[0] else parts[0] + [c] + JoinWith(parts[1..], c)
  }

  /** `s.split(c)`: always at least one part, none containing `c`, joining back to `s`. */
  function Split(s: string, c: char): (r: seq<string>)
    ensures |r| >= 1
    ensures forall i :: 0 <= i < |r| ==> c !in r[i]
    ensures JoinWith(r, c) == s
    decreases |s|
  {
    match IndexOf(s, c)
    case None => [s]
    case Some(i) =>
      var rest := Split(s[i + 1..], c);
      assert s == s[..i] + [c] + s[i + 1..];
      [s[..i]] + rest
  }

  /** The other direction of the round trip: splitting a join gives the parts back. */
  lemma {:induction false} SplitJoin(parts: seq<string>, c: char)
    requires |parts| >= 1
    requires forall i :: 0 <= i < |parts| ==> c !in parts[i]
    ensures Split(JoinWith(parts, c), c) == parts
  {
    if |parts| > 1 {
      var s := JoinWith(parts, c);
      assert s == parts[0] + [c] + JoinWith(parts[1..], c);
      assert s[..|parts[0]|] == parts[0];
      assert s[|parts[0]|] == c;
      assert c !in s[..|parts[0]|];
      assert IndexOf(s, c) == Some(|parts[0]|);
      assert s[|parts[0]| + 1..] == JoinWith(parts[1..], c);
      SplitJoin(parts[1..], c);
    } else {
      assert IndexOf(parts[0], c).None?;
    }
  }

  /** Rust's `Ord` for strings: lexicographic order on characters. */
  predicate LessEq(a: string, b: string) {
    a == [] || (b != [] && (a[0] < b[0] || (a[0] == b[0] && LessEq(a[1..], b[1..]))))
  }

  lemma {:induction false} LessEqTotal(a: string, b: string)
    ensures LessEq(a, b) || LessEq(b, a)
  {
    if a != [] && b != [] && a[0] == b[0] {
      LessEqTotal(a[1..], b[1..]);
    }
  }

  lemma {:induction false} LessEqTransitive(a: string, b: string, c: string)
    requires LessEq(a, b) && LessEq(b, c)
    ensures LessEq(a, c)
  {
    if a != [] && b != [] && c != [] && a[0] == b[0] && b[0] == c[0] {
      LessEqTransitive(a[1..], b[1..], c[1..]);
    }
  }

  /**
   * `Path::new(base).join(part)`: an absolute part replaces the base, otherwise
   * a separator is put between them unless the base is empty or already ends
   * with one.
   */
  function JoinPath(base: string, part: string): (r: string)
    ensures EndsWith(r, part)
    ensures !StartsWith(part, "/") && base != [] ==> StartsWith(r, base)
  {
    if StartsWith(part, "/") || base == [] then part
    else if EndsWith(base, "/") then base + part
    else base + "/" + part
  }
}

=== FILE: types.dfy ===
/**
 * The records the engine works on: rules as declared by each technology,
 * the provider's directory entries and the dependency triple.
 */
module Types {
  import opened Wrappers

  /**
   * A regular expression, kept as its source text. Whether a text matches it
   * is decided by a `RegexEngine` that the matching operations receive: the
   * regex engine itself is not part of this model.
   */
  datatype Regex = Regex(source: string)

  /** `Regex::is_match`: does the text match the pattern with this source? */
  type RegexEngine = (string, string) -> bool

  /** One declared dependency pattern of a rule, tagged with its ecosystem (`type`). */
  datatype RuleDependency = RuleDependency(depType: string, name: Option<string>, example: Option<string>)

  /** How a rule recognises its files. */
  datatype RuleFiles =
    | FilesRegex(pattern: Regex, example: string)
    | FilesArray(files: seq<string>)
    | NoFiles
    | MatchFullPath(matchFullPath: bool, pattern: Regex, example: string)

  /**
   * The component detectors of the code base (`ComponentMatcher` function
   * pointers), as a closed set.
   */
  datatype Detector = RustDetector | NodeDetector | DockerDetector

  /** A declarative description of one technology. */
  datatype Rule = Rule(
    tech: string,
    name: string,
    ruleType: string,
    dependencies: Option<seq<RuleDependency>>,
    detect: Option<seq<Detector>>,
    extensions: Option<seq<string>>,
    files: Option<RuleFiles>,
    example: Option<string>)

  /** The technology keys of some rules. */
  function TechsOf(rules: seq<Rule>): set<string> {
    set r | r in rules :: r.tech
  }

  /** `Rule::default()`: empty strings and no optional part. */
  function DefaultRule(): Rule {
    Rule("", "", "", None, None, None, None, None)
  }

  /** A dependency as `(ecosystem, name, version-or-locator)`. */
  type Dependency = (string, string, string)

  datatype FileType = Dir | File

  /** One entry of a directory listing: bare name, kind, and full path. */
  datatype ProviderFile = ProviderFile(name: string, fileType: FileType, fp: string)

  /** Directory names the traversal never descends into. */
  const IgnoredDivePaths: seq<string> := ["node_modules", "dist", "build"]
}

=== FILE: wrappers.dfy ===
/** Failure-compatible wrappers and small collection helpers shared by the model. */
module Wrappers {

  /** Rust's `Option<T>`. */
  datatype Option<+T> = None | Some(value: T) {
    function GetOr(default: T): T {
      match this
      case Some(v) => v
      case None => default
    }
  }

  /** Rust's `Result<T, E>`. */
  datatype Result<+T, +E> = Success(value: T) | Failure(error: E)

  /** Rust's `Result<(), E>`: success without a value. */
  datatype Outcome<+E> = Pass | Fail(error: E)

  /** The set of elements of a sequence. */
  function SetOf<T>(s: seq<T>): set<T> {
    set x | x in s
  }

  /** No element occurs twice. */
  ghost predicate Distinct<T>(s: seq<T>) {
    forall i, j :: 0 <= i < j < |s| ==> s[i] != s[j]
  }

  /** One more element of a prefix: its set grows by that element, which is new when nothing repeats. */
  lemma SetOfStep<T>(s: seq<T>, i: nat)
    requires i < |s|
    ensures SetOf(s[..i + 1]) == SetOf(s[..i]) + {s[i]}
    ensures Distinct(s) ==> s[i] !in SetOf(s[..i])
    ensures s[..i + 1] == s[..i] + [s[i]]
  {
    assert s[..i + 1] == s[..i] + [s[i]];
  }

  /** A prefix one longer is the prefix and the next element; without repetitions, that element is new. */
  lemma PrefixSnoc<T>(s: seq<T>, i: nat)
    requires i < |s|
    ensures s[..i + 1] == s[..i] + [s[i]]
    ensures Distinct(s) ==> s[i] !in s[..i]
  {
  }

  /** Appending a new element keeps a sequence free of repetitions, and adds it to the set. */
  lemma DistinctSnoc<T>(s: seq<T>, x: T)
    requires Distinct(s) && x !in SetOf(s)
    ensures Distinct(s + [x]) && SetOf(s + [x]) == SetOf(s) + {x}
  {
    var t := s + [x];
    forall i, j | 0 <= i < j < |t| ensures t[i] != t[j] {
      assert t[i] == s[i] && s[i] in SetOf(s);
      if j < |s| {
        assert t[j] == s[j];
      }
    }
  }

  /**
   * Lists a finite set in some order. This is how the model iterates over a
   * Rust `HashMap` or `HashSet`: the order is not specified, every element
   * comes exactly once.
   */
  method Enumerate<T(==)>(s: set<T>) returns (r: seq<T>)
    ensures SetOf(r) == s
    ensures Distinct(r)
    ensures |r| == |s|
  {
    r := [];
    var rest := s;
    while rest != {}
      invariant rest !! SetOf(r)
      invariant SetOf(r) + rest == s
      invariant Distinct(r)
      invariant |r| + |rest| == |s|
      decreases |rest|
    {
      var x :| x in rest;
      r := r + [x];
      rest := rest - {x};
    }
  }
}
